=== FILE: README.md ===
# plagentic core, modelled in Dafny

This project models the core of plagentic, a Python framework for teams of
LLM agents. A team (`AgentTeam`) asks a model which member should start on a
task. It runs that member's ReAct loop (`Agent.step`), then keeps asking the
member that just finished for a successor. The chain stops when the sum of
the step counts the members report reaches the team's step budget, or when
no successor is named. In each round an agent reads a
tagged reply (`<thought>`, `<action>`, `<action_input>`, `<final_answer>`)
through a streaming tag parser (`XmlResParser`). It then either stops on a
final answer or runs a tool and goes on. Every run is recorded in execution
records (`AgentExecutionResult`, `TeamResult`).

The model also covers the layers the core relies on:

- the LLM client (`LLMModel` and `ClaudeModel`): request bodies, response
  reshaping, error messages, and server-sent-event streams;
- the model factory and provider enums;
- the fenced-JSON reader `json_loads`.

The model is functional. Every mutable object becomes an immutable datatype.
Every method that mutates becomes a function from the old value to the new
one. The world outside the code is made into parameters:

- model replies: a script of `Reply` values, consumed in call order by the
  initial selection, every agent round and every successor decision. An
  exhausted script answers like a failed connection.
- JSON decoding: the partial function `Decoder`.
- `str()` of floats, lists and dicts: the function `Repr`.
- tool execution: the function `Executor`. It receives the agent, which is
  the tool's `context` and carries its `model`, and returns the tool's result
  together with the actions the tool captured on the agent.
- the clock: a `now` argument.
- uuids: identifier arguments.

Python exceptions that escape an operation are the `Raise` case of
`Outcome`.

Modules follow the source files:

| module | file |
|---|---|
| `Base`, `PyStr`, `Json` | shared helpers: Python string operations, `int()`, truthiness, `dict.get` on decoded JSON |
| `StringUtil` | plagentic/sdk/common/utils/stringUtil.py |
| `XmlParser`, `XmlTags`, `XmlResult`, `XmlChunking` | plagentic/sdk/common/utils/xmlUtil.py |
| `ModelEnums` | plagentic/sdk/common/enums/modelEnums.py |
| `ModelFactory` | plagentic/sdk/models/modelFactory.py |
| `LlmBase` | plagentic/sdk/models/llm/baseModel.py |
| `Claude` | plagentic/sdk/models/llm/claudeModel.py |
| `Results` | plagentic/sdk/core/result.py |
| `Agents` | plagentic/sdk/core/agent.py |
| `Team` | plagentic/sdk/core/team.py |

Behaviours of the code worth knowing, each modelled as written:

- A `final_answer` whose close tag never arrives is returned untrimmed.
  It is the end-of-chunk snapshot of the content since its opening tag
  (xmlUtil.py:84-87).
- `action_input` decoding first tries the prefix up to the last `}`, and
  only then the whole text (xmlUtil.py:297-312).
- The initial selection indexes the member list the Python way: `-1`
  starts the last member (team.py:459). A reply without an `id` raises,
  and the run fails. A boolean id indexes as `0` or `1`, and the first
  record's id is then `"False"` or `"True"` (team.py:453-459, team.py:484).
- The final output of a run is the last non-empty final answer among the
  records (result.py:176-177). The explicit look at the last record in
  `run` never changes it.
- A tool that is unknown or post-process still gets its history entry.
  The entry carries no observation (agent.py:277-293).
- A successor decision may name the asking agent itself. The request hides
  the asking agent only by name, and the reply is not checked against it
  (agent.py:351-415).
- The reported step count is `current_step + 1` when the loop ends
  normally. It is `current_step` when the step ends on an error
  (agent.py:159, agent.py:205, agent.py:316).
- The chain's loop tests only the sum of the reported step counts
  (team.py:513-517), not the team's step counter. A step that ends on a
  model error spends a step of the counter but reports none, so the sum
  can stay below the budget once the counter is spent. From then on every
  member's step returns at once with a count of 0 (agent.py:157-159), and
  the chain goes on as long as the decision replies keep naming a member.
  The counter is also not reset between two `run` calls (team.py:130-170).
  In the model the chain ends because each decision consumes a reply from
  the finite reply script, not because of the budget.
- A tool runs with its agent as `context` (agent.py:118-119, agent.py:327),
  so the actions it captures land in the record of the turn it ran in, and
  a captured final answer replaces the step's answer there
  (team.py:497-503, result.py:91-97). `captured_actions` is never cleared,
  so a member that runs again in the same chain, or in a later `run`, lists
  its earlier captures in its new record too (agent.py:143-145).

## Model

| member | source | states |
|---|---|---|
| StringUtil.Unfenced | plagentic/sdk/common/utils/stringUtil.py:10-13 | a fenced reply reaches the decoder with no "```" left in it; an unfenced one is only trimmed; either way the text is trimmed at both ends |
| StringUtil.FencedReply | plagentic/sdk/common/utils/stringUtil.py:10-13 | "```json" + inner + "```", with no back-tick inside, is decoded as exactly the trimmed inner text |
| StringUtil.StripKeepsNoFence | plagentic/sdk/common/utils/stringUtil.py:13 | trimming cannot create a fence, so the final `strip` keeps the fence removal intact |
| PyStr.NoTicksAfterRemoval | plagentic/sdk/common/utils/stringUtil.py:11-12 | after every "```" has been replaced, no "```" remains, even where removals bring back-ticks together |
| PyStr.FindFirst | plagentic/sdk/common/utils/xmlUtil.py:257 | `str.find` returns the first occurrence at or after the start, and no earlier one exists |
| PyStr.RFindLast | plagentic/sdk/common/utils/xmlUtil.py:299 | `str.rfind` returns the last occurrence, and none lies after it |
| Json.PyInt | plagentic/sdk/core/agent.py:402 | `int()` of a decoded integer is that integer; of null, a list or a dict it raises |
| Json.PyIntGrouped | plagentic/sdk/core/agent.py:402-415 | `int()` reads digit groups joined by an underscore as the digits alone, so an id sent as "1_0" reads as 10 |
| PyStr.ParseGrouped | plagentic/sdk/core/agent.py:402 | an underscore between two digit runs does not change the value `int()` reads, which is the value of the digits |
| Json.PyIntOfRenderedInt | plagentic/sdk/core/agent.py:402-415 | an id sent as the decimal string of n is read by `int()` as n, so a quoted id selects the same member |
| Json.PyAdd | plagentic/sdk/models/llm/claudeModel.py:77-78 | two integer counts add as integers, two strings concatenate, and anything meeting null raises |
| ModelEnums.FromValue | plagentic/sdk/common/enums/modelEnums.py:8-12 | the member found for a value carries that value |
| ModelEnums.ValueRoundTrip | plagentic/sdk/common/enums/modelEnums.py:8-12 | every provider is found again from its value |
| ModelEnums.PrefixTests | plagentic/sdk/common/enums/modelEnums.py:22-32 | the prefixes that mark each provider: gpt, text-davinci or o1 for OpenAI, claude, deepseek, qwen or qwq for Qwen; `Common` has none |
| ModelEnums.ClassifiedByPrefix | plagentic/sdk/common/enums/modelEnums.py:22-32 | a name is classified as provider p exactly when it carries one of p's prefixes, and as `Common` exactly when it carries none, so the order of the tests does not matter |
| ModelEnums.GetApiBase | plagentic/sdk/common/enums/modelEnums.py:45-57 | a missing provider gives ""; the base URL is non-empty exactly for a provider other than `Common` |
| ModelEnums.ApiBasesDistinct | plagentic/sdk/common/enums/modelEnums.py:39-42 | no two providers share a default base URL |
| ModelFactory.FirstListing | plagentic/sdk/models/modelFactory.py:27-31 | a provider is found exactly when some configured entry lists the name, and it is the first such entry in configuration order |
| ModelFactory.DetermineProvider | plagentic/sdk/models/modelFactory.py:12-43 | an explicit provider wins; otherwise the first configured listing; otherwise the provider the name's prefix implies |
| ModelFactory.EntryFor | plagentic/sdk/models/modelFactory.py:60 | the entry found belongs to the configuration under that provider key; no entry means the key is absent |
| ModelFactory.EntryForDistinct | plagentic/sdk/models/modelFactory.py:60 | when each provider is configured once, as in a dict, every entry is the one its provider looks up |
| ModelFactory.GetModel | plagentic/sdk/models/modelFactory.py:45-62 | the model keeps its name and any credentials the caller gave; only missing ones are filled in from the provider's entry |
| ModelFactory.ClientChoice | plagentic/sdk/models/modelFactory.py:64-75 | the OpenAI and DeepSeek clients exactly for their providers; the Claude client exactly for `claude` with no base URL or the Anthropic one; the generic client for unknown providers and for `claude` behind another URL |
| ModelFactory.UnlistedNameFollowsPrefix | plagentic/sdk/models/modelFactory.py:33-75 | a name that no configuration lists, with no explicit provider, gets the OpenAI or DeepSeek client exactly when its prefix names that provider, and the generic client for Qwen and unclassified names |
| LlmBase.NewRequest | plagentic/sdk/models/llm/baseModel.py:14-27 | a new request keeps its messages, with temperature 0.5 and neither JSON format nor streaming |
| LlmBase.Payload | plagentic/sdk/models/llm/baseModel.py:99-105 | the body names the model, messages and temperature; `response_format` is present exactly for JSON requests; `stream` exactly for streaming ones |
| LlmBase.NewResponse | plagentic/sdk/models/llm/baseModel.py:35-40 | missing or empty data reads as `{}`; truthy data is kept as given |
| LlmBase.GetErrorMsg | plagentic/sdk/models/llm/baseModel.py:46-68 | the message is empty exactly for a successful response; every error message ends with the status suffix; a specific server message takes precedence over the generic one |
| LlmBase.StatusReported | plagentic/sdk/models/llm/baseModel.py:52-68 | whatever the server said, the status code can be read back from the error message |
| LlmBase.ErrorInBody | plagentic/sdk/models/llm/baseModel.py:114-126 | an unreadable body raises; an `error` holding a `message` gives that message, any other `error` its `str()`; without `error`, a top-level `message` is taken; a body with neither key yields none |
| LlmBase.BodyErrorMessage | plagentic/sdk/models/llm/baseModel.py:114-126 | undecodable text becomes the message itself (or the default when empty); a decoded body without either key gives the default |
| LlmBase.Call | plagentic/sdk/models/llm/baseModel.py:107-147 | success exactly when the server answered 200 with decodable JSON; a failed connection and an undecodable 200 body report status 0 with "Request failed: " and the reason; any other answer reports its own status |
| LlmBase.DataPayload | plagentic/sdk/models/llm/baseModel.py:206-207 | a payload is found exactly on a `data: ` line, and the line is `data: ` followed by it |
| LlmBase.StreamChunksAppend | plagentic/sdk/models/llm/baseModel.py:203-214 | lines arriving in two batches stream as the chunks of the first batch and then of the second, unless `[DONE]` already ended the stream |
| LlmBase.FramedStreamRoundTrip | plagentic/sdk/models/llm/baseModel.py:203-214 | framing decodable payloads as `data:` lines, then `[DONE]` and any trailer, streams back exactly the decoded payloads in order |
| LlmBase.CallStream | plagentic/sdk/models/llm/baseModel.py:149-228 | a failed connection yields one status-0 "Connection error: " chunk; a non-200 reply yields one error chunk with its status and the message read from its body; a 200 reply yields its stream's chunks, followed by one error chunk when reading the lines broke off before `[DONE]` |
| LlmBase.CutChunk | plagentic/sdk/models/llm/baseModel.py:215-228 | a connection that fails while the lines are read gives a status-0 "Connection error: " chunk; a line that is not UTF-8 gives a status-500 "Unexpected error: " chunk |
| LlmBase.CutStream | plagentic/sdk/models/llm/baseModel.py:203-228 | decodable payloads whose stream breaks off before `[DONE]` come back in order, followed by the error chunk for the break |
| LlmBase.FramedStream | plagentic/sdk/models/llm/baseModel.py:203-214 | framed decodable payloads without `[DONE]` stream back exactly, in order |
| Claude.MaxTokens | plagentic/sdk/models/llm/claudeModel.py:241-245 | 8192 output tokens exactly for the claude-3-5 and claude-3-7 families, 4096 otherwise |
| Claude.SplitSystem | plagentic/sdk/models/llm/claudeModel.py:26-33 | the loop keeps the last system message as the system prompt and every other message in order |
| Claude.LastSystem | plagentic/sdk/models/llm/claudeModel.py:29-31 | there is no system prompt exactly when no message is a system message |
| Claude.NonSystemKeepsOthers | plagentic/sdk/models/llm/claudeModel.py:29-33 | only system messages are dropped; a list without them passes unchanged |
| Claude.NonSystemAppend | plagentic/sdk/models/llm/claudeModel.py:29-33 | the kept messages of a concatenation are those of the parts, in order |
| Claude.Payload | plagentic/sdk/models/llm/claudeModel.py:144-159 | `system` is present exactly for a non-empty last system prompt; `response_format` only when streaming a JSON request (`call` never sends it); the messages are the non-system ones; `max_tokens` follows the family |
| Claude.FirstBlockText | plagentic/sdk/models/llm/claudeModel.py:69 | a reply without content blocks reads as empty text |
| Claude.Usage | plagentic/sdk/models/llm/claudeModel.py:74-79 | the total token count is the sum of the input and output counts |
| Claude.Reshape | plagentic/sdk/models/llm/claudeModel.py:56-80 | the reshaped reply's `choices[0].message.content` is the text of the reply's first content block |
| Claude.Completion | plagentic/sdk/models/llm/claudeModel.py:59-80 | the chat-completions object carries the given text as its content and the given total as `usage.total_tokens` |
| Claude.ReshapeWellFormed | plagentic/sdk/models/llm/claudeModel.py:59-80 | a reply with text and integer counts reshapes to content equal to that text and a total equal to the sum of the counts |
| Claude.Call | plagentic/sdk/models/llm/claudeModel.py:47-119 | success exactly for a decodable 200 reply that reshapes, whose content is then the first block's text; a failed connection and an undecodable 200 body report status 0 with "Request failed: "; a body the reshaping raises on reports status 500 with "Unexpected error: "; any other answer reports its own status |
| Claude.EventText | plagentic/sdk/models/llm/claudeModel.py:203-206 | an event's text is `delta.text` when present, and empty when the event has no delta |
| Claude.ConvertedContent | plagentic/sdk/models/llm/claudeModel.py:203-223 | a converted event carries the event's text as `choices[0].delta.content` |
| Claude.StreamCarriesTexts | plagentic/sdk/models/llm/claudeModel.py:194-225 | a framed stream of convertible events yields one chunk per event, each with its event's text, in order |
| Claude.StreamHead | plagentic/sdk/models/llm/claudeModel.py:194-225 | a framed convertible event heads the stream with its own chunk |
| Claude.CallStream | plagentic/sdk/models/llm/claudeModel.py:161-239 | a failed connection yields one status-0 "Connection error: " chunk; a non-200 reply yields one error chunk with its status and the message read from its body; a 200 reply yields the converted events, with the error chunk for a break in reading last |
| Claude.CutEvents | plagentic/sdk/models/llm/claudeModel.py:194-239 | convertible events whose stream breaks off before `[DONE]` give one chunk per event, carrying its text, and then the error chunk for the break |
| Claude.ApiBase | plagentic/sdk/models/llm/claudeModel.py:8-10 | a given non-empty base URL is kept; the base URL is never empty |
| XmlParser.Snapshot | plagentic/sdk/common/utils/xmlUtil.py:84-87 | at the end of a chunk an open `final_answer` is stored as its untrimmed content; nothing else changes |
| XmlParser.ProcessChunk | plagentic/sdk/common/utils/xmlUtil.py:76-87 | after any chunk an open `final_answer` is stored with its current content |
| XmlParser.Suffix | plagentic/sdk/common/utils/xmlUtil.py:243 | slicing past the end gives "" as Python does |
| XmlParser.RecoverActionInput | plagentic/sdk/common/utils/xmlUtil.py:254-281 | text is recovered exactly when the raw reply contains `<action_input>` |
| XmlTags.FieldNamesAreTagNames | plagentic/sdk/common/utils/xmlUtil.py:26-29 | every content tag is a name the lexer reads as a tag name |
| XmlTags.FeedNameChars | plagentic/sdk/common/utils/xmlUtil.py:133-138 | inside a tag name, name characters only extend the tag buffer |
| XmlTags.FeedTag | plagentic/sdk/common/utils/xmlUtil.py:120-136 | a complete open or close tag is handled once its `>` is read |
| XmlTags.CloseMatching | plagentic/sdk/common/utils/xmlUtil.py:156-178 | a close tag matching the open field stores its trimmed content, marks it null exactly when that is empty, blank or `null`, and leaves no field open |
| XmlTags.CloseMismatched | plagentic/sdk/common/utils/xmlUtil.py:179-181 | a close tag of another field is literal text of the open field and stores nothing |
| XmlTags.OpenSwitches | plagentic/sdk/common/utils/xmlUtil.py:182-197 | outside an open `final_answer`, an open tag switches to its field and discards what the previous field had accumulated |
| XmlTags.OpenInsideAnswer | plagentic/sdk/common/utils/xmlUtil.py:184-187 | while `final_answer` is open, any open tag is literal answer text |
| XmlTags.UnknownTag | plagentic/sdk/common/utils/xmlUtil.py:212-215 | a well-formed tag outside the whitelist is literal text of the open field |
| XmlTags.RootTag | plagentic/sdk/common/utils/xmlUtil.py:148-154 | the `response` tag only sets or clears the in-root flag |
| XmlTags.InvalidTagStart | plagentic/sdk/common/utils/xmlUtil.py:128-131 | `<` followed by anything but `/`, a letter or `_` is literal text, together with that character |
| XmlTags.FeedTextContent | plagentic/sdk/common/utils/xmlUtil.py:92-101 | text without `<` joins the open field's content and changes nothing else but the echo |
| XmlTags.EchoThought | plagentic/sdk/common/utils/xmlUtil.py:103-118 | text in `thought` is echoed in full |
| XmlTags.EchoSilent | plagentic/sdk/common/utils/xmlUtil.py:100-104 | text in `action` and `action_input` is not echoed |
| XmlTags.EchoAnswerStarted | plagentic/sdk/common/utils/xmlUtil.py:113-115 | once the answer text has started, everything is echoed |
| XmlTags.EchoAnswer | plagentic/sdk/common/utils/xmlUtil.py:104-115 | before the answer text starts, leading white space is not echoed and everything from the first other character on is |
| XmlChunking.FeedAppend | plagentic/sdk/common/utils/xmlUtil.py:80-82 | feeding two texts in turn is feeding their concatenation |
| XmlChunking.StepKeepsInv | plagentic/sdk/common/utils/xmlUtil.py:89-142 | every character keeps the in-final-answer flag in step with the open tag |
| XmlChunking.ChunkSettles | plagentic/sdk/common/utils/xmlUtil.py:84-87 | after any chunk, an opened `final_answer` is always present in the stored fields |
| XmlChunking.FeedNorm | plagentic/sdk/common/utils/xmlUtil.py:89-142 | the character machine's result does not depend on the raw text seen or the recorded start offset |
| XmlChunking.ChunksNorm | plagentic/sdk/common/utils/xmlUtil.py:76-87 | any sequence of chunks leaves the state of feeding their concatenation, up to chunk-dependent bookkeeping, with the whole text as raw response |
| XmlChunking.SnappedNeedsNoRecovery | plagentic/sdk/common/utils/xmlUtil.py:239-252 | after the end-of-chunk snapshot, the truncated-answer recovery never changes the result |
| XmlChunking.StartPosUnobservable | plagentic/sdk/common/utils/xmlUtil.py:239-252 | the recorded `final_answer` start offset never affects `get_parsed_data` |
| XmlChunking.ChunkInvariance | plagentic/sdk/common/utils/xmlUtil.py:76-142 | splitting a reply into chunks anywhere, even inside a tag, yields the same parsed data and the same echo as one chunk |
| XmlResult.FindsFirstOpen | plagentic/sdk/common/utils/xmlUtil.py:257 | recovery starts at the first `<action_input>` |
| XmlResult.RecoverClosed | plagentic/sdk/common/utils/xmlUtil.py:257-263 | with a later close tag, the recovered text runs to the next `</action_input>`, trimmed |
| XmlResult.RecoverUpToNextTag | plagentic/sdk/common/utils/xmlUtil.py:264-268 | without a close tag, it runs up to the next `<`, trimmed |
| XmlResult.RecoverToEnd | plagentic/sdk/common/utils/xmlUtil.py:269-270 | without a close tag or a later `<`, it runs to the end, trimmed |
| XmlResult.DecodesObjectPrefix | plagentic/sdk/common/utils/xmlUtil.py:295-303 | a text starting with `{` decodes as its prefix up to the last `}` when that prefix decodes |
| XmlResult.DecodesWholeOnFailure | plagentic/sdk/common/utils/xmlUtil.py:310-315 | when the prefix fails, the whole trimmed text is decoded, and the text stays a string when that fails too |
| XmlResult.NoBraceStaysText | plagentic/sdk/common/utils/xmlUtil.py:307-309 | a text starting with `{` but with no `}` stays a string |
| XmlResult.NonObjectParams | plagentic/sdk/common/utils/xmlUtil.py:316-326 | `null`, `none` (any case) and the empty text become `{}`; any other text stays a string |
| XmlResult.OtherFieldsStored | plagentic/sdk/common/utils/xmlUtil.py:235-342 | `thought` and `action` are returned exactly as stored, and nothing but `action_input` and `final_answer` is ever added |
| XmlResult.FinalAnswerReturned | plagentic/sdk/common/utils/xmlUtil.py:332-336 | a stored final answer is returned untrimmed, or as None when its trimmed text is `null` or `none` in any case |
| XmlResult.TruncatedFinalAnswer | plagentic/sdk/common/utils/xmlUtil.py:84-87 | a reply ending inside `final_answer` yields the untrimmed text since its opening tag, or None for `null`/`none` |
| XmlResult.ParamsDecoded | plagentic/sdk/common/utils/xmlUtil.py:284-303 | for a tool call with a closed `action_input`, the parameters are decoded from the stored text |
| XmlResult.ParamsRecovered | plagentic/sdk/common/utils/xmlUtil.py:254-281 | for a tool call whose `action_input` never closed, the parameters are recovered from the raw reply and then decoded; nothing is added when there is no opening tag |
| XmlResult.ParamsUntouched | plagentic/sdk/common/utils/xmlUtil.py:254-255 | without a live `action`, `action_input` is neither recovered nor decoded |
| XmlResult.ParamsOfNoTool | plagentic/sdk/common/utils/xmlUtil.py:284-288 | an `action` of `null`, `none` or blank leaves the parameters as an undecoded string |
| Results.NewExecution | plagentic/sdk/core/result.py:61-82 | a new record has no actions, an empty answer and no end time |
| Results.Duration | plagentic/sdk/core/result.py:84-89 | only a finished record has a duration: end minus start, else 0 |
| Results.AddAction | plagentic/sdk/core/result.py:91-97 | the action is appended; a final-answer action also becomes the record's answer; nothing else changes |
| Results.LastFinalAnswerAppend | plagentic/sdk/core/result.py:91-97 | the last final answer of two batches of actions is the second batch's, or the first's when the second holds none |
| Results.AddActionsLog | plagentic/sdk/core/result.py:91-97 | after a batch of actions, the log gained exactly that batch at its end, and the answer is the last final-answer action's content, or unchanged when there is none |
| Results.CompleteExecution | plagentic/sdk/core/result.py:99-101 | completing stamps the end time, and the duration becomes the time since start |
| Results.NewTeamResult | plagentic/sdk/core/result.py:150-162 | the id defaults to the `Task`'s; a new result is running, empty and unfinished |
| Results.AddAgentResult | plagentic/sdk/core/result.py:171-177 | the record is appended; a non-empty answer becomes the final output |
| Results.AddAgentResultsLog | plagentic/sdk/core/result.py:171-177 | after adding records in order, they end the log in that order, and the final output is the last non-empty answer among them, or unchanged |
| Results.CompleteTeam | plagentic/sdk/core/result.py:179-189 | the status and end time are set; the `Task` follows only `completed` and `failed`; nothing else changes |
| Results.Success | plagentic/sdk/core/result.py:253-256 | a success result is not an error and keeps its answer and count |
| Results.ErrorResult | plagentic/sdk/core/result.py:258-266 | an error result is an error, keeps the message, and its answer is `Error: ` followed by the message |
| Results.ActionJson | plagentic/sdk/core/result.py:109-125 | an action's dictionary keeps its content and type value; only the record form carries the agent id |
| Results.ExecutionToDict | plagentic/sdk/core/result.py:103-132 | the record's dictionary carries its answer, its actions in the full form, and its duration |
| Results.AgentEntryJson | plagentic/sdk/core/result.py:202-226 | an agent's entry in the team dictionary carries its answer and its actions in the short form |
| Results.TeamToDict | plagentic/sdk/core/result.py:191-234 | the team dictionary carries the records in order, the final output and the status |
| Results.TeamDictKeepsAnswers | plagentic/sdk/core/result.py:202-228 | the team dictionary lists the agents' final answers exactly, in the order the records were added |
| Results.DictKeepsActionOrder | plagentic/sdk/core/result.py:109-126 | each action list in a dictionary keeps the actions' contents in order |
| Agents.FindToolFirst | plagentic/sdk/core/agent.py:112-125 | the tool found is the first of that name and is pre-process; none is found when the first of that name is post-process or there is none |
| Agents.PreTools | plagentic/sdk/core/agent.py:57-63 | the listed tools are exactly the pre-process ones |
| Agents.ToolsPromptLines | plagentic/sdk/core/agent.py:57-63 | one prompt line per pre-process tool, in order; the list is empty exactly when there is no pre-process tool |
| Agents.RunPostTools | plagentic/sdk/core/agent.py:319-330 | each post-process tool runs once, in registration order, on `{}`, and sees the agent with the earlier tools' captures; the agent gains only those captures and the recorded runs |
| Agents.PostCalls | plagentic/sdk/core/agent.py:319-330 | every post-process run gets empty parameters |
| Agents.PostCallsAppend | plagentic/sdk/core/agent.py:319-330 | post-process runs follow registration order, and pre-process tools add none |
| Agents.NewAgent | plagentic/sdk/core/agent.py:16-45 | a new agent has an empty subtask, history, answer and captures, and keeps its tools in order |
| Agents.OutputBlocks | plagentic/sdk/core/agent.py:420-425 | one block per recorded output, in order |
| Agents.FetchAgentsOutputsEmpty | plagentic/sdk/core/agent.py:420-425 | the listing is empty exactly when no output is recorded |
| Agents.CaptureToolUse | plagentic/sdk/core/agent.py:427-459 | exactly one tool-use action carrying the tool result is appended to the captured actions |
| Agents.CaptureThinking | plagentic/sdk/core/agent.py:461-479 | exactly one thinking action with the thought is appended |
| Agents.CaptureFinalAnswer | plagentic/sdk/core/agent.py:481-499 | exactly one final-answer action with the answer is appended |
| Agents.CapturedAnswerWins | plagentic/sdk/core/agent.py:481-499 | a captured final answer becomes the execution record's answer when the captures are added to it |
| Agents.ReadResponse | plagentic/sdk/core/agent.py:229-245 | an error response ends the step with its message; otherwise the reply is read exactly when it has text content |
| Agents.ChunkPiece | plagentic/sdk/core/agent.py:196-225 | a string chunk is fed as is; a truthy `error` field stops the step, and nothing else does |
| Agents.ChoicePiece | plagentic/sdk/core/agent.py:214-221 | a choices lookup never stops the step |
| Agents.Next | plagentic/sdk/core/agent.py:184-229 | the next reply of the script and the rest; an exhausted script gives an error reply and stays empty |
| Agents.StreamTexts | plagentic/sdk/core/agent.py:196-225 | the texts the streaming loop feeds the parser, or the message of the first error chunk; its behaviour is stated by `Agents.DeltaChunksRead` and `Agents.ModesAgree` |
| Agents.ReadStream | plagentic/sdk/core/agent.py:194-228 | the streamed texts parsed in order, or the error that ends the step; stated by `Agents.ModesAgree` |
| Agents.Read | plagentic/sdk/core/agent.py:184-245 | print mode streams and logger mode does not; stated by `Agents.ModesAgree` and `Agents.ReadResponse` |
| Agents.DeltaChunks | plagentic/sdk/core/agent.py:213-220 | one delta chunk per text, in order, each carrying its text in `choices[0].delta.content` |
| Agents.DeltaChunksRead | plagentic/sdk/core/agent.py:196-228 | a stream of delta chunks hands the parser exactly their texts, in order |
| Agents.ModesAgree | plagentic/sdk/core/agent.py:184-245 | the print and logger modes read the same reply alike when the stream carries the response's content |
| Agents.LiveText | plagentic/sdk/core/agent.py:259-275 | a field is live exactly when it is present, truthy and not `null`/`none`; the value returned is the stored string |
| Agents.LiveTextReads | plagentic/sdk/core/agent.py:259-260 | the liveness test never raises on a string or null field |
| Agents.ParsedFieldsAreText | plagentic/sdk/common/utils/xmlUtil.py:235-342 | a parsed `action` is a string and a parsed `final_answer` a string or null, so reading the answer and the action never raises |
| Agents.ActionParsedAsText | plagentic/sdk/common/utils/xmlUtil.py:283-329 | a parsed `action` is always a string |
| Agents.AnswerParsedAsText | plagentic/sdk/common/utils/xmlUtil.py:331-340 | a parsed `final_answer` is a string or null |
| Agents.AnswerStoredAsText | plagentic/sdk/common/utils/xmlUtil.py:239-252 | after the truncated-answer stage, a final answer is a string |
| Agents.UseTool | plagentic/sdk/core/agent.py:274-305 | a tool round adds one history entry with the parsed reply; it has an observation exactly when a callable tool was found, and only then is the tool run, with the agent as its context; its status and result are the observation, its non-empty extra data replaces the agent's, and the actions it captured are added to the agent's; nothing else changes |
| Agents.Round | plagentic/sdk/core/agent.py:184-311 | a round stops on a live answer (running the post-process tools), on a reply without action or on a model error; otherwise it is one tool round; the tools it runs may add captured actions, and none are taken away |
| Agents.Loop | plagentic/sdk/core/agent.py:155-317 | the `while` loop of `step` from a local step counter; its behaviour is stated by `Agents.LoopBudget`, `LoopReplies`, `LoopReport`, `LoopHistory`, `LoopAgent`, `LoopRounds`, `LoopCalls` and `LoopPostRuns` |
| Agents.StepAgent | plagentic/sdk/core/agent.py:134-317 | `step`: the loop from a local counter of zero with the agent's own rounds; stated by `Agents.SpentStepCountsNothing`, `Agents.RefusedStepCountsNone` and `Team.StepFacts` |
| Agents.LoopBudget | plagentic/sdk/core/agent.py:155-162 | a step never pushes the team counter past its maximum, and changes nothing else in the context but the outputs |
| Agents.LoopReplies | plagentic/sdk/core/agent.py:155-245 | a step of k counted rounds consumes exactly k replies |
| Agents.SpentStepCountsNothing | plagentic/sdk/core/agent.py:155-159 | once the team's counter is spent, a step returns an error that counts 0 steps and leaves the agent, the context and the replies unchanged |
| Agents.RefusedStepCountsNone | plagentic/sdk/core/agent.py:155-238 | a step whose first reply is a model error spends one step of the team's counter but reports a count of 0 |
| Agents.LoopReport | plagentic/sdk/core/agent.py:134-317 | the step count follows from the rounds counted and how the step ended; an error is reported exactly for an exhausted team budget or a model error; an output is recorded exactly for a final answer |
| Agents.LoopHistory | plagentic/sdk/core/agent.py:274-305 | a step adds one history entry per tool round and keeps the entries it had |
| Agents.LoopAgent | plagentic/sdk/core/agent.py:258-317 | a step changes only history, extra data, answer, tool runs and captured actions; the answer changes only to a live one it reports, and captured actions are only added |
| Agents.LoopRounds | plagentic/sdk/core/agent.py:274-309 | every history entry a step adds is a tool round of a named action |
| Agents.LoopCalls | plagentic/sdk/core/agent.py:274-293 | a step runs only directly callable tools |
| Agents.LoopPostRuns | plagentic/sdk/core/agent.py:258-272 | a step that answers runs every post-process tool once, in order; any other step runs none |
| Agents.ReadDecision | plagentic/sdk/core/agent.py:396-406 | the id and subtask a decision reply names, or nothing where the `try` block returns -1; stated by `Agents.ReadDecisionFollowsReply` and `Agents.ReadDecisionWithoutId` |
| Agents.ReadDecisionFollowsReply | plagentic/sdk/core/agent.py:395-418 | a reply decoding to `{"id": i, "subtask": s}` names member i with s when i ≥ 0, and nobody when i < 0 |
| Agents.ReadDecisionWithoutId | plagentic/sdk/core/agent.py:397-418 | a reply without an id, or one that is not an object, names nobody |
| Agents.Decide | plagentic/sdk/core/agent.py:395-418 | a member is chosen exactly when the reply names an index within the team; only that member's subtask changes; otherwise nothing changes |
| Agents.ShouldInvokeNext | plagentic/sdk/core/agent.py:340-418 | with no other member, no successor and no request; otherwise the chosen index is in range, or -1 with the team unchanged |
| Agents.MaySelectSelf | plagentic/sdk/core/agent.py:350-415 | the decision may select the asking agent itself |
| Team.NewTeam | plagentic/sdk/core/team.py:18-35 | a new team has no members, a zero step counter and no outputs |
| Team.Add | plagentic/sdk/core/team.py:116-128 | the agent joins at the end and borrows the team's model only when it has none; nothing else changes |
| Team.IndexValue | plagentic/sdk/core/team.py:453-459 | an `int` or a `bool` id indexes the member list, and any other id raises a `TypeError` |
| Team.ListIndex | plagentic/sdk/core/team.py:459 | a list index resolves exactly for ids in [-n, n); a negative one counts from the end |
| Team.SelectInitial | plagentic/sdk/core/team.py:396-465 | a team without a model raises; the selection consumes one reply; a selection keeps the reply's `int` or `bool` id as it was, its member is the one that id indexes, and that member receives the subtask |
| Team.SelectBoolId | plagentic/sdk/core/team.py:453-461 | a reply `{"id": true/false, "subtask": s}` selects member 1 or 0 with s when it exists, keeps the boolean id, whose `str()` is "True" or "False", and selects nobody otherwise |
| Team.SelectFollowsReply | plagentic/sdk/core/team.py:445-461 | a reply `{"id": i, "subtask": s}` selects member i (counted from the end when negative) with s when i is in range, and nobody otherwise |
| Team.MinusOneStartsLast | plagentic/sdk/core/team.py:453-461 | id -1 starts the last member rather than stopping |
| Team.MissingIdRaises | plagentic/sdk/core/team.py:453-462 | a reply without an id raises instead of selecting nobody |
| Team.ChooserFacts | plagentic/sdk/core/team.py:520-527 | the members' own successor choice names -1 or a member's index, keeps every member's name, loses no captured actions, puts no reply back, and consumes one whenever a member is chosen |
| Team.StepFacts | plagentic/sdk/core/team.py:490-492 | an agent's step keeps its name and subtask and only adds captured actions; it changes only the counter and the outputs of the context, and puts no reply back |
| Team.Record | plagentic/sdk/core/team.py:483-506 | the record carries the member's id, name, subtask and captured actions; its answer is the last captured final answer, else the step's answer |
| Team.ToolCaptureRecorded | plagentic/sdk/core/team.py:497-503 | a final answer a tool captures during a tool round becomes the answer of that turn's record, whatever the step answers |
| Team.Execute | plagentic/sdk/core/team.py:483-509 | a member's turn changes no other member, keeps the member's name and subtask, and only adds to its captured actions; the record is that member's and lists all it has captured after the step, including what its tools captured during it; its answer is the last of those final answers, else the step's answer; the context only advances |
| Team.TurnerFacts | plagentic/sdk/core/team.py:483-509 | the members' own turn keeps what the chain relies on |
| Team.TurnFrom | plagentic/sdk/core/team.py:513-559 | a turn that ends the chain holds only this member's record, and it stops for budget exactly when the new total reached the budget; a turn that goes on stayed below the budget, chose an existing member and consumed a reply; members keep their names and only gain captures |
| Team.TurnStepFits | plagentic/sdk/core/team.py:513-559 | the team's own turns fit the chain's requirements |
| Team.SpentTurnGoesOn | plagentic/sdk/core/team.py:513-559 | with the team's counter spent and the sum below the budget, a member's turn counts 0 steps and reads no reply, and the chain goes on to whichever member the decision names, or ends without a successor |
| Team.ChainFrom | plagentic/sdk/core/team.py:480-564 | one record per agent run, in order, the first for the starting member; each record names the member that ran and lists at least the captures it had at the start and none it lacks at the end; the step total is the sum of the counts; the chain stops for budget exactly when the total reached it, and the total stayed below it before the last agent; the members keep their names |
| Team.BelowUntilLastPrefixes | plagentic/sdk/core/team.py:513-517 | the chain's budget condition is exactly that every proper prefix of the step counts stays below the budget |
| Team.Finish | plagentic/sdk/core/team.py:186-197 | the records are added in order, the `Task` and result are completed, and the final output is the last non-empty answer |
| Team.RunOutcome | plagentic/sdk/core/team.py:130-220 | a run ends completed, with records and its final output the last non-empty answer; or it ends failed, with the `Task` failed, no records and no output |
| Team.RunRecords | plagentic/sdk/core/team.py:169-188 | a completed run's records are the chain's, the first for the member the selection reply named, under `str()` of the reply's id: its decimal digits for an `int`, "True" or "False" for a `bool` |
| Team.RunTeam | plagentic/sdk/core/team.py:130-220 | `run` with the turn and the choice as parameters; stated by `Team.RunOutcome`, `Team.RunRecords` and `Team.SelectionErrorFails` |
| Team.Run | plagentic/sdk/core/team.py:130-220 | `run` with the members' own `step` and `should_invoke_next_agent`, under the team's step budget |
| Team.SelectionErrorFails | plagentic/sdk/core/team.py:171-174 | an error reply to the selection request fails the run without records |

## Left out

- Printing, logging and the loading spinner. The only console output modelled is `emitted`, the echo `process_chunk` prints of the thought and final-answer text. The action line `get_parsed_data` prints (xmlUtil.py:305-329) is not modelled.
- The clock, uuids and Python's `id()`. They are arguments.
- The HTTP layer and JSON decoding. They are the `Transport` value and the `Decoder` function. A break while the streamed lines are read is the `Cut` after the lines read so far; the bytes of a line and their UTF-8 decoding are not modelled beyond that.
- `str()` of floats, lists and dicts. It is the `Repr` function.
- Floating-point arithmetic. Times are opaque reals.
- Prompt texts. `_build_react_prompt`, `AGENT_DECISION_PROMPT` and `GROUP_DECISION_PROMPT` are not modelled beyond the parts named in the table, because they only build strings sent to the model.
- `json.dumps` of the action history. It only feeds the prompt. Its error path is not modelled either: `json.dumps(self.action_history[-10:])` (agent.py:166) raises `TypeError` for a tool result that is not JSON-serializable, and that exception escapes `step`. A tool result is a `Json` value here, which always serializes. The same holds for the `json.dumps` of post-process tool results (agent.py:333-337).
- `AgentTeam.run_async`. It repeats `run` as a generator.
- `AgentTeam.from_dict`. It is configuration loading through the tool manager and the model factory.
- `AgentTeam.cleanup`. Closing tools is I/O.
- `Agent.output` and `get_raw_response`. These are trivial or I/O.
- The state a team keeps after an exception escaped `run`. The model returns no team in that case.
- context.py, task.py and baseTool.py are not part of this model. Only the fields of `TeamContext`, `Task` and `BaseTool` that the core reads or writes are modelled. For a tool these are its name, description, parameters and stage; the `context` and `model` the agent sets before a run (agent.py:118-119, 327) are the agent handed to the `Executor`; task status values are a parameter of `Results.TeamToDict`.
- deepseekModel.py and openaiModel.py are not part of this model beyond the client kind the factory chooses.
- The configuration manager. The `models` section is an argument.
- The CLI and the tool manager. These are outside the core.
- `isalpha` and `isalnum`. These are ASCII-only here; Python's Unicode letter and digit categories are not modelled. `isspace` and `strip` use Python's full whitespace set.
- Json.PyInt: `int()` of a string accepts ASCII digits only; Python also reads the other Unicode decimal digits (`int("٣") == 3`), which the model reads as an error.
- LlmBase.Call: an undecodable 200 body is modelled for `requests` 2.27 and later, whose `response.json()` raises a `RequestException`. With an older `requests` the same reply reaches the generic handler and reports status 500 with "Unexpected error: ". No version is pinned in the repository's files.
- Claude.Call: the same assumption about the `requests` version holds for the undecodable 200 body.
- Team.ChainFrom: the turn is a function parameter guarded by `TurnFits`. The guard is proved never to fire for the team's own turns (`Team.TurnStepFits`).
- Agents.LoopReport: the round is a function parameter guarded by `RoundKeeps`. `Agents.Round` is proved to satisfy it.
- Team.ChooserFacts: the same holds for the successor choice and its `ChoiceKeeps` guard.
- Agents.UseTool: a tool's effect on its agent is modelled as the actions it captures with `capture_tool_use`, `capture_thinking` and `capture_final_answer`. A Python tool holding `context` could also change any other field of the agent or of its team context; the model does not allow that.
- Agents.RunPostTools: the same holds for the post-process tools.
- Agents.Round: an exhausted reply script is read as a failed connection rather than modelled further.

=== FILE: agent.dfy ===
/** An agent's ReAct loop (`Agent.step`): each round asks the model for a
    reply, parses it with the XML reply parser, and either stops on a final
    answer, calls the named tool and goes round again, or stops when the
    reply names no action. The model is a script of replies, the tools an
    executor function; prompts, printing and logging are not modelled. */
module Agents {
  import opened Base
  import opened PyStr
  import opened Json
  import opened XmlParser
  import XmlChunking
  import XmlResult
  import opened LlmBase
  import opened StringUtil
  import opened Results

  // ---------------------------------------------------------------------
  // Tools.

  datatype Stage = PreProcess | PostProcess

  /** The parts of a tool the agent reads. */
  datatype Tool = Tool(name: string, description: string, params: string, stage: Stage)

  /** What running a tool returns: its `ToolResult` fields, and the actions
      it captured on its agent (`capture_tool_use`, `capture_thinking`,
      `capture_final_answer`), in the order it captured them. */
  datatype ToolOutcome = ToolOutcome(status: string, result: Json, extData: string, captures: seq<AgentAction>)

  /** Running a tool on its parameters with the agent as its `context` (and
      the agent's model as its `model`); tools are outside this model. */
  type Executor = (Tool, Json, Agent) -> ToolOutcome

  /** One tool run, as the agent issued it. */
  datatype Invocation = Invocation(tool: string, params: Json)

  /** `_find_tool`: the first tool of that name, provided it may be called
      directly (a post-process tool of that name hides any later one). */
  function FindTool(tools: seq<Tool>, name: string): Option<Tool> {
    if tools == [] then None
    else if tools[0].name == name then (if tools[0].stage == PreProcess then Some(tools[0]) else None)
    else FindTool(tools[1..], name)
  }

  /** The tool found is the first one of that name, and a directly callable
      one; nothing is found exactly when no tool has the name or the first
      that has it is a post-process tool. */
  lemma {:induction false} FindToolFirst(tools: seq<Tool>, name: string)
    ensures var r := FindTool(tools, name);
            && (r.Some? ==> r.value.stage == PreProcess && r.value.name == name)
            && (r.Some? ==> exists i | 0 <= i < |tools| ::
                  tools[i] == r.value && forall j | 0 <= j < i :: tools[j].name != name)
            && (r.None? ==> forall i | 0 <= i < |tools| && tools[i].name == name ::
                  tools[i].stage == PostProcess || exists j | 0 <= j < i :: tools[j].name == name)
  {
    if tools != [] && tools[0].name != name {
      FindToolFirst(tools[1..], name);
      var r := FindTool(tools[1..], name);
      if r.Some? {
        var i :| 0 <= i < |tools[1..]| && tools[1..][i] == r.value && forall j | 0 <= j < i :: tools[1..][j].name != name;
        assert tools[i + 1] == r.value;
        forall j | 0 <= j < i + 1 ensures tools[j].name != name {
          if j > 0 { assert tools[j] == tools[1..][j - 1]; }
        }
      } else {
        forall i | 0 <= i < |tools| && tools[i].name == name
          ensures tools[i].stage == PostProcess || exists j | 0 <= j < i :: tools[j].name == name
        {
          assert tools[i] == tools[1..][i - 1];
          if tools[i].stage != PostProcess {
            var j :| 0 <= j < i - 1 && tools[1..][j].name == name;
            assert tools[j + 1].name == name;
          }
        }
      }
    } else if tools != [] && tools[0].stage == PostProcess {
      forall i | 0 <= i < |tools| && tools[i].name == name
        ensures tools[i].stage == PostProcess || exists j | 0 <= j < i :: tools[j].name == name
      {
        if i > 0 { assert tools[0].name == name; }
      }
    }
  }

  /** The prompt line describing one tool. */
  function ToolLine(t: Tool): string {
    t.name + ": " + t.description + " (parameters: " + t.params + ")"
  }

  /** The lines of `_build_tools_prompt`, one per pre-process tool. */
  function ToolLines(tools: seq<Tool>): seq<string> {
    if tools == [] then []
    else (if tools[0].stage == PreProcess then [ToolLine(tools[0])] else []) + ToolLines(tools[1..])
  }

  /** `_build_tools_prompt`. */
  function ToolsPrompt(tools: seq<Tool>): string {
    Join("\n", ToolLines(tools))
  }

  /** The pre-process tools, in registration order. */
  function PreTools(tools: seq<Tool>): (r: seq<Tool>)
    ensures forall t | t in r :: t in tools && t.stage == PreProcess
    ensures forall t | t in tools && t.stage == PreProcess :: t in r
  {
    if tools == [] then []
    else (if tools[0].stage == PreProcess then [tools[0]] else []) + PreTools(tools[1..])
  }

  /** The tool list describes exactly the pre-process tools, one line each
      in registration order, so the prompt is empty exactly when there are
      none. */
  lemma {:induction false} ToolsPromptLines(tools: seq<Tool>)
    ensures |ToolLines(tools)| == |PreTools(tools)|
    ensures forall i | 0 <= i < |ToolLines(tools)| :: ToolLines(tools)[i] == ToolLine(PreTools(tools)[i])
    ensures ToolsPrompt(tools) == "" <==> PreTools(tools) == []
  {
    if tools != [] {
      ToolsPromptLines(tools[1..]);
    }
    var lines := ToolLines(tools);
    if lines != [] {
      assert |ToolLine(PreTools(tools)[0])| > 0;
      JoinNonEmpty(lines);
    }
  }

  /** A join whose first part is non-empty is non-empty. */
  lemma JoinNonEmpty(parts: seq<string>)
    requires parts != [] && parts[0] != ""
    ensures Join("\n", parts) != ""
  {
  }

  /** The run `_execute_post_process_tools` makes of one tool: one on empty
      parameters for a post-process tool, none otherwise. */
  function PostCall(t: Tool): seq<Invocation> {
    if t.stage == PostProcess then [Invocation(t.name, EmptyObject)] else []
  }

  /** The runs of `_execute_post_process_tools`: every post-process tool, in
      registration order, on empty parameters. */
  function PostCalls(tools: seq<Tool>): (r: seq<Invocation>)
    ensures forall i | 0 <= i < |r| :: r[i].params == EmptyObject
  {
    if tools == [] then [] else PostCall(tools[0]) + PostCalls(tools[1..])
  }

  /** One tool's turn in `_execute_post_process_tools`: a post-process tool
      runs on empty parameters with the agent as it stands, and the actions
      it captures are added to the agent's; any other tool is skipped. */
  function PostRun(a: Agent, t: Tool, execute: Executor): (a1: Agent)
    ensures a1 == a.(captured := a1.captured, postRuns := a.postRuns + PostCall(t))
    ensures a.captured <= a1.captured
    ensures PostCall(t) == [] ==> a1 == a
  {
    if t.stage == PostProcess then
      a.(captured := a.captured + execute(t, EmptyObject, a).captures,
         postRuns := a.postRuns + [Invocation(t.name, EmptyObject)])
    else a
  }

  /** `_execute_post_process_tools` on agent `a`, going through `tools` in
      order: each post-process tool runs with the agent as the earlier ones
      left it, and only the captured actions and the recorded runs change. */
  function RunPostTools(a: Agent, tools: seq<Tool>, execute: Executor): (a': Agent)
    ensures a' == a.(captured := a'.captured, postRuns := a'.postRuns)
    ensures a'.postRuns == a.postRuns + PostCalls(tools)
    ensures a.captured <= a'.captured
    ensures PostCalls(tools) == [] ==> a' == a
    decreases |tools|
  {
    if tools == [] then a
    else
      var a1 := PostRun(a, tools[0], execute);
      var a2 := RunPostTools(a1, tools[1..], execute);
      assert PostCalls(tools) == PostCall(tools[0]) + PostCalls(tools[1..]);
      assert a2.postRuns == (a.postRuns + PostCall(tools[0])) + PostCalls(tools[1..]);
      assert a1.captured <= a2.captured;
      a2
  }

  /** Post-process runs follow registration: those of a longer tool list
      extend those of its prefix, and a list without post-process tools runs
      none. */
  lemma {:induction false} PostCallsAppend(a: seq<Tool>, b: seq<Tool>)
    ensures PostCalls(a + b) == PostCalls(a) + PostCalls(b)
    ensures (forall t | t in a :: t.stage == PreProcess) ==> PostCalls(a) == []
  {
    PostCallsConcat(a, b);
    if forall t | t in a :: t.stage == PreProcess {
      PostCallsNone(a);
    }
  }

  lemma {:induction false} PostCallsConcat(a: seq<Tool>, b: seq<Tool>)
    ensures PostCalls(a + b) == PostCalls(a) + PostCalls(b)
  {
    if a == [] {
      assert a + b == b;
    } else {
      var ab := a + b;
      assert ab[0] == a[0] && ab[1..] == a[1..] + b;
      PostCallsConcat(a[1..], b);
      assert PostCalls(ab) == PostCall(a[0]) + PostCalls(a[1..] + b);
    }
  }

  lemma {:induction false} PostCallsNone(a: seq<Tool>)
    requires forall t | t in a :: t.stage == PreProcess
    ensures PostCalls(a) == []
  {
    if a != [] {
      assert a[0] in a;
      assert forall t | t in a[1..] :: t in a;
      PostCallsNone(a[1..]);
    }
  }

  // ---------------------------------------------------------------------
  // The agent and the team context it writes to.

  datatype Mode = Print | Logger

  /** The observation stored with a tool call. */
  datatype Observation = Observation(status: string, result: Json)

  /** An `action_history` entry: the parsed reply, with the tool's
      observation when a tool ran. */
  datatype HistoryEntry = HistoryEntry(parsed: map<Field, Json>, observation: Option<Observation>)

  /** `AgentOutput`. */
  datatype AgentOutput = AgentOutput(agentName: string, output: string)

  /** The part of `TeamContext` an agent reads and writes. */
  datatype Ctx = Ctx(
    name: string,
    description: string,
    teamHasModel: bool,
    currentSteps: int,
    maxSteps: int,
    outputs: seq<AgentOutput>)

  /** An agent's state; `toolCalls` records the tools it called and
      `postRuns` the post-process tools it ran. */
  datatype Agent = Agent(
    name: string,
    systemPrompt: string,
    description: string,
    hasModel: bool,
    tools: seq<Tool>,
    maxSteps: Option<int>,
    mode: Mode,
    subtask: Json,
    history: seq<HistoryEntry>,
    extData: string,
    finalAnswer: string,
    captured: seq<AgentAction>,
    toolCalls: seq<Invocation>,
    postRuns: seq<Invocation>)

  /** The constructor (tools are added in order). */
  function NewAgent(name: string, systemPrompt: string, description: string, hasModel: bool,
                    tools: seq<Tool>, mode: Mode, maxSteps: Option<int>): (a: Agent)
    ensures a.subtask == JStr("") && a.history == [] && a.extData == "" && a.finalAnswer == ""
    ensures a.captured == [] && a.toolCalls == [] && a.postRuns == [] && a.tools == tools
  {
    Agent(name, systemPrompt, description, hasModel, tools, maxSteps, mode, JStr(""), [], "", "", [], [], [])
  }

  /** `_fetch_agents_outputs`. */
  function OutputBlock(o: AgentOutput): string {
    "member name: " + o.agentName + "\noutput content: " + o.output + "\n\n"
  }

  function OutputBlocks(outputs: seq<AgentOutput>): (r: seq<string>)
    ensures |r| == |outputs|
    ensures forall i | 0 <= i < |outputs| :: r[i] == OutputBlock(outputs[i])
  {
    if outputs == [] then [] else [OutputBlock(outputs[0])] + OutputBlocks(outputs[1..])
  }

  function FetchAgentsOutputs(outputs: seq<AgentOutput>): string {
    Join("\n", OutputBlocks(outputs))
  }

  /** Every recorded output is listed, and nothing is listed when there are
      none. */
  lemma FetchAgentsOutputsEmpty(outputs: seq<AgentOutput>)
    ensures FetchAgentsOutputs(outputs) == "" <==> outputs == []
  {
    if outputs != [] {
      assert OutputBlocks(outputs)[0] == OutputBlock(outputs[0]);
      assert |OutputBlock(outputs[0])| > 0;
      JoinNonEmpty(OutputBlocks(outputs));
    }
  }

  // ---------------------------------------------------------------------
  // Captured actions.

  /** `capture_tool_use`; the action's id and time are parameters. */
  function CaptureToolUse(a: Agent, agentId: string, actionId: string, now: real, tool: ToolResult): (r: (Agent, AgentAction))
    ensures r.0 == a.(captured := a.captured + [r.1])
    ensures r.1.actionType == ToolUse && r.1.toolResult == Some(tool) && r.1.agentName == a.name && r.1.content == ""
  {
    var act := AgentAction(agentId, a.name, ToolUse, actionId, "", Some(tool), now);
    (a.(captured := a.captured + [act]), act)
  }

  /** `capture_thinking`. */
  function CaptureThinking(a: Agent, agentId: string, actionId: string, now: real, thought: string): (r: (Agent, AgentAction))
    ensures r.0 == a.(captured := a.captured + [r.1])
    ensures r.1.actionType == Thinking && r.1.content == thought && r.1.toolResult.None?
  {
    var act := AgentAction(agentId, a.name, Thinking, actionId, thought, None, now);
    (a.(captured := a.captured + [act]), act)
  }

  /** `capture_final_answer`. */
  function CaptureFinalAnswer(a: Agent, agentId: string, actionId: string, now: real, answer: string): (r: (Agent, AgentAction))
    ensures r.0 == a.(captured := a.captured + [r.1])
    ensures r.1.actionType == ActionType.FinalAnswer && r.1.content == answer && r.1.toolResult.None?
  {
    var act := AgentAction(agentId, a.name, ActionType.FinalAnswer, actionId, answer, None, now);
    (a.(captured := a.captured + [act]), act)
  }

  /** A captured final answer becomes the execution record's answer when
      the captured actions are added to it. */
  lemma CapturedAnswerWins(a: Agent, agentId: string, actionId: string, now: real, answer: string,
                           r: AgentExecutionResult)
    ensures var a' := CaptureFinalAnswer(a, agentId, actionId, now, answer).0;
            AddActions(r, a'.captured).finalAnswer == answer
  {
    var a' := CaptureFinalAnswer(a, agentId, actionId, now, answer).0;
    AddActionsLog(r, a'.captured);
    assert a'.captured[..|a'.captured| - 1] == a.captured;
  }

  // ---------------------------------------------------------------------
  // Reading a reply.

  /** One reply of the model: the response `call` returns and the chunks
      `call_stream` yields for the same request. */
  datatype Reply = Reply(response: LlmResponse, chunks: seq<Json>)

  /** When the script of replies is used up the model is unreachable. */
  const NoReply: Reply :=
    Reply(NewResponse(false, None, JStr("Request failed: no reply"), 0),
          [ErrorChunk(0, JStr("Connection error: no reply"))])

  function Next(replies: seq<Reply>): (r: (Reply, seq<Reply>))
    ensures replies != [] ==> r == (replies[0], replies[1..])
    ensures replies == [] ==> r.1 == [] && IsError(r.0.response)
  {
    if replies == [] then (NoReply, []) else (replies[0], replies[1..])
  }

  /** A reply read by the agent: the parsed fields, or the error that ends
      the step. */
  datatype Reading = Parsed(fields: map<Field, Json>) | Refused(message: string)

  /** The non-streaming branch: an error response ends the step with its
      message; otherwise the reply's content is parsed in one chunk
      (`Raise` when the content is missing or not a string). */
  function ReadResponse(resp: LlmResponse, decode: Decoder, repr: Repr): (r: Outcome<Reading>)
    ensures IsError(resp) ==> r == Ok(Refused(GetErrorMsg(resp, repr)))
    ensures !IsError(resp) ==> (r.Ok? <==> ReplyContent(resp.data).Some? && ReplyContent(resp.data).value.JStr?)
  {
    if IsError(resp) then Ok(Refused(GetErrorMsg(resp, repr)))
    else match ReplyContent(resp.data)
      case Some(JStr(s)) => Ok(Parsed(GetParsedData(ProcessChunk(Init, s), decode)))
      case _ => Raise
  }

  /** What one streamed chunk contributes. */
  datatype Piece = Text(s: string) | Nothing | Stop(message: string)

  /** Python's `len(x)`, `None` where it raises. */
  function Size(j: Json): Option<nat> {
    match j
    case JStr(s) => Some(|s|)
    case JArr(items) => Some(|items|)
    case JObj(f) => Some(|f|)
    case _ => None
  }

  /** Python's `key in x` for a string key, `None` where it raises. */
  function PyIn(key: string, j: Json): Option<bool> {
    match j
    case JObj(f) => Some(key in f)
    case JArr(items) => Some(JStr(key) in items)
    case JStr(s) => Some(Contains(s, key))
    case _ => None
  }

  /** One chunk of the streaming loop: an error object stops the step with
      its message; a chunk dict contributes its delta content, if any; a
      string is content itself. Python raises where a value does not
      support `len`, `[0]`, `.get`, `in`, `[]` or `+=` on a string. */
  function ChunkPiece(chunk: Json, repr: Repr): (r: Outcome<Piece>)
    ensures chunk.JStr? ==> r == Ok(Text(chunk.s))
    ensures r == Ok(Nothing) ==> chunk.JObj?
    ensures (chunk.JObj? && Truthy(GetOr(chunk.fields, "error", JBool(false)))) <==> r.Ok? && r.value.Stop?
  {
    match chunk
    case JStr(s) => Ok(Text(s))
    case JObj(f) =>
      if Truthy(GetOr(f, "error", JBool(false))) then Ok(Stop(Show(GetOr(f, "message", JStr(UnknownError)), repr)))
      else if "choices" !in f then Ok(Nothing)
      else
        ChoicePiece(f["choices"])
    case _ => Raise
  }

  /** The lookups on a chunk's `choices`. */
  function ChoicePiece(choices: Json): (r: Outcome<Piece>)
    ensures r.Ok? ==> !r.value.Stop?
  {
    match Size(choices)
    case None => Raise
    case Some(n) =>
      if n == 0 then Ok(Nothing)
      else if !choices.JArr? || !choices.items[0].JObj? then Raise
      else
        var delta := GetOr(choices.items[0].fields, "delta", EmptyObject);
        match PyIn("content", delta)
        case None => Raise
        case Some(false) => Ok(Nothing)
        case Some(true) =>
          if delta.JObj? && delta.fields["content"].JStr? then Ok(Text(delta.fields["content"].s))
          else Raise
  }

  /** The streaming loop over all chunks: the texts fed to the parser, or
      the error message of the first error chunk. */
  datatype Streamed = Texts(texts: seq<string>) | Stopped(message: string)

  function StreamTexts(chunks: seq<Json>, repr: Repr): Outcome<Streamed> {
    if chunks == [] then Ok(Texts([]))
    else
      match ChunkPiece(chunks[0], repr)
      case Raise => Raise
      case Ok(Stop(m)) => Ok(Stopped(m))
      case Ok(Nothing) => StreamTexts(chunks[1..], repr)
      case Ok(Text(s)) =>
        match StreamTexts(chunks[1..], repr)
        case Ok(Texts(ts)) => Ok(Texts([s] + ts))
        case other => other
  }

  /** The streaming branch: the chunks' texts are parsed one by one. */
  function ReadStream(chunks: seq<Json>, decode: Decoder, repr: Repr): Outcome<Reading> {
    match StreamTexts(chunks, repr)
    case Raise => Raise
    case Ok(Stopped(m)) => Ok(Refused(m))
    case Ok(Texts(ts)) => Ok(Parsed(GetParsedData(ProcessChunks(Init, ts), decode)))
  }

  /** Print mode streams, logger mode does not. */
  function Read(mode: Mode, reply: Reply, decode: Decoder, repr: Repr): Outcome<Reading> {
    if mode == Print then ReadStream(reply.chunks, decode, repr) else ReadResponse(reply.response, decode, repr)
  }

  /** The chunk an OpenAI-style stream carries for one piece of text. */
  function DeltaChunk(s: string): Json {
    JObj(map["choices" := JArr([JObj(map["delta" := JObj(map["content" := JStr(s)])])])])
  }

  function DeltaChunks(texts: seq<string>): (r: seq<Json>)
    ensures |r| == |texts|
    ensures forall i | 0 <= i < |texts| :: r[i] == DeltaChunk(texts[i])
  {
    if texts == [] then [] else [DeltaChunk(texts[0])] + DeltaChunks(texts[1..])
  }

  /** A stream of delta chunks hands the parser exactly their texts. */
  lemma {:induction false} DeltaChunksRead(texts: seq<string>, repr: Repr)
    ensures StreamTexts(DeltaChunks(texts), repr) == Ok(Texts(texts))
  {
    if texts != [] {
      var c := DeltaChunk(texts[0]);
      var choice := JObj(map["delta" := JObj(map["content" := JStr(texts[0])])]);
      assert c.fields["choices"] == JArr([choice]);
      assert "error" !in c.fields;
      var delta := GetOr(choice.fields, "delta", EmptyObject);
      assert delta == JObj(map["content" := JStr(texts[0])]);
      assert PyIn("content", delta) == Some(true);
      assert ChoicePiece(JArr([choice])) == Ok(Text(texts[0]));
      assert ChunkPiece(c, repr) == Ok(Text(texts[0]));
      assert DeltaChunks(texts)[0] == c;
      assert [texts[0]] + texts[1..] == texts;
      DeltaChunksRead(texts[1..], repr);
      assert DeltaChunks(texts)[1..] == DeltaChunks(texts[1..]);
    }
  }

  /** The two output modes read the same reply alike: streaming it in
      pieces yields the same parsed fields as receiving it whole. */
  lemma ModesAgree(texts: seq<string>, resp: LlmResponse, decode: Decoder, repr: Repr)
    requires !IsError(resp) && ReplyContent(resp.data) == Some(JStr(Concat(texts)))
    ensures Read(Print, Reply(resp, DeltaChunks(texts)), decode, repr) == Read(Logger, Reply(resp, DeltaChunks(texts)), decode, repr)
  {
    DeltaChunksRead(texts, repr);
    XmlChunking.ChunkInvariance(texts, decode);
  }

  /** The value of a parsed field if it is a live answer or action: present,
      truthy, and not the word `null` or `none` in any case. Testing the word
      on a non-string raises. */
  function LiveText(parsed: map<Field, Json>, f: Field): (r: Outcome<Option<string>>)
    ensures r == Ok(None) <==> f !in parsed || !Truthy(parsed[f]) || (parsed[f].JStr? && IsNoneWord(parsed[f].s))
    ensures r.Ok? && r.value.Some? ==> f in parsed && parsed[f] == JStr(r.value.value)
                                        && r.value.value != "" && !IsNoneWord(r.value.value)
  {
    if f !in parsed || !Truthy(parsed[f]) then Ok(None)
    else match parsed[f]
      case JStr(s) => if IsNoneWord(s) then Ok(None) else Ok(Some(s))
      case _ => Raise
  }

  /** The fields of a parsed reply are strings, except for a decoded
      `action_input` and a final answer that read `null`; so reading the
      answer and the action never raises. */
  lemma ParsedFieldsAreText(p: Parser, decode: Decoder)
    ensures var parsed := GetParsedData(p, decode);
            && (Action in parsed ==> parsed[Action].JStr?)
            && (Field.FinalAnswer in parsed ==> parsed[Field.FinalAnswer].JStr? || parsed[Field.FinalAnswer].JNull?)
            && LiveText(parsed, Action).Ok? && LiveText(parsed, Field.FinalAnswer).Ok?
  {
    var parsed := GetParsedData(p, decode);
    ActionParsedAsText(p, decode);
    AnswerParsedAsText(p, decode);
    LiveTextReads(parsed, Action);
    LiveTextReads(parsed, Field.FinalAnswer);
  }

  /** `LiveText` raises only on a value other than a string or `null`. */
  lemma LiveTextReads(parsed: map<Field, Json>, f: Field)
    requires f in parsed ==> parsed[f].JStr? || parsed[f].JNull?
    ensures LiveText(parsed, f).Ok?
  {
  }

  /** A parsed action is a string. */
  lemma ActionParsedAsText(p: Parser, decode: Decoder)
    ensures var parsed := GetParsedData(p, decode);
            Action in parsed ==> parsed[Action].JStr?
  {
    var r1 := WithTruncatedFinalAnswer(p, Stored(p));
    var r2 := WithRecoveredActionInput(p, r1);
    var r3 := WithDecodedParams(p, r2, decode);
    XmlResult.ActionFieldsStored(p);
    XmlResult.RecoveredStage(p, r1, Action);
    XmlResult.DecodedStage(p, r2, decode, Action);
    XmlResult.NullStage(r3, Action);
  }

  /** A parsed final answer is a string or `null`. */
  lemma AnswerParsedAsText(p: Parser, decode: Decoder)
    ensures var parsed := GetParsedData(p, decode);
            Field.FinalAnswer in parsed ==> parsed[Field.FinalAnswer].JStr? || parsed[Field.FinalAnswer].JNull?
  {
    var r1 := WithTruncatedFinalAnswer(p, Stored(p));
    var r2 := WithRecoveredActionInput(p, r1);
    var r3 := WithDecodedParams(p, r2, decode);
    AnswerStoredAsText(p);
    XmlResult.RecoveredStage(p, r1, Field.FinalAnswer);
    XmlResult.DecodedStage(p, r2, decode, Field.FinalAnswer);
  }

  /** After the truncated-answer stage a final answer is a string. */
  lemma AnswerStoredAsText(p: Parser)
    ensures var r1 := WithTruncatedFinalAnswer(p, Stored(p));
            Field.FinalAnswer in r1 ==> r1[Field.FinalAnswer].JStr?
  {
  }

  /** `parsed.get("action_input", {})`. */
  function ParamsOf(parsed: map<Field, Json>): Json {
    if ActionInput in parsed then parsed[ActionInput] else EmptyObject
  }

  /** A tool round: the named tool runs if it may be called, its
      observation and extra data are kept, and the parsed reply joins the
      history either way. */
  function UseTool(a: Agent, parsed: map<Field, Json>, action: string, execute: Executor): (a': Agent)
    ensures a' == a.(history := a'.history, extData := a'.extData, toolCalls := a'.toolCalls, captured := a'.captured)
    ensures |a'.history| == |a.history| + 1 && a'.history[..|a.history|] == a.history
    ensures a'.history[|a.history|].parsed == parsed
    ensures a'.history[|a.history|].observation.Some? <==> FindTool(a.tools, action).Some?
    ensures FindTool(a.tools, action).None? ==>
              a'.toolCalls == a.toolCalls && a'.extData == a.extData && a'.captured == a.captured
    ensures FindTool(a.tools, action).Some? ==>
              && a'.toolCalls == a.toolCalls + [Invocation(action, ParamsOf(parsed))]
              && var out := execute(FindTool(a.tools, action).value, ParamsOf(parsed), a);
                 && a'.history[|a.history|].observation == Some(Observation(out.status, out.result))
                 && a'.extData == (if out.extData != "" then out.extData else a.extData)
                 && a'.captured == a.captured + out.captures
  {
    match FindTool(a.tools, action)
    case None => a.(history := a.history + [HistoryEntry(parsed, None)])
    case Some(t) =>
      var out := execute(t, ParamsOf(parsed), a);
      a.(history := a.history + [HistoryEntry(parsed, Some(Observation(out.status, out.result)))],
         extData := if out.extData != "" then out.extData else a.extData,
         toolCalls := a.toolCalls + [Invocation(action, ParamsOf(parsed))],
         captured := a.captured + out.captures)
  }

  // ---------------------------------------------------------------------
  // The loop.

  /** Why a step ended. */
  datatype Ending = Answer | NoAction | StepLimit | OverBudget | ModelFailure

  /** The end of a step: its result and what it left behind. */
  datatype Run = Run(result: AgentResult, agent: Agent, ctx: Ctx, replies: seq<Reply>, ending: Ending)

  /** How the reported step count relates to the rounds the team counted. */
  function CountOffset(e: Ending): int {
    match e
    case StepLimit => 1
    case ModelFailure => -1
    case _ => 0
  }

  /** How many of the counted rounds called no tool. */
  function FinalRounds(e: Ending): nat {
    if e in {Answer, NoAction, ModelFailure} then 1 else 0
  }

  function Min(a: int, b: int): int {
    if a <= b then a else b
  }

  function Max(a: int, b: int): int {
    if a <= b then b else a
  }

  /** A history entry of a tool round: the reply named an action, and a
      tool ran exactly when the agent has a directly callable tool of that
      name. */
  predicate ToolRound(tools: seq<Tool>, e: HistoryEntry) {
    && Action in e.parsed && e.parsed[Action].JStr?
    && (e.observation.Some? <==> FindTool(tools, e.parsed[Action].s).Some?)
  }

  /** The tool runs were extended only with runs of directly callable
      tools. */
  predicate Called(tools: seq<Tool>, before: seq<Invocation>, after: seq<Invocation>) {
    before <= after && AllCallable(tools, after[|before|..])
  }

  /** Every run is of a directly callable tool. */
  predicate AllCallable(tools: seq<Tool>, calls: seq<Invocation>) {
    calls == [] || (FindTool(tools, calls[0].tool).Some? && AllCallable(tools, calls[1..]))
  }

  lemma {:induction false} AllCallableAppend(tools: seq<Tool>, x: seq<Invocation>, y: seq<Invocation>)
    ensures AllCallable(tools, x + y) <==> AllCallable(tools, x) && AllCallable(tools, y)
  {
    if x == [] {
      assert x + y == y;
    } else {
      AllCallableAppend(tools, x[1..], y);
      assert (x + y)[1..] == x[1..] + y;
    }
  }

  lemma CalledRefl(tools: seq<Tool>, x: seq<Invocation>)
    ensures Called(tools, x, x)
  {
    assert x[|x|..] == [];
  }

  lemma CalledTrans(tools: seq<Tool>, x: seq<Invocation>, y: seq<Invocation>, z: seq<Invocation>)
    requires Called(tools, x, y) && Called(tools, y, z)
    ensures Called(tools, x, z)
  {
    assert z[|x|..] == y[|x|..] + z[|y|..];
    AllCallableAppend(tools, y[|x|..], z[|y|..]);
  }

  /** What one round decides once the team has counted it. */
  datatype Turn = Halt(result: AgentResult, agent: Agent, ending: Ending) | Continue(agent: Agent) | Thrown

  /** What a round promises the loop. A stop is a live answer, a reply
      without action or a model error, counted as round `cs + 1` (plus the
      answer's offset), an error result exactly for the model error; an
      answer sets the agent's final answer to the live one reported and
      runs the post-process tools, any other stop leaves the agent as it
      was, and a reply without action reports the agent's earlier answer.
      A tool round adds one history entry, records the action it named and
      whether a tool ran, runs only a directly callable tool, and changes
      nothing else. The tools that run may add captured actions; none are
      taken away. */
  predicate RoundKeeps(a: Agent, cs: int, t: Turn) {
    && (t.Halt? ==>
          && t.ending in {Answer, NoAction, ModelFailure}
          && t.result.stepCount == cs + 1 + CountOffset(t.ending)
          && (IsErrorResult(t.result) <==> t.ending == ModelFailure))
    && (t.Halt? && t.ending == Answer ==>
          && t.agent == a.(finalAnswer := t.result.finalAnswer, postRuns := a.postRuns + PostCalls(a.tools),
                           captured := t.agent.captured)
          && a.captured <= t.agent.captured
          && t.result.finalAnswer != "" && !IsNoneWord(t.result.finalAnswer))
    && (t.Halt? && t.ending != Answer ==> t.agent == a)
    && (t.Halt? && t.ending == NoAction ==> t.result.finalAnswer == a.finalAnswer)
    && (t.Continue? ==>
          && t.agent == a.(history := t.agent.history, extData := t.agent.extData, toolCalls := t.agent.toolCalls,
                           captured := t.agent.captured)
          && a.captured <= t.agent.captured
          && |t.agent.history| == |a.history| + 1 && t.agent.history[..|a.history|] == a.history
          && ToolRound(a.tools, t.agent.history[|a.history|])
          && Called(a.tools, a.toolCalls, t.agent.toolCalls))
  }

  /** The body of one round with local step counter `cs`: read the reply,
      then stop on a live final answer (running the post-process tools),
      call the tool of a live action and go on, or stop. */
  function Round(a: Agent, reading: Outcome<Reading>, cs: int, execute: Executor): (t: Turn)
    ensures RoundKeeps(a, cs, t)
  {
    match reading
    case Raise => Thrown
    case Ok(Refused(m)) => Halt(ErrorResult(m, cs), a, ModelFailure)
    case Ok(Parsed(parsed)) =>
      match LiveText(parsed, Field.FinalAnswer)
      case Raise => Thrown
      case Ok(Some(fa)) =>
        Halt(Success(fa, cs + 1), RunPostTools(a.(finalAnswer := fa), a.tools, execute), Answer)
      case Ok(None) =>
        match LiveText(parsed, Action)
        case Raise => Thrown
        case Ok(None) => Halt(Success(a.finalAnswer, cs + 1), a, NoAction)
        case Ok(Some(action)) => Continue(UseTool(a, parsed, action, execute))
  }

  /** One round as the loop plays it: the agent, the reply it reads and its
      local step counter. */
  type Rounder = (Agent, Reply, int) -> Turn

  /** The round of an agent reading replies in output mode `mode`. */
  function RounderFor(mode: Mode, decode: Decoder, repr: Repr, execute: Executor): Rounder {
    (a: Agent, reply: Reply, cs: int) => Round(a, Read(mode, reply, decode, repr), cs, execute)
  }

  /** The `while` loop of `step` from a round with local step counter `cs`.
      `Raise` stands for an exception escaping `step`. */
  function Loop(a: Agent, ctx: Ctx, replies: seq<Reply>, cs: int, round: Rounder): Outcome<Run>
    decreases Max(ctx.maxSteps - ctx.currentSteps, 0)
  {
    if !(a.maxSteps.None? || cs < a.maxSteps.value) then
      Ok(Run(Success(a.finalAnswer, cs + 1), a, ctx, replies, StepLimit))
    else if ctx.currentSteps >= ctx.maxSteps then
      Ok(Run(ErrorResult("Team's max steps reached", cs), a, ctx, replies, OverBudget))
    else if !a.hasModel && !ctx.teamHasModel then
      Raise
    else
      var ctx1 := ctx.(currentSteps := ctx.currentSteps + 1);
      var next := Next(replies);
      var t := round(a, next.0, cs);
      if !RoundKeeps(a, cs, t) then Raise
      else match t
      case Thrown => Raise
      case Halt(result, a1, ending) =>
        var outputs := if ending == Answer then ctx.outputs + [AgentOutput(a.name, result.finalAnswer)] else ctx.outputs;
        Ok(Run(result, a1, ctx1.(outputs := outputs), next.1, ending))
      case Continue(a1) => Loop(a1, ctx1, next.1, cs + 1, round)
  }

  /** The team's counter: a step counts `k` rounds, never pushes the counter
      past the team's maximum, and changes nothing else in the context but
      the outputs. */
  lemma {:induction false} LoopBudget(a: Agent, ctx: Ctx, replies: seq<Reply>, cs: int,
                                      round: Rounder)
    ensures var r := Loop(a, ctx, replies, cs, round);
            r.Ok? ==>
              var k := r.value.ctx.currentSteps - ctx.currentSteps;
              && 0 <= k
              && r.value.ctx == ctx.(currentSteps := r.value.ctx.currentSteps, outputs := r.value.ctx.outputs)
              && r.value.ctx.currentSteps <= Max(ctx.currentSteps, ctx.maxSteps)
    decreases Max(ctx.maxSteps - ctx.currentSteps, 0)
  {
    if (a.maxSteps.None? || cs < a.maxSteps.value) && ctx.currentSteps < ctx.maxSteps
       && (a.hasModel || ctx.teamHasModel)
    {
      var ctx1 := ctx.(currentSteps := ctx.currentSteps + 1);
      var next := Next(replies);
      var t := round(a, next.0, cs);
      if RoundKeeps(a, cs, t) && t.Continue? {
        LoopBudget(t.agent, ctx1, next.1, cs + 1, round);
      }
    }
  }

  /** The replies: a step of `k` rounds consumes `k` of them. */
  lemma {:induction false} LoopReplies(a: Agent, ctx: Ctx, replies: seq<Reply>, cs: int,
                                       round: Rounder)
    ensures var r := Loop(a, ctx, replies, cs, round);
            r.Ok? ==>
              var k := r.value.ctx.currentSteps - ctx.currentSteps;
              && 0 <= k
              && r.value.replies == Skip(replies, k)
    decreases Max(ctx.maxSteps - ctx.currentSteps, 0)
  {
    if (a.maxSteps.None? || cs < a.maxSteps.value) && ctx.currentSteps < ctx.maxSteps
       && (a.hasModel || ctx.teamHasModel)
    {
      var ctx1 := ctx.(currentSteps := ctx.currentSteps + 1);
      var next := Next(replies);
      var t := round(a, next.0, cs);
      if RoundKeeps(a, cs, t) && t.Continue? {
        LoopReplies(t.agent, ctx1, next.1, cs + 1, round);
        var r := Loop(t.agent, ctx1, next.1, cs + 1, round);
        if r.Ok? {
          var k := r.value.ctx.currentSteps - ctx1.currentSteps;
          assert Skip(replies, k + 1) == Skip(next.1, k);
        }
      }
    }
  }

  /** The replies left after `k` have been consumed. */
  function Skip(replies: seq<Reply>, k: nat): (rest: seq<Reply>)
    ensures |rest| == |replies| - Min(k, |replies|)
  {
    if k == 0 then replies else Skip(Next(replies).1, k - 1)
  }

  /** Skipping `k` replies drops the first `k`, or all of them. */
  lemma {:induction false} SkipDrops(replies: seq<Reply>, k: nat)
    ensures Skip(replies, k) == replies[Min(k, |replies|)..]
  {
    if k > 0 {
      SkipDrops(Next(replies).1, k - 1);
      if replies != [] {
        assert replies[1..][Min(k - 1, |replies| - 1)..] == replies[Min(k, |replies|)..];
      }
    }
  }

  /** What a step reports: a step count determined by the rounds counted and
      how the step ended; an error result exactly for an exhausted team
      budget and a model error; and a record in the team's outputs exactly
      for a final answer. */
  lemma {:induction false} LoopReport(a: Agent, ctx: Ctx, replies: seq<Reply>, cs: int,
                                      round: Rounder)
    ensures var r := Loop(a, ctx, replies, cs, round);
            r.Ok? ==>
              var k := r.value.ctx.currentSteps - ctx.currentSteps;
              && r.value.result.stepCount == cs + k + CountOffset(r.value.ending)
              && (IsErrorResult(r.value.result) <==> r.value.ending in {OverBudget, ModelFailure})
              && r.value.ctx.outputs == ctx.outputs +
                   (if r.value.ending == Answer then [AgentOutput(a.name, r.value.result.finalAnswer)] else [])
    decreases Max(ctx.maxSteps - ctx.currentSteps, 0)
  {
    if (a.maxSteps.None? || cs < a.maxSteps.value) && ctx.currentSteps < ctx.maxSteps
       && (a.hasModel || ctx.teamHasModel)
    {
      var ctx1 := ctx.(currentSteps := ctx.currentSteps + 1);
      var next := Next(replies);
      var t := round(a, next.0, cs);
      if RoundKeeps(a, cs, t) && t.Continue? {
        LoopReport(t.agent, ctx1, next.1, cs + 1, round);
      }
    }
  }

  /** The history: a step adds one entry per tool round and keeps the
      entries it had. */
  lemma {:induction false} LoopHistory(a: Agent, ctx: Ctx, replies: seq<Reply>, cs: int,
                                       round: Rounder)
    ensures var r := Loop(a, ctx, replies, cs, round);
            r.Ok? ==>
              var k := r.value.ctx.currentSteps - ctx.currentSteps;
              && |r.value.agent.history| == |a.history| + k - FinalRounds(r.value.ending)
              && a.history <= r.value.agent.history
    decreases Max(ctx.maxSteps - ctx.currentSteps, 0)
  {
    if (a.maxSteps.None? || cs < a.maxSteps.value) && ctx.currentSteps < ctx.maxSteps
       && (a.hasModel || ctx.teamHasModel)
    {
      var ctx1 := ctx.(currentSteps := ctx.currentSteps + 1);
      var next := Next(replies);
      var t := round(a, next.0, cs);
      if RoundKeeps(a, cs, t) && t.Continue? {
        LoopHistory(t.agent, ctx1, next.1, cs + 1, round);
      }
    }
  }

  /** The agent: a step changes nothing but its history, extra data, final
      answer, tool runs and captured actions, replaces the final answer only
      with a live one it reports, and only adds to the captured actions. */
  lemma {:induction false} LoopAgent(a: Agent, ctx: Ctx, replies: seq<Reply>, cs: int,
                                     round: Rounder)
    ensures var r := Loop(a, ctx, replies, cs, round);
            r.Ok? ==>
              && r.value.agent == a.(history := r.value.agent.history, extData := r.value.agent.extData,
                                     finalAnswer := r.value.agent.finalAnswer, toolCalls := r.value.agent.toolCalls,
                                     postRuns := r.value.agent.postRuns, captured := r.value.agent.captured)
              && a.captured <= r.value.agent.captured
              && (r.value.ending == Answer ==>
                    && r.value.agent.finalAnswer == r.value.result.finalAnswer
                    && r.value.result.finalAnswer != "" && !IsNoneWord(r.value.result.finalAnswer))
              && (r.value.ending in {NoAction, StepLimit} ==> r.value.result.finalAnswer == a.finalAnswer)
              && (r.value.ending != Answer ==> r.value.agent.finalAnswer == a.finalAnswer)
    decreases Max(ctx.maxSteps - ctx.currentSteps, 0)
  {
    if (a.maxSteps.None? || cs < a.maxSteps.value) && ctx.currentSteps < ctx.maxSteps
       && (a.hasModel || ctx.teamHasModel)
    {
      var ctx1 := ctx.(currentSteps := ctx.currentSteps + 1);
      var next := Next(replies);
      var t := round(a, next.0, cs);
      if RoundKeeps(a, cs, t) && t.Continue? {
        LoopAgent(t.agent, ctx1, next.1, cs + 1, round);
      }
    }
  }

  /** Every history entry a step adds is a tool round. */
  lemma {:induction false} LoopRounds(a: Agent, ctx: Ctx, replies: seq<Reply>, cs: int,
                                      round: Rounder)
    ensures var r := Loop(a, ctx, replies, cs, round);
            r.Ok? ==> forall i | |a.history| <= i < |r.value.agent.history| :: ToolRound(a.tools, r.value.agent.history[i])
    decreases Max(ctx.maxSteps - ctx.currentSteps, 0)
  {
    if (a.maxSteps.None? || cs < a.maxSteps.value) && ctx.currentSteps < ctx.maxSteps
       && (a.hasModel || ctx.teamHasModel)
    {
      var ctx1 := ctx.(currentSteps := ctx.currentSteps + 1);
      var next := Next(replies);
      var t := round(a, next.0, cs);
      if RoundKeeps(a, cs, t) && t.Continue? {
        var a1 := t.agent;
        LoopRounds(a1, ctx1, next.1, cs + 1, round);
        LoopHistory(a1, ctx1, next.1, cs + 1, round);
        var r := Loop(a1, ctx1, next.1, cs + 1, round);
        if r.Ok? {
          forall i | |a.history| <= i < |r.value.agent.history| ensures ToolRound(a.tools, r.value.agent.history[i]) {
            if i == |a.history| { assert r.value.agent.history[i] == a1.history[i]; }
          }
        }
      }
    }
  }

  /** The tools a step runs while it works: only directly callable ones. */
  lemma {:induction false} LoopCalls(a: Agent, ctx: Ctx, replies: seq<Reply>, cs: int,
                                     round: Rounder)
    ensures var r := Loop(a, ctx, replies, cs, round);
            r.Ok? ==> Called(a.tools, a.toolCalls, r.value.agent.toolCalls)
    decreases Max(ctx.maxSteps - ctx.currentSteps, 0)
  {
    CalledRefl(a.tools, a.toolCalls);
    if (a.maxSteps.None? || cs < a.maxSteps.value) && ctx.currentSteps < ctx.maxSteps
       && (a.hasModel || ctx.teamHasModel)
    {
      var ctx1 := ctx.(currentSteps := ctx.currentSteps + 1);
      var next := Next(replies);
      var t := round(a, next.0, cs);
      if RoundKeeps(a, cs, t) && t.Continue? {
        var a1 := t.agent;
        LoopCalls(a1, ctx1, next.1, cs + 1, round);
        var r := Loop(a1, ctx1, next.1, cs + 1, round);
        if r.Ok? {
          CalledTrans(a.tools, a.toolCalls, a1.toolCalls, r.value.agent.toolCalls);
        }
      }
    }
  }

  /** The post-process tools: a step that answers runs every one of them,
      in registration order, once; any other step runs none. */
  lemma {:induction false} LoopPostRuns(a: Agent, ctx: Ctx, replies: seq<Reply>, cs: int,
                                        round: Rounder)
    ensures var r := Loop(a, ctx, replies, cs, round);
            r.Ok? ==> r.value.agent.postRuns == a.postRuns + (if r.value.ending == Answer then PostCalls(a.tools) else [])
    decreases Max(ctx.maxSteps - ctx.currentSteps, 0)
  {
    if (a.maxSteps.None? || cs < a.maxSteps.value) && ctx.currentSteps < ctx.maxSteps
       && (a.hasModel || ctx.teamHasModel)
    {
      var ctx1 := ctx.(currentSteps := ctx.currentSteps + 1);
      var next := Next(replies);
      var t := round(a, next.0, cs);
      if RoundKeeps(a, cs, t) && t.Continue? {
        LoopPostRuns(t.agent, ctx1, next.1, cs + 1, round);
      }
    }
  }

  /** `step`: the loop from a local counter of zero. */
  function StepAgent(a: Agent, ctx: Ctx, replies: seq<Reply>, execute: Executor, decode: Decoder, repr: Repr): Outcome<Run> {
    Loop(a, ctx, replies, 0, RounderFor(a.mode, decode, repr, execute))
  }

  /** Once the team's counter is spent, `step` returns at once with an
      error result that counts no steps, leaving the agent, the context and
      the replies as they were. */
  lemma SpentStepCountsNothing(a: Agent, ctx: Ctx, replies: seq<Reply>, execute: Executor, decode: Decoder, repr: Repr)
    requires a.maxSteps.None? || a.maxSteps.value > 0
    requires ctx.currentSteps >= ctx.maxSteps
    ensures var r := StepAgent(a, ctx, replies, execute, decode, repr);
            && r.Ok? && IsErrorResult(r.value.result) && r.value.result.stepCount == 0
            && r.value.agent == a && r.value.ctx == ctx && r.value.replies == replies
  {
  }

  /** A step whose first reply is a model error spends one of the team's
      steps but reports none: the team's counter moves ahead of the step
      counts the team adds up. */
  lemma RefusedStepCountsNone(a: Agent, ctx: Ctx, replies: seq<Reply>, execute: Executor, decode: Decoder, repr: Repr,
                              m: string)
    requires a.maxSteps.None? || a.maxSteps.value > 0
    requires ctx.currentSteps < ctx.maxSteps && (a.hasModel || ctx.teamHasModel)
    requires Read(a.mode, Next(replies).0, decode, repr) == Ok(Refused(m))
    ensures var r := StepAgent(a, ctx, replies, execute, decode, repr);
            && r.Ok? && IsErrorResult(r.value.result) && r.value.result.stepCount == 0
            && r.value.ctx.currentSteps == ctx.currentSteps + 1 && r.value.replies == Next(replies).1
  {
  }

  // ---------------------------------------------------------------------
  // Choosing the next agent.

  /** The `try` block's reading of a decision reply up to the lookup: the id
      it names and the subtask to hand over, or `None` where the block
      returns `-1` first (text that does not decode to an object, a missing
      or negative id, an id `int()` rejects; every exception is caught). */
  function ReadDecision(text: Json, decode: Decoder): Option<(nat, Json)> {
    var loaded := if text.JStr? then JsonLoads(text.s, decode) else None;
    if loaded.None? || !loaded.value.JObj? then None
    else
      var fields := loaded.value.fields;
      var id := GetOr(fields, "id", JNull);
      if id == JNull then None
      else match PyInt(id)
        case None => None
        case Some(n) => if n < 0 then None else Some((n, GetOr(fields, "subtask", JStr(""))))
  }

  /** How a decision reply is read. */
  type DecisionReader = Json -> Option<(nat, Json)>

  function DecisionReaderFor(decode: Decoder): DecisionReader {
    text => ReadDecision(text, decode)
  }

  /** The decision protocol: a reply that decodes to `{"id": i, "subtask":
      s}` names `i` and `s` when `i` is not negative, and nothing
      otherwise. */
  lemma ReadDecisionFollowsReply(text: string, decode: Decoder, i: int, subtask: Json)
    requires decode(Unfenced(text)) == Some(JObj(map["id" := JInt(i), "subtask" := subtask]))
    ensures i >= 0 ==> ReadDecision(JStr(text), decode) == Some((i, subtask))
    ensures i < 0 ==> ReadDecision(JStr(text), decode) == None
  {
  }

  /** A reply without an id, or one that is not a JSON object, names
      nothing. */
  lemma ReadDecisionWithoutId(text: Json, decode: Decoder)
    requires text.JStr? ==> match JsonLoads(text.s, decode)
                            case None => true
                            case Some(v) => !v.JObj? || "id" !in v.fields
    ensures ReadDecision(text, decode) == None
  {
  }

  /** What the decision reply selects: the named member with its subtask
      set when the name is an index of the team (`agents[id]` raising
      `IndexError` otherwise, caught as `-1`), else `-1` and the agents
      unchanged. */
  function Decide(text: Json, agents: seq<Agent>, read: DecisionReader): (r: (int, seq<Agent>))
    ensures r.0 == -1 || 0 <= r.0 < |agents|
    ensures |r.1| == |agents|
    ensures r.0 == -1 ==> r.1 == agents
    ensures r.0 != -1 ==> r.1 == agents[r.0 := agents[r.0].(subtask := r.1[r.0].subtask)]
    ensures r.0 != -1 <==> read(text).Some? && read(text).value.0 < |agents|
    ensures r.0 != -1 ==> r.0 == read(text).value.0 && r.1[r.0].subtask == read(text).value.1
  {
    match read(text)
    case None => (-1, agents)
    case Some((n, subtask)) =>
      if n >= |agents| then (-1, agents) else (n as int, agents[n := agents[n].(subtask := subtask)])
  }

  /** The outcome of `should_invoke_next_agent`. */
  datatype Choice = Choice(next: int, agents: seq<Agent>, replies: seq<Reply>)

  /** No member but `agents[self]` under another name: the request for a
      successor would list nobody. */
  predicate Alone(self: nat, agents: seq<Agent>)
    requires self < |agents|
  {
    forall i | 0 <= i < |agents| :: agents[i].name == agents[self].name
  }

  /** `should_invoke_next_agent` for `agents[self]`: without another member
      no request is made; an error response selects none; a reply without
      content raises (the lookup sits outside the `try`). */
  function ShouldInvokeNext(self: nat, agents: seq<Agent>, teamHasModel: bool, replies: seq<Reply>,
                            read: DecisionReader): (r: Outcome<Choice>)
    requires self < |agents|
    ensures Alone(self, agents) ==> r == Ok(Choice(-1, agents, replies))
    ensures r.Ok? ==> -1 <= r.value.next < |r.value.agents| && |r.value.agents| == |agents|
    ensures r.Ok? && r.value.next == -1 ==> r.value.agents == agents
    ensures r.Ok? && r.value.next != -1 ==>
              r.value.agents == agents[r.value.next := agents[r.value.next].(subtask := r.value.agents[r.value.next].subtask)]
    ensures !Alone(self, agents) ==>
              && (r.Ok? ==> r.value.replies == Next(replies).1)
              && (teamHasModel && IsError(Next(replies).0.response) ==> r == Ok(Choice(-1, agents, Next(replies).1)))
              && (!teamHasModel ==> r == Raise)
  {
    if Alone(self, agents) then Ok(Choice(-1, agents, replies))
    else if !teamHasModel then Raise
    else
      var next := Next(replies);
      var resp := next.0.response;
      if IsError(resp) then Ok(Choice(-1, agents, next.1))
      else match ReplyContent(resp.data)
        case None => Raise
        case Some(text) =>
          var d := Decide(text, agents, read);
          Ok(Choice(d.0, d.1, next.1))
  }

  /** The decision may select the asking agent itself: the request lists
      only the other members, but nothing checks the id the reply names. */
  lemma MaySelectSelf(agents: seq<Agent>, self: nat, text: string, decode: Decoder, replies: seq<Reply>)
    requires self < |agents| && exists i | 0 <= i < |agents| :: agents[i].name != agents[self].name
    requires replies != [] && !IsError(replies[0].response) && ReplyContent(replies[0].response.data) == Some(JStr(text))
    requires decode(Unfenced(text)) == Some(JObj(map["id" := JInt(self), "subtask" := JStr("")]))
    ensures ShouldInvokeNext(self, agents, true, replies, DecisionReaderFor(decode)).Ok?
    ensures ShouldInvokeNext(self, agents, true, replies, DecisionReaderFor(decode)).value.next == self
  {
    ReadDecisionFollowsReply(text, decode, self, JStr(""));
    assert DecisionReaderFor(decode)(JStr(text)) == Some((self, JStr("")));
  }
}

=== FILE: base.dfy ===
/** Small failure-carrying datatypes shared by every module of the model. */
module Base {

  /** A value that may be absent (Python's `None`). */
  datatype Option<+T> = None | Some(value: T)

  /** The result of a computation that either returns normally or raises a
      Python exception that the surrounding code does not catch. */
  datatype Outcome<+T> = Ok(value: T) | Raise
}

=== FILE: base_model.dfy ===
/** The provider-independent part of the LLM client: request and response
    records, the user-facing error message, the error text pulled out of a
    failed reply's body, and the `data: ` line filter of the streaming API.
    The HTTP exchange itself is an input: a `Transport` value says what the
    server answered, or that the request failed. */
module LlmBase {
  import opened Base
  import opened PyStr
  import opened Json

  datatype Message = Message(role: string, content: string)

  datatype LlmRequest = LlmRequest(messages: seq<Message>, temperature: real, jsonFormat: bool, stream: bool)

  /** `LLMRequest(messages)` with its default arguments. */
  function NewRequest(messages: seq<Message>): (r: LlmRequest)
    ensures r.messages == messages && !r.jsonFormat && !r.stream && r.temperature == 0.5
  {
    LlmRequest(messages, 0.5, false, false)
  }

  function MessageJson(m: Message): Json {
    JObj(map["role" := JStr(m.role), "content" := JStr(m.content)])
  }

  function MessagesJson(ms: seq<Message>): (r: seq<Json>)
    ensures |r| == |ms|
    ensures forall i :: 0 <= i < |ms| ==> r[i] == MessageJson(ms[i])
  {
    if ms == [] then [] else [MessageJson(ms[0])] + MessagesJson(ms[1..])
  }

  /** The JSON body of a chat-completions request; the streaming variant
      carries `"stream": true`. */
  function Payload(model: string, req: LlmRequest, streaming: bool): (body: map<string, Json>)
    ensures "model" in body && "messages" in body && "temperature" in body
    ensures body["model"] == JStr(model) && body["messages"] == JArr(MessagesJson(req.messages))
    ensures "response_format" in body <==> req.jsonFormat
    ensures req.jsonFormat ==> body["response_format"] == JObj(map["type" := JStr("json_object")])
    ensures "stream" in body <==> streaming
  {
    var base := map["model" := JStr(model), "messages" := JArr(MessagesJson(req.messages)),
                    "temperature" := JFloat(req.temperature)];
    var withStream := if streaming then base["stream" := JBool(true)] else base;
    if req.jsonFormat then withStream["response_format" := JObj(map["type" := JStr("json_object")])]
    else withStream
  }

  /** `LLMResponse`. The error message is whatever value the error body
      held, so it is a decoded JSON value rather than always a string. */
  datatype LlmResponse = LlmResponse(success: bool, data: Json, errorMessage: Json, statusCode: int)

  /** The constructor: a missing or empty `data` reads as `{}`. */
  function NewResponse(success: bool, data: Option<Json>, errorMessage: Json, statusCode: int): (r: LlmResponse)
    ensures Truthy(r.data) || r.data == EmptyObject
    ensures data.Some? && Truthy(data.value) ==> r.data == data.value
    ensures r.success == success && r.errorMessage == errorMessage && r.statusCode == statusCode
  {
    LlmResponse(success, if data.Some? && Truthy(data.value) then data.value else EmptyObject, errorMessage, statusCode)
  }

  predicate IsError(r: LlmResponse) {
    !r.success
  }

  const UnknownError := "Unknown error"

  /** The closing part every error message carries. */
  function StatusSuffix(code: int): string {
    "(Status code: " + IntToString(code) + ")"
  }

  /** `get_error_msg`. A specific message from the server wins; otherwise
      the status code picks a generic explanation. */
  function GetErrorMsg(r: LlmResponse, repr: Repr): (m: string)
    ensures !IsError(r) <==> m == ""
    ensures IsError(r) ==> EndsWith(m, StatusSuffix(r.statusCode))
    ensures IsError(r) && Truthy(r.errorMessage) && r.errorMessage != JStr(UnknownError) ==>
              m == "API error: " + Show(r.errorMessage, repr) + " " + StatusSuffix(r.statusCode)
  {
    if !IsError(r) then ""
    else
      var head := ErrorHead(r, repr);
      assert EndsWith(head + StatusSuffix(r.statusCode), StatusSuffix(r.statusCode));
      head + StatusSuffix(r.statusCode)
  }

  /** The explanation an error message starts with. */
  function ErrorHead(r: LlmResponse, repr: Repr): string {
    if Truthy(r.errorMessage) && r.errorMessage != JStr(UnknownError) then
      "API error: " + Show(r.errorMessage, repr) + " "
    else if r.statusCode == 401 then
      "Authentication error: Invalid API key or token. Please check your API credentials. "
    else if r.statusCode == 403 then
      "Authorization error: You don't have permission to access this resource. "
    else if r.statusCode == 404 then
      "Resource not found: The requested endpoint doesn't exist. Please check your API base URL. "
    else if r.statusCode == 429 then
      "Rate limit exceeded: Too many requests. Please try again later or check your rate limits. "
    else if r.statusCode >= 500 then
      "Server error: The API service is experiencing issues. Please try again later. "
    else
      "API error: Unknown error occurred "
  }

  /** Reading the status code back out of a message: the number between the
      last `(Status code: ` and the closing parenthesis. */
  function ReportedStatus(m: string): Option<int> {
    if !EndsWith(m, ")") then None
    else match RFind(m, '(')
      case None => None
      case Some(k) =>
        if OccursAt(m, "(Status code: ", k) && k + 14 <= |m| - 1 then ParseDecimal(m[k + 14..|m| - 1])
        else None
  }

  lemma IntToStringHasNoParen(i: int)
    ensures forall k :: 0 <= k < |IntToString(i)| ==> IntToString(i)[k] != '('
  {
    var d := NatDigits(if i < 0 then -i else i);
    assert AllDigits(d);
    if i < 0 {
      assert IntToString(i) == "-" + d;
    }
  }

  /** The status suffix can be read back after any explanation. */
  lemma SuffixReported(head: string, code: int)
    ensures ReportedStatus(head + StatusSuffix(code)) == Some(code)
  {
    var s := StatusSuffix(code);
    var m := head + s;
    var digits := IntToString(code);
    var j := |head|;
    SuffixHasOneParen(code);
    LastParenAt(head, s);
    assert m[j..j + 14] == s[..14];
    assert m[j + 14..|m| - 1] == digits;
    ReportedAt(m, j, digits);
    IntToStringRoundTrip(code);
  }

  /** The suffix opens with its only `(`. */
  lemma SuffixHasOneParen(code: int)
    ensures var s := StatusSuffix(code);
            && s == "(Status code: " + IntToString(code) + ")"
            && forall k | 0 < k < |s| :: s[k] != '('
  {
    var s := StatusSuffix(code);
    var digits := IntToString(code);
    IntToStringHasNoParen(code);
    forall k | 0 < k < |s| ensures s[k] != '(' {
      if k < 14 {
        assert s[k] == "(Status code: "[k];
      } else if k < 14 + |digits| {
        assert s[k] == digits[k - 14];
      }
    }
  }

  /** The last `(` of a text ending in a part that opens with its only `(`
      is that part's first character. */
  lemma LastParenAt(head: string, s: string)
    requires s != [] && s[0] == '(' && forall k | 0 < k < |s| :: s[k] != '('
    ensures RFind(head + s, '(') == Some(|head|)
  {
    var m := head + s;
    forall k | |head| < k < |m| ensures m[k] != '(' {
      assert m[k] == s[k - |head|];
    }
    RFindLast(m, '(', |head|);
  }

  /** The status read back from a message whose last `(` opens
      `(Status code: ` and whose text between it and the final `)` is
      `digits`. */
  lemma ReportedAt(m: string, j: nat, digits: string)
    requires EndsWith(m, ")") && RFind(m, '(') == Some(j)
    requires OccursAt(m, "(Status code: ", j) && j + 14 <= |m| - 1 && m[j + 14..|m| - 1] == digits
    ensures ReportedStatus(m) == ParseDecimal(digits)
  {
  }

  /** Whatever the server said, the message shown for an error reply reports
      the reply's status code, and it can be read back. */
  lemma StatusReported(r: LlmResponse, repr: Repr)
    requires IsError(r)
    ensures ReportedStatus(GetErrorMsg(r, repr)) == Some(r.statusCode)
  {
    SuffixReported(ErrorHead(r, repr), r.statusCode);
  }

  /** `x[key]` on a decoded value, `None` standing for the `KeyError` or
      `TypeError` Python raises. */
  function Field(j: Json, key: string): (r: Option<Json>)
    ensures r.Some? <==> Has(j, key)
  {
    if Has(j, key) then Some(j.fields[key]) else None
  }

  /** `x[0]` on a decoded list (on anything else Python raises, or the next
      lookup does). */
  function First(j: Json): (r: Option<Json>)
    ensures r.Some? <==> j.JArr? && |j.items| > 0
  {
    if j.JArr? && |j.items| > 0 then Some(j.items[0]) else None
  }

  /** `data["choices"][0]["message"]["content"]`: where callers read the text
      of a chat-completions reply. */
  function ReplyContent(data: Json): Option<Json> {
    match Field(data, "choices")
    case None => None
    case Some(choices) =>
      match First(choices)
      case None => None
      case Some(choice) =>
        match Field(choice, "message")
        case None => None
        case Some(message) => Field(message, "content")
  }

  /** How reading a streamed body line by line broke off: the connection
      failed (a `RequestException`), or a line's bytes were not UTF-8 (a
      `UnicodeDecodeError`). `reason` is the exception's text. */
  datatype Cut = Dropped(reason: string) | NotUtf8(reason: string)

  /** What happened to an HTTP request: the server's status, its body as
      text and as the lines `iter_lines` hands out, and, when reading those
      lines broke off after them, how; or the request failed outright. Only
      the streaming calls read the body line by line. */
  datatype Transport =
    | Answered(status: int, text: string, lines: seq<string>, cut: Option<Cut>)
    | RequestFailed(reason: string)

  /** The lookups the error handlers make in a decoded error body, as far as
      they get: `Raise` when Python raises (the body was not JSON, or `in`
      and `[]` were applied to a value that does not support them), `None`
      when neither key is present, else the message found. */
  function ErrorInBody(body: Option<Json>, repr: Repr): (r: Outcome<Option<Json>>)
    ensures body.None? ==> r.Raise?
    ensures (body.Some? && body.value.JObj? && "error" in body.value.fields && Has(body.value.fields["error"], "message"))
            ==> r == Ok(Some(body.value.fields["error"].fields["message"]))
    ensures (body.Some? && body.value.JObj? && "error" in body.value.fields && !Has(body.value.fields["error"], "message"))
            ==> r == Ok(Some(JStr(Show(body.value.fields["error"], repr))))
    ensures (body.Some? && body.value.JObj? && "error" !in body.value.fields && "message" in body.value.fields)
            ==> r == Ok(Some(body.value.fields["message"]))
    ensures (body.Some? && body.value.JObj? && "error" !in body.value.fields && "message" !in body.value.fields)
            ==> r == Ok(None)
  {
    match body
    case None => Raise
    case Some(j) =>
      match j
      case JObj(f) =>
        if "error" in f then
          if Has(f["error"], "message") then Ok(Some(f["error"].fields["message"]))
          else Ok(Some(JStr(Show(f["error"], repr))))
        else if "message" in f then Ok(Some(f["message"]))
        else Ok(None)
      case JArr(items) =>
        if JStr("error") in items || JStr("message") in items then Raise else Ok(None)
      case JStr(s) =>
        if Contains(s, "error") || Contains(s, "message") then Raise else Ok(None)
      case _ => Raise
  }

  /** The error message read from a non-200 reply's body `text`: the message
      found in the body, else `whenNoKey`, and when the lookups raise, the
      text itself or, for an empty text, `whenUnreadable`. The clients differ
      only in these two defaults. */
  function BodyErrorMessage(text: string, decode: Decoder, repr: Repr, whenNoKey: Json, whenUnreadable: string): (m: Json)
    ensures decode(text).None? ==> m == JStr(if text != "" then text else whenUnreadable)
    ensures (decode(text).Some? && decode(text).value.JObj? && "error" !in decode(text).value.fields
             && "message" !in decode(text).value.fields) ==> m == whenNoKey
  {
    match ErrorInBody(decode(text), repr)
    case Raise => JStr(if text != "" then text else whenUnreadable)
    case Ok(None) => whenNoKey
    case Ok(Some(msg)) => msg
  }

  const Unparsable := "Could not parse error response"

  /** The error message `call` stores for a non-200 reply. */
  function CallErrorMessage(text: string, decode: Decoder, repr: Repr): Json {
    BodyErrorMessage(text, decode, repr, JStr(UnknownError), Unparsable)
  }

  /** `LLMModel.call` once the request has been sent. A 200 reply whose body
      does not decode makes `response.json()` raise the `JSONDecodeError` of
      `requests` 2.27 and later, a `RequestException`, so it is reported like
      a failed connection; `why` is that exception's text. */
  function Call(t: Transport, decode: Decoder, repr: Repr, why: string): (r: LlmResponse)
    ensures !IsError(r) <==> t.Answered? && t.status == 200 && decode(t.text).Some?
    ensures t.RequestFailed? ==> r.statusCode == 0 && r.errorMessage == JStr("Request failed: " + t.reason)
    ensures t.Answered? && t.status == 200 && decode(t.text).None? ==>
              r.statusCode == 0 && r.errorMessage == JStr("Request failed: " + why)
    ensures t.Answered? && t.status != 200 ==> r.statusCode == t.status
  {
    match t
    case RequestFailed(reason) => NewResponse(false, None, JStr("Request failed: " + reason), 0)
    case Answered(status, text, _, _) =>
      if status == 200 then
        match decode(text)
        case Some(body) => NewResponse(true, Some(body), JStr(""), 200)
        case None => NewResponse(false, None, JStr("Request failed: " + why), 0)
      else NewResponse(false, None, CallErrorMessage(text, decode, repr), status)
  }

  /** The payload of a server-sent-events line, if it is a `data: ` line. */
  function DataPayload(line: string): (r: Option<string>)
    ensures r.Some? <==> StartsWith(line, "data: ")
    ensures r.Some? ==> line == "data: " + r.value
  {
    if StartsWith(line, "data: ") then Some(line[6..]) else None
  }

  /** The chunks the streaming loop yields from the reply's lines: empty and
      non-`data: ` lines are skipped, `[DONE]` ends the stream, and payloads
      that do not decode are dropped. */
  function StreamChunks(lines: seq<string>, decode: Decoder): (r: seq<Json>)
    ensures |r| <= |lines|
  {
    if lines == [] then []
    else
      var rest := StreamChunks(lines[1..], decode);
      match DataPayload(lines[0])
      case None => rest
      case Some(p) =>
        if p == "[DONE]" then []
        else match decode(p)
          case Some(j) => [j] + rest
          case None => rest
  }

  /** `data: ` lines with no `[DONE]` among them. */
  predicate NoDone(lines: seq<string>) {
    forall i :: 0 <= i < |lines| ==> lines[i] != "data: [DONE]"
  }

  /** Lines arriving in two batches stream as the two batches' chunks in
      turn, unless the first batch already ended the stream. */
  lemma {:induction false} StreamChunksAppend(a: seq<string>, b: seq<string>, decode: Decoder)
    ensures NoDone(a) ==> StreamChunks(a + b, decode) == StreamChunks(a, decode) + StreamChunks(b, decode)
    ensures !NoDone(a) ==> StreamChunks(a + b, decode) == StreamChunks(a, decode)
  {
    if a == [] {
      assert a + b == b;
    } else {
      StreamChunksAppend(a[1..], b, decode);
      assert (a + b)[1..] == a[1..] + b;
      assert (a + b)[0] == a[0];
      if NoDone(a) {
        assert NoDone(a[1..]) by {
          forall i | 0 <= i < |a[1..]| ensures a[1..][i] != "data: [DONE]" {
            assert a[1..][i] == a[i + 1];
          }
        }
      } else if a[0] != "data: [DONE]" {
        assert !NoDone(a[1..]) by {
          var i :| 0 <= i < |a| && a[i] == "data: [DONE]";
          assert a[1..][i - 1] == a[i];
        }
      }
      if a[0] == "data: [DONE]" {
        assert DataPayload(a[0]) == Some("[DONE]");
      } else if DataPayload(a[0]).Some? {
        assert DataPayload(a[0]).value != "[DONE]";
      }
    }
  }

  /** The server-sent-events framing of payloads. */
  function Frame(payloads: seq<string>): (r: seq<string>)
    ensures |r| == |payloads|
  {
    if payloads == [] then [] else ["data: " + payloads[0]] + Frame(payloads[1..])
  }

  /** Decoding every payload. */
  function DecodeAll(payloads: seq<string>, decode: Decoder): seq<Json>
    requires forall i :: 0 <= i < |payloads| ==> decode(payloads[i]).Some?
  {
    if payloads == [] then [] else [decode(payloads[0]).value] + DecodeAll(payloads[1..], decode)
  }

  /** Framing decodable payloads and streaming them, then `[DONE]` and any
      trailing lines, gives back exactly the decoded payloads. */
  lemma {:induction false} FramedStreamRoundTrip(payloads: seq<string>, trailer: seq<string>, decode: Decoder)
    requires forall i :: 0 <= i < |payloads| ==> decode(payloads[i]).Some? && payloads[i] != "[DONE]"
    ensures StreamChunks(Frame(payloads) + ["data: [DONE]"] + trailer, decode) == DecodeAll(payloads, decode)
  {
    var lines := Frame(payloads) + ["data: [DONE]"] + trailer;
    if payloads == [] {
      assert lines[0] == "data: [DONE]";
      assert DataPayload(lines[0]) == Some("[DONE]");
    } else {
      FramedStreamRoundTrip(payloads[1..], trailer, decode);
      assert lines[1..] == Frame(payloads[1..]) + ["data: [DONE]"] + trailer;
      assert lines[0] == "data: " + payloads[0];
      assert DataPayload(lines[0]) == Some(payloads[0]);
    }
  }

  /** The error object `call_stream` yields in place of chunks. */
  function ErrorChunk(status: int, message: Json): Json {
    JObj(map["error" := JBool(true), "status_code" := JInt(status), "message" := message])
  }

  /** The message of the error object for a non-200 streaming reply: here a
      body without either key yields the raw text, and an unparsable one the
      text or `Unknown error`. */
  function StreamErrorMessage(text: string, decode: Decoder, repr: Repr): Json {
    BodyErrorMessage(text, decode, repr, JStr(text), UnknownError)
  }

  /** The error object the handlers of `call_stream` yield when reading the
      lines breaks off: status 0 for a failed connection, 500 for any other
      exception. */
  function CutChunk(c: Cut): (r: Json)
    ensures c.Dropped? ==> r == ErrorChunk(0, JStr("Connection error: " + c.reason))
    ensures c.NotUtf8? ==> r == ErrorChunk(500, JStr("Unexpected error: " + c.reason))
  {
    match c
    case Dropped(reason) => ErrorChunk(0, JStr("Connection error: " + reason))
    case NotUtf8(reason) => ErrorChunk(500, JStr("Unexpected error: " + reason))
  }

  /** `LLMModel.call_stream`: every chunk it yields. A 200 reply yields its
      stream's chunks; if reading broke off before a `[DONE]` line, one
      more error object follows them. */
  function CallStream(t: Transport, decode: Decoder, repr: Repr): (r: seq<Json>)
    ensures t.RequestFailed? ==> r == [ErrorChunk(0, JStr("Connection error: " + t.reason))]
    ensures t.Answered? && t.status != 200 ==>
              r == [ErrorChunk(t.status, StreamErrorMessage(t.text, decode, repr))]
    ensures t.Answered? && t.status == 200 && (t.cut.None? || !NoDone(t.lines)) ==> r == StreamChunks(t.lines, decode)
    ensures t.Answered? && t.status == 200 && t.cut.Some? && NoDone(t.lines) ==>
              r == StreamChunks(t.lines, decode) + [CutChunk(t.cut.value)]
  {
    match t
    case RequestFailed(reason) => [ErrorChunk(0, JStr("Connection error: " + reason))]
    case Answered(status, text, lines, cut) =>
      if status != 200 then [ErrorChunk(status, StreamErrorMessage(text, decode, repr))]
      else if cut.Some? && NoDone(lines) then StreamChunks(lines, decode) + [CutChunk(cut.value)]
      else StreamChunks(lines, decode)
  }

  /** A stream of decodable payloads that breaks off before `[DONE]` yields
      the payloads in order and then the error object for the break. */
  lemma CutStream(payloads: seq<string>, text: string, cut: Cut, decode: Decoder, repr: Repr)
    requires forall i :: 0 <= i < |payloads| ==> decode(payloads[i]).Some? && payloads[i] != "[DONE]"
    ensures CallStream(Answered(200, text, Frame(payloads), Some(cut)), decode, repr)
            == DecodeAll(payloads, decode) + [CutChunk(cut)]
  {
    FramedNoDone(payloads);
    FramedStream(payloads, decode);
  }

  /** A frame of payloads other than `[DONE]` holds no `[DONE]` line. */
  lemma {:induction false} FramedNoDone(payloads: seq<string>)
    requires forall i :: 0 <= i < |payloads| ==> payloads[i] != "[DONE]"
    ensures NoDone(Frame(payloads))
  {
    if payloads != [] {
      FramedNoDone(payloads[1..]);
      var f := Frame(payloads);
      forall i | 0 <= i < |f| ensures f[i] != "data: [DONE]" {
        if i == 0 {
          assert f[0] == "data: " + payloads[0];
          assert f[0][6..] == payloads[0];
        } else {
          assert f[i] == Frame(payloads[1..])[i - 1];
        }
      }
    }
  }

  /** Framed decodable payloads stream back exactly, with no `[DONE]`. */
  lemma {:induction false} FramedStream(payloads: seq<string>, decode: Decoder)
    requires forall i :: 0 <= i < |payloads| ==> decode(payloads[i]).Some? && payloads[i] != "[DONE]"
    ensures StreamChunks(Frame(payloads), decode) == DecodeAll(payloads, decode)
  {
    var lines := Frame(payloads);
    if payloads != [] {
      FramedStream(payloads[1..], decode);
      assert lines[1..] == Frame(payloads[1..]);
      assert DataPayload(lines[0]) == Some(payloads[0]);
    }
  }
}

=== FILE: claude_model.dfy ===
/** `ClaudeModel`: the Anthropic messages API behind the chat-completions
    interface. Requests move system messages into a separate `system` field;
    replies and stream events are reshaped into the chat-completions layout
    the rest of the code reads. */
module Claude {
  import opened Base
  import opened PyStr
  import opened Json
  import opened LlmBase
  import ModelEnums

  /** `_get_max_tokens`: the larger output budget of the 3.5 and 3.7
      families. */
  function MaxTokens(model: string): (n: int)
    ensures n == 8192 <==> StartsWith(model, "claude-3-5") || StartsWith(model, "claude-3-7")
    ensures n == 8192 || n == 4096
  {
    if model != "" && (StartsWith(model, "claude-3-5") || StartsWith(model, "claude-3-7")) then 8192 else 4096
  }

  predicate IsSystem(m: Message) {
    m.role == "system"
  }

  /** The messages that are not system messages, in their order. */
  function NonSystem(ms: seq<Message>): (r: seq<Message>)
    ensures |r| <= |ms|
    ensures forall i :: 0 <= i < |r| ==> !IsSystem(r[i])
  {
    if ms == [] then []
    else if IsSystem(ms[|ms| - 1]) then NonSystem(ms[..|ms| - 1])
    else NonSystem(ms[..|ms| - 1]) + [ms[|ms| - 1]]
  }

  /** The content of the last system message, if there is one. */
  function LastSystem(ms: seq<Message>): (r: Option<string>)
    ensures r.None? <==> forall i :: 0 <= i < |ms| ==> !IsSystem(ms[i])
  {
    if ms == [] then None
    else if IsSystem(ms[|ms| - 1]) then Some(ms[|ms| - 1].content)
    else LastSystem(ms[..|ms| - 1])
  }

  /** The loop at the head of `call` and `call_stream`: system messages are
      taken out, each overwriting the prompt found so far, and every other
      message is kept in order. */
  method SplitSystem(ms: seq<Message>) returns (system: Option<string>, rest: seq<Message>)
    ensures system == LastSystem(ms)
    ensures rest == NonSystem(ms)
  {
    system := None;
    rest := [];
    var i := 0;
    while i < |ms|
      invariant 0 <= i <= |ms|
      invariant system == LastSystem(ms[..i])
      invariant rest == NonSystem(ms[..i])
    {
      assert ms[..i + 1][..i] == ms[..i];
      if ms[i].role == "system" {
        system := Some(ms[i].content);
      } else {
        rest := rest + [ms[i]];
      }
      i := i + 1;
    }
    assert ms[..i] == ms;
  }

  /** Splitting loses nothing: every message is either the system prompt's
      source or kept, and a list without system messages passes unchanged. */
  lemma {:induction false} NonSystemKeepsOthers(ms: seq<Message>)
    ensures (forall i :: 0 <= i < |ms| ==> !IsSystem(ms[i])) ==> NonSystem(ms) == ms
    ensures |NonSystem(ms)| == |ms| - CountSystem(ms)
  {
    if ms != [] {
      var init := ms[..|ms| - 1];
      NonSystemKeepsOthers(init);
      if forall i :: 0 <= i < |ms| ==> !IsSystem(ms[i]) {
        assert forall i :: 0 <= i < |init| ==> !IsSystem(init[i]) by {
          forall i | 0 <= i < |init| ensures !IsSystem(init[i]) {
            assert init[i] == ms[i];
          }
        }
        assert init + [ms[|ms| - 1]] == ms;
      }
    }
  }

  function CountSystem(ms: seq<Message>): nat {
    if ms == [] then 0
    else CountSystem(ms[..|ms| - 1]) + (if IsSystem(ms[|ms| - 1]) then 1 else 0)
  }

  /** Non-system messages of a concatenation are those of the parts. */
  lemma {:induction false} NonSystemAppend(a: seq<Message>, b: seq<Message>)
    ensures NonSystem(a + b) == NonSystem(a) + NonSystem(b)
    decreases |b|
  {
    if b == [] {
      assert a + b == a;
    } else {
      var b' := b[..|b| - 1];
      NonSystemAppend(a, b');
      assert (a + b)[..|a + b| - 1] == a + b';
      assert (a + b)[|a + b| - 1] == b[|b| - 1];
    }
  }

  /** The request body of `call` (`streaming` false) and of `call_stream`. */
  function Payload(model: string, req: LlmRequest, streaming: bool): (body: map<string, Json>)
    ensures "system" in body <==> LastSystem(req.messages).Some? && LastSystem(req.messages).value != ""
    ensures "system" in body ==> body["system"] == JStr(LastSystem(req.messages).value)
    ensures "response_format" in body <==> streaming && req.jsonFormat
    ensures "messages" in body && body["messages"] == JArr(MessagesJson(NonSystem(req.messages)))
    ensures "max_tokens" in body && body["max_tokens"] == JInt(MaxTokens(model))
  {
    var system := LastSystem(req.messages);
    var base := map["model" := JStr(model), "messages" := JArr(MessagesJson(NonSystem(req.messages))),
                    "max_tokens" := JInt(MaxTokens(model)), "temperature" := JFloat(req.temperature)];
    var withStream := if streaming then base["stream" := JBool(true)] else base;
    var withSystem := if system.Some? && system.value != "" then withStream["system" := JStr(system.value)]
                      else withStream;
    if streaming && req.jsonFormat then withSystem["response_format" := JObj(map["type" := JStr("json_object")])]
    else withSystem
  }

  /** `d.get(key, default)` on a value that must be a dict (`None` for the
      `AttributeError` on anything else). */
  function Get(j: Json, key: string, default: Json): (r: Option<Json>)
    ensures r.Some? <==> j.JObj?
    ensures j.JObj? ==> r.value == GetOr(j.fields, key, default)
  {
    if j.JObj? then Some(GetOr(j.fields, key, default)) else None
  }

  /** `claude_response.get("content", [{}])[0].get("text", "")`. */
  function FirstBlockText(reply: Json): (r: Option<Json>)
    ensures reply.JObj? && "content" !in reply.fields ==> r == Some(JStr(""))
  {
    match Get(reply, "content", JArr([EmptyObject]))
    case None => None
    case Some(blocks) =>
      match First(blocks)
      case None => None
      case Some(block) => Get(block, "text", JStr(""))
  }

  /** The usage counts, `None` when a lookup or the addition raises. */
  function Usage(reply: Json): (r: Option<(Json, Json, Json)>)
    ensures r.Some? ==> PyAdd(r.value.0, r.value.1) == Some(r.value.2)
  {
    match Get(reply, "usage", EmptyObject)
    case None => None
    case Some(usage) =>
      match Get(usage, "input_tokens", JInt(0))
      case None => None
      case Some(input) =>
        match Get(usage, "output_tokens", JInt(0))
        case None => None
        case Some(output) =>
          match PyAdd(input, output)
          case None => None
          case Some(total) => Some((input, output, total))
  }

  /** The chat-completions form of a decoded messages-API reply; `None`
      when Python raises on the way (the generic handler then answers). */
  function Reshape(model: string, reply: Json): (r: Option<Json>)
    ensures r.Some? ==> FirstBlockText(reply).Some? && ReplyContent(r.value) == FirstBlockText(reply)
  {
    match Get(reply, "created_at", JInt(0))
    case None => None
    case Some(createdAt) =>
      match PyInt(createdAt)
      case None => None
      case Some(created) =>
        match FirstBlockText(reply)
        case None => None
        case Some(text) =>
          match Usage(reply)
          case None => None
          case Some(counts) => Some(Completion(model, reply, created, text, counts))
  }

  /** The chat-completions object built from the parts of a reply. */
  function Completion(model: string, reply: Json, created: int, text: Json, counts: (Json, Json, Json)): (r: Json)
    requires reply.JObj?
    ensures ReplyContent(r) == Some(text)
    ensures Field(r, "usage").Some? && Field(Field(r, "usage").value, "total_tokens") == Some(counts.2)
  {
    var message := JObj(map["role" := JStr("assistant"), "content" := text]);
    var choice := JObj(map["index" := JInt(0), "message" := message,
                           "finish_reason" := GetOr(reply.fields, "stop_reason", JStr("stop"))]);
    JObj(map[
      "id" := GetOr(reply.fields, "id", JStr("")),
      "object" := JStr("chat.completion"),
      "created" := JInt(created),
      "model" := JStr(model),
      "choices" := JArr([choice]),
      "usage" := JObj(map["prompt_tokens" := counts.0, "completion_tokens" := counts.1,
                          "total_tokens" := counts.2])])
  }

  /** A reply carrying text and integer token counts reshapes to one whose
      content is that text and whose total is the sum of the counts. */
  lemma ReshapeWellFormed(model: string, id: string, text: string, inputTokens: int, outputTokens: int)
    ensures var reply := JObj(map["id" := JStr(id),
                                  "content" := JArr([JObj(map["type" := JStr("text"), "text" := JStr(text)])]),
                                  "usage" := JObj(map["input_tokens" := JInt(inputTokens),
                                                      "output_tokens" := JInt(outputTokens)])]);
            var r := Reshape(model, reply);
            && r.Some?
            && ReplyContent(r.value) == Some(JStr(text))
            && Field(r.value, "usage").Some?
            && Field(Field(r.value, "usage").value, "total_tokens") == Some(JInt(inputTokens + outputTokens))
  {
  }

  /** `ClaudeModel.call` once the request has been sent. A non-200 body
      without either key yields the raw text here. An undecodable 200 body is
      a `RequestException` (`requests` 2.27 and later) and reports status 0;
      a decoded body the reshaping raises on reaches the generic handler and
      reports status 500. `why` is the exception's text. */
  function Call(model: string, t: Transport, decode: Decoder, repr: Repr, why: string): (r: LlmResponse)
    ensures !IsError(r) <==> t.Answered? && t.status == 200 && decode(t.text).Some?
                                 && Reshape(model, decode(t.text).value).Some?
    ensures t.RequestFailed? ==> r.statusCode == 0 && r.errorMessage == JStr("Request failed: " + t.reason)
    ensures t.Answered? && t.status == 200 && decode(t.text).None? ==>
              r.statusCode == 0 && r.errorMessage == JStr("Request failed: " + why)
    ensures t.Answered? && t.status == 200 && decode(t.text).Some? && Reshape(model, decode(t.text).value).None? ==>
              r.statusCode == 500 && r.errorMessage == JStr("Unexpected error: " + why)
    ensures t.Answered? && t.status != 200 ==> r.statusCode == t.status
    ensures !IsError(r) ==> ReplyContent(r.data) == FirstBlockText(decode(t.text).value)
  {
    match t
    case RequestFailed(reason) => NewResponse(false, None, JStr("Request failed: " + reason), 0)
    case Answered(status, text, _, _) =>
      if status == 200 then
        match decode(text)
        case None => NewResponse(false, None, JStr("Request failed: " + why), 0)
        case Some(reply) =>
          match Reshape(model, reply)
          case None => NewResponse(false, None, JStr("Unexpected error: " + why), 500)
          case Some(data) =>
            assert Truthy(data) by { assert "id" in data.fields; }
            NewResponse(true, Some(data), JStr(""), 200)
      else NewResponse(false, None, BodyErrorMessage(text, decode, repr, JStr(text), Unparsable), status)
  }

  /** The text a stream event carries: `delta.text` when present, else `""`;
      `None` when the membership tests raise. */
  function EventText(event: Json): (r: Option<Json>)
    ensures Has(event, "delta") && Has(event.fields["delta"], "text")
            ==> r == Some(event.fields["delta"].fields["text"])
    ensures event.JObj? && "delta" !in event.fields ==> r == Some(JStr(""))
  {
    match event
    case JObj(f) =>
      if "delta" in f then
        match f["delta"]
        case JObj(g) => Some(if "text" in g then g["text"] else JStr(""))
        case JArr(items) => if JStr("text") in items then None else Some(JStr(""))
        case JStr(s) => if Contains(s, "text") then None else Some(JStr(""))
        case _ => None
      else Some(JStr(""))
    case _ => None
  }

  /** The chat-completions chunk made from one stream event. */
  function ConvertEvent(model: string, event: Json): Option<Json> {
    match EventText(event)
    case None => None
    case Some(text) =>
      match Get(event, "created_at", JInt(0))
      case None => None
      case Some(createdAt) =>
        match PyInt(createdAt)
        case None => None
        case Some(created) =>
          var choice := JObj(map["index" := JInt(0), "delta" := JObj(map["content" := text]),
                                 "finish_reason" := JNull]);
          Some(JObj(map["id" := GetOr(event.fields, "id", JStr("")), "object" := JStr("chat.completion.chunk"),
                        "created" := JInt(created), "model" := JStr(model), "choices" := JArr([choice])]))
  }

  /** `choices[0].delta.content` of a chunk. */
  function ChunkContent(chunk: Json): Option<Json> {
    match Field(chunk, "choices")
    case None => None
    case Some(choices) =>
      match First(choices)
      case None => None
      case Some(choice) =>
        match Field(choice, "delta")
        case None => None
        case Some(delta) => Field(delta, "content")
  }

  /** A converted event carries the event's text as its delta content. */
  lemma ConvertedContent(model: string, event: Json)
    requires ConvertEvent(model, event).Some?
    ensures ChunkContent(ConvertEvent(model, event).value) == EventText(event)
  {
  }

  /** The chunks `call_stream` yields from the reply's lines: as for the base
      client, except that each event is converted, and an event on which the
      conversion raises ends the stream with a 500 error object. When the
      lines run out without `[DONE]` and reading them broke off (`cut`), the
      error object for the break comes last. */
  function StreamEvents(model: string, lines: seq<string>, decode: Decoder, why: string, cut: Option<Cut>): (r: seq<Json>)
    ensures |r| <= |lines| + 1
    ensures cut.None? ==> |r| <= |lines|
  {
    if lines == [] then (if cut.Some? then [CutChunk(cut.value)] else [])
    else match DataPayload(lines[0])
      case None => StreamEvents(model, lines[1..], decode, why, cut)
      case Some(p) =>
        if p == "[DONE]" then []
        else match decode(p)
          case None => StreamEvents(model, lines[1..], decode, why, cut)
          case Some(event) =>
            match ConvertEvent(model, event)
            case None => [ErrorChunk(500, JStr("Unexpected error: " + why))]
            case Some(chunk) => [chunk] + StreamEvents(model, lines[1..], decode, why, cut)
  }

  /** Every chunk of a stream of convertible events carries its event's
      text: framing events, streaming and reading `delta.content` back gives
      the texts in order. */
  lemma {:induction false} StreamCarriesTexts(model: string, payloads: seq<string>, trailer: seq<string>, cut: Option<Cut>,
                                              decode: Decoder, why: string)
    requires forall i :: 0 <= i < |payloads| ==>
               payloads[i] != "[DONE]" && decode(payloads[i]).Some?
               && ConvertEvent(model, decode(payloads[i]).value).Some?
    ensures var r := StreamEvents(model, Frame(payloads) + ["data: [DONE]"] + trailer, decode, why, cut);
            && |r| == |payloads|
            && forall i :: 0 <= i < |payloads| ==> ChunkContent(r[i]) == EventText(decode(payloads[i]).value)
  {
    var lines := Frame(payloads) + ["data: [DONE]"] + trailer;
    if payloads == [] {
      assert DataPayload(lines[0]) == Some("[DONE]");
    } else {
      var rest := StreamEvents(model, Frame(payloads[1..]) + ["data: [DONE]"] + trailer, decode, why, cut);
      StreamCarriesTexts(model, payloads[1..], trailer, cut, decode, why);
      StreamHead(model, payloads, trailer, cut, decode, why);
      var r := StreamEvents(model, lines, decode, why, cut);
      ConvertedContent(model, decode(payloads[0]).value);
      forall i | 0 <= i < |payloads| ensures ChunkContent(r[i]) == EventText(decode(payloads[i]).value) {
        if i > 0 {
          assert r[i] == rest[i - 1];
          assert payloads[i] == payloads[1..][i - 1];
        }
      }
    }
  }

  /** A framed convertible event heads the stream with its chunk. */
  lemma StreamHead(model: string, payloads: seq<string>, trailer: seq<string>, cut: Option<Cut>, decode: Decoder, why: string)
    requires payloads != [] && payloads[0] != "[DONE]" && decode(payloads[0]).Some?
    requires ConvertEvent(model, decode(payloads[0]).value).Some?
    ensures StreamEvents(model, Frame(payloads) + ["data: [DONE]"] + trailer, decode, why, cut)
            == [ConvertEvent(model, decode(payloads[0]).value).value]
               + StreamEvents(model, Frame(payloads[1..]) + ["data: [DONE]"] + trailer, decode, why, cut)
  {
    var lines := Frame(payloads) + ["data: [DONE]"] + trailer;
    assert lines[1..] == Frame(payloads[1..]) + ["data: [DONE]"] + trailer;
    assert DataPayload(lines[0]) == Some(payloads[0]);
  }

  /** `ClaudeModel.call_stream`: every chunk it yields. */
  function CallStream(model: string, t: Transport, decode: Decoder, repr: Repr, why: string): (r: seq<Json>)
    ensures t.RequestFailed? ==> r == [ErrorChunk(0, JStr("Connection error: " + t.reason))]
    ensures t.Answered? && t.status != 200 ==>
              r == [ErrorChunk(t.status, StreamErrorMessage(t.text, decode, repr))]
    ensures t.Answered? && t.status == 200 ==> r == StreamEvents(model, t.lines, decode, why, t.cut)
  {
    match t
    case RequestFailed(reason) => [ErrorChunk(0, JStr("Connection error: " + reason))]
    case Answered(status, text, lines, cut) =>
      if status != 200 then [ErrorChunk(status, StreamErrorMessage(text, decode, repr))]
      else StreamEvents(model, lines, decode, why, cut)
  }

  /** A stream of convertible events that breaks off before `[DONE]` yields
      one chunk per event, carrying its text, and then the error object for
      the break. */
  lemma {:induction false} CutEvents(model: string, payloads: seq<string>, cut: Cut, decode: Decoder, why: string)
    requires forall i :: 0 <= i < |payloads| ==>
               payloads[i] != "[DONE]" && decode(payloads[i]).Some?
               && ConvertEvent(model, decode(payloads[i]).value).Some?
    ensures var r := StreamEvents(model, Frame(payloads), decode, why, Some(cut));
            && |r| == |payloads| + 1 && r[|payloads|] == CutChunk(cut)
            && forall i :: 0 <= i < |payloads| ==> ChunkContent(r[i]) == EventText(decode(payloads[i]).value)
  {
    var lines := Frame(payloads);
    if payloads != [] {
      CutEvents(model, payloads[1..], cut, decode, why);
      assert lines[1..] == Frame(payloads[1..]);
      assert DataPayload(lines[0]) == Some(payloads[0]);
      var rest := StreamEvents(model, Frame(payloads[1..]), decode, why, Some(cut));
      var r := StreamEvents(model, lines, decode, why, Some(cut));
      assert r == [ConvertEvent(model, decode(payloads[0]).value).value] + rest;
      ConvertedContent(model, decode(payloads[0]).value);
      forall i | 0 <= i < |payloads| ensures ChunkContent(r[i]) == EventText(decode(payloads[i]).value) {
        if i > 0 {
          assert r[i] == rest[i - 1];
          assert payloads[i] == payloads[1..][i - 1];
        }
      }
    }
  }

  /** `ClaudeModel.__init__`: without a base URL the Anthropic default is
      used. */
  function ApiBase(apiBase: Option<string>): (r: string)
    ensures apiBase.Some? && apiBase.value != "" ==> r == apiBase.value
    ensures r != ""
  {
    if apiBase.Some? && apiBase.value != "" then apiBase.value else ModelEnums.ClaudeApiBase
  }
}

=== FILE: json.dfy ===
/** Decoded JSON values as the Python code sees them (the result of
    `json.loads`), with the few Python operations applied to them: `dict.get`,
    truthiness, `str()`, `int()` and `+`. Decoding itself is not modelled: it
    is the abstract partial function `Decoder`. */
module Json {
  import opened Base
  import PyStr

  /** A decoded JSON document. Objects are maps: key order plays no part in
      the behaviour modelled here. Numbers split into Python's `int` and
      `float`. */
  datatype Json =
    | JNull
    | JBool(b: bool)
    | JInt(i: int)
    | JFloat(r: real)
    | JStr(s: string)
    | JArr(items: seq<Json>)
    | JObj(fields: map<string, Json>)

  /** `json.loads`: `None` stands for a `JSONDecodeError`. */
  type Decoder = string -> Option<Json>

  /** `str(x)` for values that are not strings, integers, booleans or `None`
      (floats, lists, dicts): Python's rendering is an input of the model. */
  type Repr = Json -> string

  const EmptyObject: Json := JObj(map[])

  /** `key in d` for a decoded dict `d`. */
  predicate Has(j: Json, key: string) {
    j.JObj? && key in j.fields
  }

  /** `d.get(key, default)` on a decoded dict. */
  function GetOr(fields: map<string, Json>, key: string, default: Json): (r: Json)
    ensures key in fields ==> r == fields[key]
    ensures key !in fields ==> r == default
  {
    if key in fields then fields[key] else default
  }

  /** Python truthiness of a decoded value. */
  predicate Truthy(j: Json) {
    match j
    case JNull => false
    case JBool(b) => b
    case JInt(i) => i != 0
    case JFloat(r) => r != 0.0
    case JStr(s) => s != ""
    case JArr(items) => items != []
    case JObj(fields) => fields != map[]
  }

  /** `str(x)` */
  function Show(j: Json, repr: Repr): string {
    match j
    case JStr(s) => s
    case JInt(i) => PyStr.IntToString(i)
    case JBool(b) => if b then "True" else "False"
    case JNull => "None"
    case _ => repr(j)
  }

  /** Truncation toward zero, as Python's `int(x)` does for a float. */
  function Truncate(r: real): int {
    if r >= 0.0 then r.Floor else -((-r).Floor)
  }

  /** `int(x)`: `None` stands for the `TypeError` or `ValueError` Python
      raises. Strings are stripped and then read as an optionally signed
      run of ASCII decimal digits, single underscores allowed between
      them. */
  function PyInt(j: Json): (r: Option<int>)
    ensures j.JInt? ==> r == Some(j.i)
    ensures j.JNull? || j.JArr? || j.JObj? ==> r.None?
  {
    match j
    case JInt(i) => Some(i)
    case JBool(b) => Some(if b then 1 else 0)
    case JFloat(x) => Some(Truncate(x))
    case JStr(s) => PyStr.ParseDecimal(PyStr.Strip(s))
    case _ => None
  }

  /** `int(str(n)) == n` for an integer decoded as a string. */
  lemma PyIntOfRenderedInt(n: int)
    ensures PyInt(JStr(PyStr.IntToString(n))) == Some(n)
  {
    var s := PyStr.IntToString(n);
    PyStr.IntToStringRoundTrip(n);
    assert PyStr.Strip(s) == s by {
      StripKeepsUnpadded(s);
    }
  }

  /** `int()` reads digit groups joined by an underscore as the digits
      alone: `int("1_0") == int("10") == 10`. */
  lemma PyIntGrouped(a: string, b: string)
    requires a != [] && b != [] && PyStr.AllDigits(a) && PyStr.AllDigits(b)
    ensures PyInt(JStr(a + "_" + b)) == PyInt(JStr(a + b)) == Some(PyStr.DigitsValue(a + b))
  {
    PyStr.ParseGrouped(a, b);
    var s := a + "_" + b;
    assert s[0] == a[0] && s[|s| - 1] == b[|b| - 1];
    StripKeepsUnpadded(s);
    assert (a + b)[0] == a[0] && (a + b)[|a + b| - 1] == b[|b| - 1];
    StripKeepsUnpadded(a + b);
  }

  /** Stripping a string that starts and ends with non-space characters
      leaves it unchanged. */
  lemma StripKeepsUnpadded(s: string)
    requires s != [] && !PyStr.IsSpace(s[0]) && !PyStr.IsSpace(s[|s| - 1])
    ensures PyStr.Strip(s) == s
  {
    assert PyStr.RStrip(s) == s;
    assert PyStr.LStrip(s) == s;
  }

  function AsReal(j: Json): real
    requires j.JInt? || j.JBool? || j.JFloat?
  {
    match j
    case JInt(i) => i as real
    case JBool(b) => if b then 1.0 else 0.0
    case JFloat(x) => x
  }

  /** `a + b` on two decoded values: numbers add (a bool counts as an int,
      an int meeting a float gives a float), strings and lists concatenate;
      `None` stands for the `TypeError` of any other mix. */
  function PyAdd(a: Json, b: Json): (r: Option<Json>)
    ensures (a.JInt? || a.JBool?) && (b.JInt? || b.JBool?) ==> r.Some? && r.value.JInt?
    ensures a.JInt? && b.JInt? ==> r == Some(JInt(a.i + b.i))
    ensures a.JStr? && b.JStr? ==> r == Some(JStr(a.s + b.s))
    ensures a.JNull? || b.JNull? ==> r.None?
  {
    var aInt := a.JInt? || a.JBool?;
    var bInt := b.JInt? || b.JBool?;
    if aInt && bInt then Some(JInt(Truncate(AsReal(a)) + Truncate(AsReal(b))))
    else if (aInt || a.JFloat?) && (bInt || b.JFloat?) then Some(JFloat(AsReal(a) + AsReal(b)))
    else if a.JStr? && b.JStr? then Some(JStr(a.s + b.s))
    else if a.JArr? && b.JArr? then Some(JArr(a.items + b.items))
    else None
  }
}

=== FILE: model_enums.dfy ===
/** Model providers: classification of a model name by its prefix, and the
    default API base URL of each provider. */
module ModelEnums {
  import opened Base
  import opened PyStr

  datatype Provider = OpenAI | Claude | DeepSeek | Qwen | Common

  /** The enum member's string value, which is also the provider key used in
      the configuration. */
  function Value(p: Provider): string {
    match p
    case OpenAI => "openai"
    case Claude => "claude"
    case DeepSeek => "deepseek"
    case Qwen => "qwen"
    case Common => "common"
  }

  /** `ModelProvider(value)`: the member with that value, if any. */
  function FromValue(v: string): (r: Option<Provider>)
    ensures r.Some? ==> Value(r.value) == v
  {
    if v == "openai" then Some(OpenAI)
    else if v == "claude" then Some(Claude)
    else if v == "deepseek" then Some(DeepSeek)
    else if v == "qwen" then Some(Qwen)
    else if v == "common" then Some(Common)
    else None
  }

  /** Every provider is found again from its value. */
  lemma ValueRoundTrip(p: Provider)
    ensures FromValue(Value(p)) == Some(p)
  {
  }

  /** The name prefixes that identify a provider; `Common` has none. */
  function Prefixes(p: Provider): seq<string> {
    match p
    case OpenAI => ["gpt", "text-davinci", "o1"]
    case Claude => ["claude"]
    case DeepSeek => ["deepseek"]
    case Qwen => ["qwen", "qwq"]
    case Common => []
  }

  /** `name` starts with one of the prefixes of `p`. */
  predicate HasPrefixOf(name: string, p: Provider) {
    exists k | 0 <= k < |Prefixes(p)| :: StartsWith(name, Prefixes(p)[k])
  }

  /** `ModelProvider.from_model_name`: the prefix tests in the order the
      source makes them, with `Common` for every other name. */
  function FromModelName(name: string): Provider {
    if StartsWith(name, "gpt") || StartsWith(name, "text-davinci") || StartsWith(name, "o1") then OpenAI
    else if StartsWith(name, "claude") then Claude
    else if StartsWith(name, "deepseek") then DeepSeek
    else if StartsWith(name, "qwen") || StartsWith(name, "qwq") then Qwen
    else Common
  }

  /** Two strings that disagree somewhere within both lengths are never both
      prefixes of one name. */
  lemma PrefixesClash(name: string, a: string, b: string, i: nat)
    requires i < |a| && i < |b| && a[i] != b[i]
    ensures !(StartsWith(name, a) && StartsWith(name, b))
  {
  }

  /** `HasPrefixOf` spelled out for each provider. */
  lemma PrefixTests(name: string)
    ensures HasPrefixOf(name, OpenAI) <==>
              StartsWith(name, "gpt") || StartsWith(name, "text-davinci") || StartsWith(name, "o1")
    ensures HasPrefixOf(name, Claude) <==> StartsWith(name, "claude")
    ensures HasPrefixOf(name, DeepSeek) <==> StartsWith(name, "deepseek")
    ensures HasPrefixOf(name, Qwen) <==> StartsWith(name, "qwen") || StartsWith(name, "qwq")
    ensures !HasPrefixOf(name, Common)
  {
    var o, c, d, q := Prefixes(OpenAI), Prefixes(Claude), Prefixes(DeepSeek), Prefixes(Qwen);
    assert o[0] == "gpt" && o[1] == "text-davinci" && o[2] == "o1";
    assert c[0] == "claude" && d[0] == "deepseek";
    assert q[0] == "qwen" && q[1] == "qwq";
  }

  /** No two providers' prefixes can start the same name, so the order of
      the tests is immaterial: a name is classified as `p` exactly when it
      carries one of `p`'s prefixes, and as `Common` when it carries none. */
  lemma ClassifiedByPrefix(name: string, p: Provider)
    ensures p != Common ==> (FromModelName(name) == p <==> HasPrefixOf(name, p))
    ensures FromModelName(name) == Common <==>
              forall q: Provider :: q != Common ==> !HasPrefixOf(name, q)
  {
    PrefixTests(name);
    PrefixesClash(name, "gpt", "claude", 0);
    PrefixesClash(name, "gpt", "deepseek", 0);
    PrefixesClash(name, "gpt", "qwen", 0);
    PrefixesClash(name, "gpt", "qwq", 0);
    PrefixesClash(name, "text-davinci", "claude", 0);
    PrefixesClash(name, "text-davinci", "deepseek", 0);
    PrefixesClash(name, "text-davinci", "qwen", 0);
    PrefixesClash(name, "text-davinci", "qwq", 0);
    PrefixesClash(name, "o1", "claude", 0);
    PrefixesClash(name, "o1", "deepseek", 0);
    PrefixesClash(name, "o1", "qwen", 0);
    PrefixesClash(name, "o1", "qwq", 0);
    PrefixesClash(name, "claude", "deepseek", 0);
    PrefixesClash(name, "claude", "qwen", 0);
    PrefixesClash(name, "claude", "qwq", 0);
    PrefixesClash(name, "deepseek", "qwen", 0);
    PrefixesClash(name, "deepseek", "qwq", 0);
  }

  const OpenAIApiBase := "https://api.openai.com/v1"
  const ClaudeApiBase := "https://api.anthropic.com/v1"
  const DeepSeekApiBase := "https://api.deepseek.com/v1"
  const QwenApiBase := "https://dashscope.aliyuncs.com/compatible-mode/v1"

  /** `ModelApiBase[provider.name]`: the members of `ModelApiBase` share the
      provider names except `COMMON`, which has no entry. */
  function ApiBaseEntry(p: Provider): Option<string> {
    match p
    case OpenAI => Some(OpenAIApiBase)
    case Claude => Some(ClaudeApiBase)
    case DeepSeek => Some(DeepSeekApiBase)
    case Qwen => Some(QwenApiBase)
    case Common => None
  }

  /** `ModelApiBase.get_api_base`: `""` for a missing provider and for one
      without an entry (the `KeyError` is caught). */
  function GetApiBase(provider: Option<Provider>): (r: string)
    ensures provider.None? ==> r == ""
    ensures r != "" <==> provider.Some? && provider.value != Common
  {
    match provider
    case None => ""
    case Some(p) =>
      match ApiBaseEntry(p)
      case Some(url) => url
      case None => ""
  }

  /** Different providers never share a default base URL. */
  lemma ApiBasesDistinct(p: Provider, q: Provider)
    requires p != q && p != Common && q != Common
    ensures GetApiBase(Some(p)) != GetApiBase(Some(q))
  {
  }
}

=== FILE: model_factory.dfy ===
/** `ModelFactory`: choosing a provider for a model name and building the
    client for it. The global configuration is an explicit parameter: the
    `models` section as an ordered list of provider entries. */
module ModelFactory {
  import opened Base
  import opened PyStr
  import opened ModelEnums

  /** One entry of the `models` configuration section, keyed by provider. */
  datatype ProviderConfig = ProviderConfig(
    provider: string,
    models: seq<string>,
    apiBase: Option<string>,
    apiKey: Option<string>)

  /** The `models` section in its insertion order. The sequence can hold a
      provider twice, which a dict cannot; `KeysDistinct` is the dict's
      condition, and the lookups below read the first entry, which for a
      dict is the only one. */
  type ModelsConfig = seq<ProviderConfig>

  /** Each provider is configured at most once, as in a dict. */
  predicate KeysDistinct(cfg: ModelsConfig) {
    forall i, j | 0 <= i < j < |cfg| :: cfg[i].provider != cfg[j].provider
  }

  /** Python truthiness of an optional string. */
  predicate Given(s: Option<string>) {
    s.Some? && s.value != ""
  }

  /** The first configured provider whose model list names `name`. */
  function FirstListing(cfg: ModelsConfig, name: string): (r: Option<string>)
    ensures r.Some? <==> exists i | 0 <= i < |cfg| :: name in cfg[i].models
    ensures r.Some? ==> exists i | 0 <= i < |cfg| ::
              && cfg[i].provider == r.value
              && name in cfg[i].models
              && forall j :: 0 <= j < i ==> name !in cfg[j].models
  {
    if cfg == [] then None
    else if name in cfg[0].models then Some(cfg[0].provider)
    else
      var r := FirstListing(cfg[1..], name);
      if r.Some? then
        var i :| 0 <= i < |cfg[1..]| && cfg[1..][i].provider == r.value && name in cfg[1..][i].models
                 && forall j :: 0 <= j < i ==> name !in cfg[1..][j].models;
        assert forall j :: 0 <= j < i + 1 ==> name !in cfg[j].models by {
          forall j | 0 <= j < i + 1 ensures name !in cfg[j].models {
            if j > 0 { assert cfg[j] == cfg[1..][j - 1]; }
          }
        }
        r
      else
        assert forall i | 0 <= i < |cfg| :: name !in cfg[i].models by {
          forall i | 0 <= i < |cfg| ensures name !in cfg[i].models {
            if i > 0 { assert cfg[i] == cfg[1..][i - 1]; }
          }
        }
        r
  }

  /** `_determine_model_provider`: an explicit provider, else the first
      configured provider listing the model, else the prefix rule (the
      factory repeats the tests of `ModelProvider.from_model_name`). */
  function DetermineProvider(name: string, explicit: Option<string>, cfg: ModelsConfig): (r: string)
    ensures Given(explicit) ==> r == explicit.value
    ensures !Given(explicit) && FirstListing(cfg, name).Some? ==> r == FirstListing(cfg, name).value
    ensures !Given(explicit) && FirstListing(cfg, name).None? ==> r == Value(FromModelName(name))
  {
    if Given(explicit) then explicit.value
    else match FirstListing(cfg, name)
      case Some(p) => p
      case None =>
        if StartsWith(name, "gpt") || StartsWith(name, "text-davinci") || StartsWith(name, "o1") then "openai"
        else if StartsWith(name, "claude") then "claude"
        else if StartsWith(name, "deepseek") then "deepseek"
        else if StartsWith(name, "qwen") || StartsWith(name, "qwq") then "qwen"
        else "common"
  }

  /** `config().get("models", {}).get(provider, {})`: the entry for the
      provider, absent fields reading as `None`. */
  function EntryFor(cfg: ModelsConfig, provider: string): (r: Option<ProviderConfig>)
    ensures r.Some? ==> r.value in cfg && r.value.provider == provider
    ensures r.None? ==> forall i :: 0 <= i < |cfg| ==> cfg[i].provider != provider
  {
    if cfg == [] then None
    else if cfg[0].provider == provider then Some(cfg[0])
    else
      var r := EntryFor(cfg[1..], provider);
      assert r.None? ==> forall i :: 0 <= i < |cfg| ==> cfg[i].provider != provider by {
        if r.None? {
          forall i | 0 <= i < |cfg| ensures cfg[i].provider != provider {
            if i > 0 { assert cfg[i] == cfg[1..][i - 1]; }
          }
        }
      }
      r
  }

  /** In a configuration with distinct keys, every entry is the one its
      provider looks up. */
  lemma {:induction false} EntryForDistinct(cfg: ModelsConfig, i: nat)
    requires KeysDistinct(cfg) && i < |cfg|
    ensures EntryFor(cfg, cfg[i].provider) == Some(cfg[i])
  {
    if i > 0 {
      assert cfg[0].provider != cfg[i].provider;
      assert KeysDistinct(cfg[1..]) by {
        forall k, l | 0 <= k < l < |cfg[1..]| ensures cfg[1..][k].provider != cfg[1..][l].provider {
          assert cfg[1..][k] == cfg[k + 1] && cfg[1..][l] == cfg[l + 1];
        }
      }
      EntryForDistinct(cfg[1..], i - 1);
      assert cfg[1..][i - 1] == cfg[i];
    }
  }

  /** The client classes the factory can build. */
  datatype ClientKind = OpenAIClient | ClaudeClient | DeepSeekClient | GenericClient

  datatype Client = Client(kind: ClientKind, model: string, apiBase: Option<string>, apiKey: Option<string>)

  /** `x or y` on optional strings. */
  function Or(x: Option<string>, y: Option<string>): Option<string> {
    if Given(x) then x else y
  }

  /** `get_model`: caller-supplied credentials are kept and only missing ones
      are filled from the provider's entry; the provider then picks the
      client class. */
  function GetModel(name: string, explicit: Option<string>, apiBase: Option<string>, apiKey: Option<string>,
                    cfg: ModelsConfig): (m: Client)
    ensures m.model == name
    ensures Given(apiBase) ==> m.apiBase == apiBase
    ensures Given(apiKey) ==> m.apiKey == apiKey
    ensures var entry := EntryFor(cfg, DetermineProvider(name, explicit, cfg));
            && (!Given(apiBase) ==> m.apiBase == if entry.Some? then entry.value.apiBase else None)
            && (!Given(apiKey) ==> m.apiKey == if entry.Some? then entry.value.apiKey else None)
  {
    var provider := DetermineProvider(name, explicit, cfg);
    var creds :=
      if !Given(apiBase) || !Given(apiKey) then
        var entry := EntryFor(cfg, provider);
        (Or(apiBase, if entry.Some? then entry.value.apiBase else None),
         Or(apiKey, if entry.Some? then entry.value.apiKey else None))
      else (apiBase, apiKey);
    var (base, key) := creds;
    var kind :=
      if provider == Value(OpenAI) then OpenAIClient
      else if provider == Value(Claude) then
        (if !Given(base) || base.value == GetApiBase(Some(Claude)) then ClaudeClient else GenericClient)
      else if provider == Value(DeepSeek) then DeepSeekClient
      else GenericClient;
    Client(kind, name, base, key)
  }

  /** Which client class comes out: the Claude client exactly for the
      `claude` provider at the default or an unset base URL, and the generic
      client for unknown providers and for `claude` behind any other URL. */
  lemma ClientChoice(name: string, explicit: Option<string>, apiBase: Option<string>, apiKey: Option<string>,
                     cfg: ModelsConfig)
    ensures var m := GetModel(name, explicit, apiBase, apiKey, cfg);
            var provider := DetermineProvider(name, explicit, cfg);
            && (m.kind == OpenAIClient <==> provider == "openai")
            && (m.kind == DeepSeekClient <==> provider == "deepseek")
            && (m.kind == ClaudeClient <==>
                  provider == "claude" && (!Given(m.apiBase) || m.apiBase == Some(ClaudeApiBase)))
            && (m.kind == GenericClient <==>
                  (provider !in {"openai", "claude", "deepseek"}
                   || (provider == "claude" && Given(m.apiBase) && m.apiBase != Some(ClaudeApiBase))))
  {
  }

  /** Without an explicit provider or a configuration listing, a model name
      reaches the client of its prefix class: the factory's fallback and
      `from_model_name` agree. */
  lemma UnlistedNameFollowsPrefix(name: string, apiBase: Option<string>, apiKey: Option<string>, cfg: ModelsConfig)
    requires forall i :: 0 <= i < |cfg| ==> name !in cfg[i].models
    ensures var m := GetModel(name, None, apiBase, apiKey, cfg);
            && (m.kind == OpenAIClient <==> FromModelName(name) == OpenAI)
            && (m.kind == DeepSeekClient <==> FromModelName(name) == DeepSeek)
            && (FromModelName(name) in {Qwen, Common} ==> m.kind == GenericClient)
  {
    assert FirstListing(cfg, name).None?;
  }
}

=== FILE: pystr.dfy ===
/** The Python `str` operations the repository relies on, written over
    `seq<char>`: whitespace classification, `strip`, `lower`, `startswith`,
    `find`, `rfind`, `replace` and decimal `str()`/`int()` of integers. */
module PyStr {
  import opened Base

  /** `str.isspace` for one character: the Unicode white-space characters
      Python recognises. */
  predicate IsSpace(c: char) {
    c in {' ', '\t', '\n', '\r', '\U{000B}', '\U{000C}', '\U{001C}', '\U{001D}', '\U{001E}', '\U{001F}',
          '\U{0085}', '\U{00A0}', '\U{1680}', '\U{2000}', '\U{2001}', '\U{2002}', '\U{2003}', '\U{2004}',
          '\U{2005}', '\U{2006}', '\U{2007}', '\U{2008}', '\U{2009}', '\U{200A}', '\U{2028}', '\U{2029}',
          '\U{202F}', '\U{205F}', '\U{3000}'}
  }

  /** `str.isalpha` restricted to ASCII letters. */
  predicate IsAlpha(c: char) {
    ('a' <= c <= 'z') || ('A' <= c <= 'Z')
  }

  predicate IsDigit(c: char) {
    '0' <= c <= '9'
  }

  /** `str.isalnum` restricted to ASCII letters and digits. */
  predicate IsAlnum(c: char) {
    IsAlpha(c) || IsDigit(c)
  }

  /** `s.isspace()`: true for a non-empty string made only of white space. */
  predicate IsBlank(s: string) {
    |s| > 0 && forall i :: 0 <= i < |s| ==> IsSpace(s[i])
  }

  /** `s.lstrip()` */
  function LStrip(s: string): (r: string)
    ensures |r| <= |s| && r == s[|s| - |r|..]
    ensures r == [] || !IsSpace(r[0])
    ensures forall k :: 0 <= k < |s| - |r| ==> IsSpace(s[k])
  {
    if s != [] && IsSpace(s[0]) then LStrip(s[1..]) else s
  }

  /** `s.rstrip()` */
  function RStrip(s: string): (r: string)
    ensures |r| <= |s| && r == s[..|r|]
    ensures r == [] || !IsSpace(r[|r| - 1])
    ensures forall k :: |r| <= k < |s| ==> IsSpace(s[k])
  {
    if s != [] && IsSpace(s[|s| - 1]) then RStrip(s[..|s| - 1]) else s
  }

  /** `s.strip()`: the slice of `s` left after removing white space from
      both ends; it is empty exactly when `s` holds nothing but white space. */
  function Strip(s: string): (r: string)
    ensures |r| <= |s|
    ensures r == [] || (!IsSpace(r[0]) && !IsSpace(r[|r| - 1]))
    ensures r == [] <==> forall k :: 0 <= k < |s| ==> IsSpace(s[k])
  {
    var t := RStrip(s);
    var r := LStrip(t);
    assert r == s[|t| - |r|..|t|];
    assert r != [] ==> s[|t| - |r|] == r[0];
    r
  }

  function LowerChar(c: char): char {
    if 'A' <= c <= 'Z' then (c as int + 32) as char else c
  }

  /** `s.lower()` on ASCII letters. */
  function Lower(s: string): (r: string)
    ensures |r| == |s|
    ensures forall i :: 0 <= i < |s| ==> r[i] == LowerChar(s[i])
  {
    seq(|s|, i requires 0 <= i < |s| => LowerChar(s[i]))
  }

  /** `s.lower() in ["null", "none"]` */
  predicate IsNoneWord(s: string) {
    Lower(s) == "null" || Lower(s) == "none"
  }

  predicate StartsWith(s: string, prefix: string) {
    |prefix| <= |s| && s[..|prefix|] == prefix
  }

  predicate EndsWith(s: string, suffix: string) {
    |suffix| <= |s| && s[|s| - |suffix|..] == suffix
  }

  /** `pat` occurs in `s` starting at index `k`. */
  predicate OccursAt(s: string, pat: string, k: int) {
    0 <= k && k + |pat| <= |s| && s[k..k + |pat|] == pat
  }

  /** `pat in s` */
  predicate Contains(s: string, pat: string) {
    exists k | 0 <= k <= |s| :: OccursAt(s, pat, k)
  }

  /** `s.find(pat, start)`: the first occurrence of `pat` at or after
      `start`, or `None` for Python's -1. */
  function Find(s: string, pat: string, start: nat): (r: Option<nat>)
    ensures r.Some? ==> start <= r.value && OccursAt(s, pat, r.value)
    ensures r.Some? ==> forall k :: start <= k < r.value ==> !OccursAt(s, pat, k)
    ensures r.None? ==> forall k :: start <= k ==> !OccursAt(s, pat, k)
    decreases |s| - start
  {
    if start + |pat| > |s| then None
    else if s[start..start + |pat|] == pat then Some(start)
    else Find(s, pat, start + 1)
  }

  /** `s.rfind(c)` for a one-character pattern: the last index holding `c`. */
  function RFind(s: string, c: char): (r: Option<nat>)
    ensures r.Some? ==> r.value < |s| && s[r.value] == c
    ensures r.Some? ==> forall k :: r.value < k < |s| ==> s[k] != c
    ensures r.None? ==> forall k :: 0 <= k < |s| ==> s[k] != c
  {
    if s == [] then None
    else if s[|s| - 1] == c then Some(|s| - 1)
    else RFind(s[..|s| - 1], c)
  }

  /** `Find` returns exactly the first occurrence at or after `start`. */
  lemma FindFirst(s: string, pat: string, start: nat, i: nat)
    requires start <= i && OccursAt(s, pat, i)
    requires forall k :: start <= k < i ==> !OccursAt(s, pat, k)
    ensures Find(s, pat, start) == Some(i)
  {
  }

  lemma FindAbsent(s: string, pat: string, start: nat)
    requires forall k :: start <= k ==> !OccursAt(s, pat, k)
    ensures Find(s, pat, start) == None
  {
  }

  /** `RFind` returns exactly the last index holding `c`. */
  lemma RFindLast(s: string, c: char, j: nat)
    requires j < |s| && s[j] == c
    requires forall k :: j < k < |s| ==> s[k] != c
    ensures RFind(s, c) == Some(j)
  {
  }

  lemma RFindAbsent(s: string, c: char)
    requires forall k :: 0 <= k < |s| ==> s[k] != c
    ensures RFind(s, c) == None
  {
  }

  /** `s.replace(pat, rep)`: every non-overlapping occurrence of `pat`,
      scanning left to right, is replaced by `rep`. */
  function ReplaceAll(s: string, pat: string, rep: string): string
    requires |pat| > 0
  {
    if |s| < |pat| then s
    else if s[..|pat|] == pat then rep + ReplaceAll(s[|pat|..], pat, rep)
    else [s[0]] + ReplaceAll(s[1..], pat, rep)
  }

  /** `sep.join(parts)` */
  function Join(sep: string, parts: seq<string>): string {
    if parts == [] then ""
    else if |parts| == 1 then parts[0]
    else parts[0] + sep + Join(sep, parts[1..])
  }

  // ---------------------------------------------------------------------
  // Removing every triple back-tick leaves none behind.

  /** The number of back-ticks `s` starts with. */
  function LeadTicks(s: string): nat {
    if s != [] && s[0] == '`' then 1 + LeadTicks(s[1..]) else 0
  }

  lemma LeadTicksCons(c: char, t: string)
    ensures LeadTicks([c] + t) == if c == '`' then 1 + LeadTicks(t) else 0
  {
    assert ([c] + t)[1..] == t;
  }

  lemma LeadTicksOfTriple(s: string)
    requires |s| >= 3 && s[..3] == "```"
    ensures LeadTicks(s) == 3 + LeadTicks(s[3..])
  {
    assert s[0] == '`' && s[1] == '`' && s[2] == '`';
    assert s[1..][1..] == s[2..];
    assert s[2..][1..] == s[3..];
    assert LeadTicks(s[2..]) == 1 + LeadTicks(s[3..]);
    assert LeadTicks(s[1..]) == 1 + LeadTicks(s[2..]);
  }

  lemma LeadTicksAfterSingle(s: string)
    requires |s| >= 3 && s[..3] != "```" && s[0] == '`'
    ensures LeadTicks(s[1..]) <= 1
  {
    if s[1] == '`' {
      assert s[1..][1..] == s[2..];
    }
  }

  /** A string of fewer than three characters cannot hold "```". */
  lemma ShortHasNoTriple(s: string)
    requires |s| < 3
    ensures !Contains(s, "```")
    ensures LeadTicks(s) < 3
  {
    if s != [] && s[0] == '`' {
      assert s[1..] == [] || (|s| == 2 && s[1..][1..] == []);
    }
  }

  lemma NotTripleAt(r: string, k: nat)
    requires k + 3 <= |r| && (r[k] != '`' || r[k + 1] != '`' || r[k + 2] != '`')
    ensures !OccursAt(r, "```", k)
  {
    var w := r[k..k + 3];
    assert w[0] == r[k] && w[1] == r[k + 1] && w[2] == r[k + 2];
  }

  /** Prefixing a character keeps a string free of "```" as long as it does
      not extend a leading run of two back-ticks. */
  lemma ConsHasNoTriple(c: char, t: string)
    requires !Contains(t, "```")
    requires c != '`' || LeadTicks(t) <= 1
    ensures !Contains([c] + t, "```")
  {
    var r := [c] + t;
    forall k | 0 <= k <= |r| ensures !OccursAt(r, "```", k) {
      if k == 0 && |r| >= 3 {
        if c == '`' && t[0] == '`' {
          assert t[1..][0] == t[1];
          assert LeadTicks(t) == 1 + LeadTicks(t[1..]);
        }
        NotTripleAt(r, 0);
      } else if k + 3 <= |r| {
        assert r[k..k + 3] == t[k - 1..k + 2];
        assert !OccursAt(t, "```", k - 1);
      }
    }
  }

  lemma ReplaceAfterTriple(s: string)
    requires |s| >= 3 && s[..3] == "```"
    ensures ReplaceAll(s, "```", "") == ReplaceAll(s[3..], "```", "")
  {
    assert "" + ReplaceAll(s[3..], "```", "") == ReplaceAll(s[3..], "```", "");
  }

  lemma ReplaceKeepsHead(s: string)
    requires |s| >= 3 && s[..3] != "```"
    ensures ReplaceAll(s, "```", "") == [s[0]] + ReplaceAll(s[1..], "```", "")
  {
  }

  /** Keeping a leading character that does not start "```" keeps the rest
      free of "```" and the leading run below three. */
  lemma KeepHeadNoTicks(s: string, t: string)
    requires |s| >= 3 && s[..3] != "```"
    requires !Contains(t, "```") && LeadTicks(t) == LeadTicks(s[1..]) % 3
    ensures !Contains([s[0]] + t, "```")
    ensures LeadTicks([s[0]] + t) == LeadTicks(s) % 3
  {
    LeadTicksCons(s[0], t);
    LeadTicksCons(s[0], s[1..]);
    assert [s[0]] + s[1..] == s;
    if s[0] == '`' {
      LeadTicksAfterSingle(s);
    }
    ConsHasNoTriple(s[0], t);
  }

  /** After `s.replace("```", "")` no "```" is left in `s`: each run of
      back-ticks of length L shrinks to L mod 3. */
  lemma {:induction false} NoTicksAfterRemoval(s: string)
    ensures !Contains(ReplaceAll(s, "```", ""), "```")
    ensures LeadTicks(ReplaceAll(s, "```", "")) == LeadTicks(s) % 3
    decreases |s|
  {
    if |s| < 3 {
      ShortHasNoTriple(s);
    } else if s[..3] == "```" {
      NoTicksAfterRemoval(s[3..]);
      LeadTicksOfTriple(s);
      ReplaceAfterTriple(s);
    } else {
      NoTicksAfterRemoval(s[1..]);
      ReplaceKeepsHead(s);
      KeepHeadNoTicks(s, ReplaceAll(s[1..], "```", ""));
    }
  }

  // ---------------------------------------------------------------------
  // Decimal rendering and parsing of integers.

  function DigitChar(d: nat): char
    requires d < 10
  {
    ('0' as int + d) as char
  }

  function DigitValue(c: char): nat
    requires IsDigit(c)
  {
    c as int - '0' as int
  }

  predicate AllDigits(s: string) {
    forall i :: 0 <= i < |s| ==> IsDigit(s[i])
  }

  /** The natural number a string of decimal digits denotes. */
  function DigitsValue(s: string): nat
    requires AllDigits(s)
  {
    if s == [] then 0 else DigitsValue(s[..|s| - 1]) * 10 + DigitValue(s[|s| - 1])
  }

  /** The decimal digits of `n`, most significant first, with no leading zero. */
  function NatDigits(n: nat): (r: string)
    ensures |r| > 0 && AllDigits(r)
  {
    if n < 10 then [DigitChar(n)] else NatDigits(n / 10) + [DigitChar(n % 10)]
  }

  /** `str(i)` for a Python integer. */
  function IntToString(i: int): (r: string)
    ensures |r| > 0
  {
    if i < 0 then "-" + NatDigits(-i) else NatDigits(i)
  }

  /** A run of ASCII digits grouped as Python's integer literals allow: it
      starts and ends with a digit, and every underscore stands alone
      between two digits. */
  predicate Grouped(s: string) {
    && s != [] && IsDigit(s[0]) && IsDigit(s[|s| - 1])
    && forall i | 0 <= i < |s| ::
         IsDigit(s[i]) || (s[i] == '_' && 0 < i < |s| - 1 && IsDigit(s[i - 1]) && IsDigit(s[i + 1]))
  }

  /** The digits of the string, in order: for a grouped run, the run with
      its underscores dropped. */
  function Ungroup(s: string): (r: string)
    ensures AllDigits(r)
  {
    if s == [] then [] else (if IsDigit(s[0]) then [s[0]] else []) + Ungroup(s[1..])
  }

  lemma {:induction false} UngroupDigits(s: string)
    requires AllDigits(s)
    ensures Ungroup(s) == s
  {
    if s != [] {
      UngroupDigits(s[1..]);
    }
  }

  lemma {:induction false} UngroupAppend(x: string, y: string)
    ensures Ungroup(x + y) == Ungroup(x) + Ungroup(y)
  {
    if x == [] {
      assert x + y == y;
    } else {
      var h := if IsDigit(x[0]) then [x[0]] else [];
      assert (x + y)[0] == x[0] && (x + y)[1..] == x[1..] + y;
      UngroupAppend(x[1..], y);
      assert Ungroup(x + y) == h + (Ungroup(x[1..]) + Ungroup(y));
    }
  }

  lemma AllDigitsAppend(a: string, b: string)
    requires AllDigits(a) && AllDigits(b)
    ensures AllDigits(a + b)
  {
    forall i | 0 <= i < |a + b| ensures IsDigit((a + b)[i]) {
      if i >= |a| {
        assert (a + b)[i] == b[i - |a|];
      }
    }
  }

  /** Two digit runs joined by one underscore are grouped. */
  lemma GroupedJoin(a: string, b: string)
    requires a != [] && b != [] && AllDigits(a) && AllDigits(b)
    ensures Grouped(a + "_" + b)
  {
    var s := a + "_" + b;
    forall i | 0 <= i < |s|
      ensures IsDigit(s[i]) || (s[i] == '_' && 0 < i < |s| - 1 && IsDigit(s[i - 1]) && IsDigit(s[i + 1]))
    {
      if i < |a| {
        assert s[i] == a[i];
      } else if i == |a| {
        assert s[i - 1] == a[|a| - 1] && s[i + 1] == b[0];
      } else {
        assert s[i] == b[i - |a| - 1];
      }
    }
    assert s[0] == a[0] && s[|s| - 1] == b[|b| - 1];
  }

  /** `int(s)` for a string already stripped of white space: an optional
      sign followed by ASCII digits, grouped by single underscores. */
  function ParseDecimal(s: string): (r: Option<int>)
    ensures r.Some? ==> |s| > 0
    ensures r.Some? <==> Grouped(s) || (|s| > 0 && (s[0] == '-' || s[0] == '+') && Grouped(s[1..]))
  {
    if |s| > 0 && (s[0] == '-' || s[0] == '+') then
      var body := s[1..];
      if Grouped(body) then
        var v: int := DigitsValue(Ungroup(body));
        Some(if s[0] == '-' then -v else v)
      else None
    else if Grouped(s) then Some(DigitsValue(Ungroup(s)))
    else None
  }

  /** A run of digits is grouped, with nothing to drop. */
  lemma DigitsGrouped(s: string)
    requires s != [] && AllDigits(s)
    ensures Grouped(s) && Ungroup(s) == s
  {
    UngroupDigits(s);
  }

  /** Underscores between digit groups do not change the value:
      `int("1_000") == int("1000")`. */
  lemma ParseGrouped(a: string, b: string)
    requires a != [] && b != [] && AllDigits(a) && AllDigits(b)
    ensures ParseDecimal(a + "_" + b) == ParseDecimal(a + b)
    ensures ParseDecimal(a + b) == Some(DigitsValue(a + b))
  {
    AllDigitsAppend(a, b);
    DigitsGrouped(a + b);
    assert (a + b)[0] == a[0];
    JoinedDigits(a, b);
  }

  /** Joining two digit runs by an underscore gives a grouped run of the
      same digits. */
  lemma JoinedDigits(a: string, b: string)
    requires a != [] && b != [] && AllDigits(a) && AllDigits(b)
    ensures Grouped(a + "_" + b) && Ungroup(a + "_" + b) == a + b && (a + "_" + b)[0] == a[0]
  {
    GroupedJoin(a, b);
    var u := Ungroup("_");
    assert u == [] by {
      assert !IsDigit('_') && "_"[1..] == [];
    }
    UngroupAppend(a, "_");
    UngroupDigits(a);
    var left := Ungroup(a + "_");
    assert left == a;
    UngroupAppend(a + "_", b);
    UngroupDigits(b);
    assert Ungroup(a + "_" + b) == left + Ungroup(b);
  }

  lemma {:induction false} NatDigitsValue(n: nat)
    ensures DigitsValue(NatDigits(n)) == n
  {
    var r := NatDigits(n);
    if n >= 10 {
      NatDigitsValue(n / 10);
      assert r[..|r| - 1] == NatDigits(n / 10);
    }
  }

  /** `int(str(i)) == i` */
  lemma IntToStringRoundTrip(i: int)
    ensures ParseDecimal(IntToString(i)) == Some(i)
  {
    if i < 0 {
      NatDigitsValue(-i);
      DigitsGrouped(NatDigits(-i));
      assert IntToString(i)[1..] == NatDigits(-i);
    } else {
      NatDigitsValue(i);
      DigitsGrouped(NatDigits(i));
    }
  }
}

=== FILE: result.dfy ===
/** The execution records: what each agent did (`AgentExecutionResult`),
    what a team run produced (`TeamResult`), and the outcome of one agent's
    `step` (`AgentResult`), with their dictionary forms. Times are opaque
    numbers supplied by the caller (the clock is not modelled). */
module Results {
  import opened Base
  import opened PyStr
  import opened Json

  /** The `Task` states the records set; `Created` stands for whatever a new
      task starts in (task.py is not part of this model). */
  datatype TaskStatus = Created | Processing | Completed | Failed

  /** The fields of `Task` the records use. */
  datatype Task = Task(id: string, text: string, kind: string, status: TaskStatus)

  datatype ActionType = ToolUse | Thinking | FinalAnswer

  function ActionTypeValue(t: ActionType): string {
    match t
    case ToolUse => "tool_use"
    case Thinking => "thinking"
    case FinalAnswer => "final_answer"
  }

  datatype ToolResult = ToolResult(
    toolName: string,
    inputParams: Json,
    output: Json,
    status: string,
    errorMessage: Option<string>,
    executionTime: real)

  datatype AgentAction = AgentAction(
    agentId: string,
    agentName: string,
    actionType: ActionType,
    id: string,
    content: string,
    toolResult: Option<ToolResult>,
    timestamp: real)

  datatype AgentExecutionResult = AgentExecutionResult(
    agentId: string,
    agentName: string,
    subtask: Json,
    actions: seq<AgentAction>,
    finalAnswer: string,
    startTime: real,
    endTime: real)

  /** A fresh record started at `now`. */
  function NewExecution(agentId: string, agentName: string, subtask: Json, now: real): (r: AgentExecutionResult)
    ensures r.actions == [] && r.finalAnswer == "" && r.endTime == 0.0 && r.startTime == now
  {
    AgentExecutionResult(agentId, agentName, subtask, [], "", now, 0.0)
  }

  /** The `execution_time` property of both record kinds: only a finished
      record (positive end time) has a duration. */
  function Duration(startTime: real, endTime: real): (d: real)
    ensures endTime <= 0.0 ==> d == 0.0
    ensures endTime > 0.0 ==> d + startTime == endTime
  {
    if endTime > 0.0 then endTime - startTime else 0.0
  }

  /** `add_action`: append; a final answer action also replaces the record's
      final answer. */
  function AddAction(r: AgentExecutionResult, a: AgentAction): (r': AgentExecutionResult)
    ensures r'.actions == r.actions + [a]
    ensures r'.finalAnswer == if a.actionType == FinalAnswer then a.content else r.finalAnswer
    ensures r' == r.(actions := r'.actions, finalAnswer := r'.finalAnswer)
  {
    var r1 := r.(actions := r.actions + [a]);
    if a.actionType == FinalAnswer then r1.(finalAnswer := a.content) else r1
  }

  /** Adding actions one at a time, in order. */
  function AddActions(r: AgentExecutionResult, actions: seq<AgentAction>): AgentExecutionResult
    decreases |actions|
  {
    if actions == [] then r else AddActions(AddAction(r, actions[0]), actions[1..])
  }

  /** The content of the last final answer action, if there is one. */
  function LastFinalAnswer(actions: seq<AgentAction>): Option<string> {
    if actions == [] then None
    else if actions[|actions| - 1].actionType == FinalAnswer then Some(actions[|actions| - 1].content)
    else LastFinalAnswer(actions[..|actions| - 1])
  }

  /** After a batch of actions, the log has gained exactly that batch at its
      end, and the final answer is the last final answer action's content,
      or unchanged when the batch holds none. */
  lemma {:induction false} AddActionsLog(r: AgentExecutionResult, actions: seq<AgentAction>)
    ensures AddActions(r, actions).actions == r.actions + actions
    ensures AddActions(r, actions).finalAnswer ==
              match LastFinalAnswer(actions) case Some(c) => c case None => r.finalAnswer
    ensures AddActions(r, actions) == r.(actions := r.actions + actions,
                                         finalAnswer := AddActions(r, actions).finalAnswer)
    decreases |actions|
  {
    if actions != [] {
      var r1 := AddAction(r, actions[0]);
      AddActionsLog(r1, actions[1..]);
      assert r.actions + [actions[0]] + actions[1..] == r.actions + actions;
      LastFinalAnswerSplit(actions);
    }
  }

  /** The last final answer of two batches of actions is the second
      batch's, or the first's when the second holds none. */
  lemma {:induction false} LastFinalAnswerAppend(x: seq<AgentAction>, y: seq<AgentAction>)
    ensures LastFinalAnswer(x + y) == if LastFinalAnswer(y).Some? then LastFinalAnswer(y) else LastFinalAnswer(x)
    decreases |y|
  {
    if y == [] {
      assert x + y == x;
    } else {
      assert (x + y)[|x + y| - 1] == y[|y| - 1];
      assert (x + y)[..|x + y| - 1] == x + y[..|y| - 1];
      LastFinalAnswerAppend(x, y[..|y| - 1]);
    }
  }

  /** `LastFinalAnswer` looked at from the front. */
  lemma {:induction false} LastFinalAnswerSplit(actions: seq<AgentAction>)
    requires actions != []
    ensures LastFinalAnswer(actions) ==
              match LastFinalAnswer(actions[1..])
              case Some(c) => Some(c)
              case None => if actions[0].actionType == FinalAnswer then Some(actions[0].content) else None
    decreases |actions|
  {
    if |actions| > 1 {
      var init := actions[..|actions| - 1];
      LastFinalAnswerSplit(init);
      assert init[1..] == actions[1..][..|actions[1..]| - 1];
      assert init[0] == actions[0];
    }
  }

  /** `complete`: stamp the end time. */
  function CompleteExecution(r: AgentExecutionResult, now: real): (r': AgentExecutionResult)
    ensures r' == r.(endTime := now)
    ensures now > 0.0 ==> Duration(r'.startTime, r'.endTime) == now - r.startTime
  {
    r.(endTime := now)
  }

  datatype TeamResult = TeamResult(
    id: string,
    teamName: string,
    task: Task,
    agentResults: seq<AgentExecutionResult>,
    finalOutput: string,
    startTime: real,
    endTime: real,
    status: string)

  /** The constructor: the id defaults to the `Task`'s. */
  function NewTeamResult(teamName: string, task: Task, id: Option<string>, now: real): (r: TeamResult)
    ensures r.id == (if id.Some? then id.value else task.id)
    ensures r.agentResults == [] && r.finalOutput == "" && r.status == "running" && r.endTime == 0.0
  {
    TeamResult(if id.Some? then id.value else task.id, teamName, task, [], "", now, 0.0, "running")
  }

  /** `add_agent_result`: append; a non-empty final answer becomes the final
      output. */
  function AddAgentResult(t: TeamResult, a: AgentExecutionResult): (t': TeamResult)
    ensures t'.agentResults == t.agentResults + [a]
    ensures t'.finalOutput == if a.finalAnswer != "" then a.finalAnswer else t.finalOutput
    ensures t' == t.(agentResults := t'.agentResults, finalOutput := t'.finalOutput)
  {
    var t1 := t.(agentResults := t.agentResults + [a]);
    if a.finalAnswer != "" then t1.(finalOutput := a.finalAnswer) else t1
  }

  function AddAgentResults(t: TeamResult, rs: seq<AgentExecutionResult>): TeamResult
    decreases |rs|
  {
    if rs == [] then t else AddAgentResults(AddAgentResult(t, rs[0]), rs[1..])
  }

  /** The last non-empty final answer among the results, if any. */
  function LastNonEmptyAnswer(rs: seq<AgentExecutionResult>): Option<string> {
    if rs == [] then None
    else if rs[|rs| - 1].finalAnswer != "" then Some(rs[|rs| - 1].finalAnswer)
    else LastNonEmptyAnswer(rs[..|rs| - 1])
  }

  lemma {:induction false} LastNonEmptySplit(rs: seq<AgentExecutionResult>)
    requires rs != []
    ensures LastNonEmptyAnswer(rs) ==
              match LastNonEmptyAnswer(rs[1..])
              case Some(c) => Some(c)
              case None => if rs[0].finalAnswer != "" then Some(rs[0].finalAnswer) else None
    decreases |rs|
  {
    if |rs| > 1 {
      var init := rs[..|rs| - 1];
      LastNonEmptySplit(init);
      assert init[1..] == rs[1..][..|rs[1..]| - 1];
      assert init[0] == rs[0];
    }
  }

  /** After adding results in order, they stand at the end of the log in
      that order and the final output is the last non-empty final answer
      among them (or what it was before, when all are empty). */
  lemma {:induction false} AddAgentResultsLog(t: TeamResult, rs: seq<AgentExecutionResult>)
    ensures AddAgentResults(t, rs).agentResults == t.agentResults + rs
    ensures AddAgentResults(t, rs).finalOutput ==
              match LastNonEmptyAnswer(rs) case Some(c) => c case None => t.finalOutput
    ensures AddAgentResults(t, rs) == t.(agentResults := t.agentResults + rs,
                                         finalOutput := AddAgentResults(t, rs).finalOutput)
    decreases |rs|
  {
    if rs != [] {
      var t1 := AddAgentResult(t, rs[0]);
      AddAgentResultsLog(t1, rs[1..]);
      assert t.agentResults + [rs[0]] + rs[1..] == t.agentResults + rs;
      LastNonEmptySplit(rs);
    }
  }

  /** `TeamResult.complete(status)`: the `Task` follows only the two statuses
      it knows. */
  function CompleteTeam(t: TeamResult, status: string, now: real): (t': TeamResult)
    ensures t'.status == status && t'.endTime == now
    ensures t'.task.status == (if status == "completed" then Completed
                               else if status == "failed" then Failed
                               else t.task.status)
    ensures t' == t.(status := status, endTime := now, task := t'.task)
    ensures t'.task == t.task.(status := t'.task.status)
  {
    var t1 := t.(endTime := now, status := status);
    if status == "completed" then t1.(task := t1.task.(status := Completed))
    else if status == "failed" then t1.(task := t1.task.(status := Failed))
    else t1
  }

  datatype AgentResult = AgentResult(finalAnswer: string, stepCount: int, status: string, errorMessage: Option<string>)

  function Success(finalAnswer: string, stepCount: int): (r: AgentResult)
    ensures !IsErrorResult(r) && r.finalAnswer == finalAnswer && r.stepCount == stepCount
  {
    AgentResult(finalAnswer, stepCount, "success", None)
  }

  function ErrorResult(message: string, stepCount: int): (r: AgentResult)
    ensures IsErrorResult(r) && r.stepCount == stepCount && r.errorMessage == Some(message)
    ensures StartsWith(r.finalAnswer, "Error: ") && r.finalAnswer[7..] == message
  {
    AgentResult("Error: " + message, stepCount, "error", Some(message))
  }

  predicate IsErrorResult(r: AgentResult) {
    r.status == "error"
  }

  // ---------------------------------------------------------------------
  // Dictionary forms.

  function ToolResultJson(t: ToolResult, withError: bool): Json {
    var m := map["tool_name" := JStr(t.toolName), "input_params" := t.inputParams, "output" := t.output,
                 "status" := JStr(t.status), "execution_time" := JFloat(t.executionTime)];
    JObj(if withError then m["error_message" := (if t.errorMessage.Some? then JStr(t.errorMessage.value) else JNull)]
         else m)
  }

  /** One action; the team form leaves out the agent id and the tool's error
      message. */
  function ActionJson(a: AgentAction, full: bool): (j: Json)
    ensures j.JObj? && "content" in j.fields && j.fields["content"] == JStr(a.content)
    ensures "action_type" in j.fields && j.fields["action_type"] == JStr(ActionTypeValue(a.actionType))
    ensures "agent_id" in j.fields <==> full
  {
    var m := map["id" := JStr(a.id), "agent_name" := JStr(a.agentName),
                 "action_type" := JStr(ActionTypeValue(a.actionType)), "content" := JStr(a.content),
                 "tool_result" := (if a.toolResult.Some? then ToolResultJson(a.toolResult.value, full) else JNull),
                 "timestamp" := JFloat(a.timestamp)];
    JObj(if full then m["agent_id" := JStr(a.agentId)] else m)
  }

  function ActionsJson(actions: seq<AgentAction>, full: bool): (r: seq<Json>)
    ensures |r| == |actions|
    ensures forall i :: 0 <= i < |actions| ==> r[i] == ActionJson(actions[i], full)
  {
    if actions == [] then [] else [ActionJson(actions[0], full)] + ActionsJson(actions[1..], full)
  }

  /** `AgentExecutionResult.to_dict`. */
  function ExecutionToDict(r: AgentExecutionResult): (d: Json)
    ensures d.JObj? && "actions" in d.fields && "final_answer" in d.fields && "execution_time" in d.fields
    ensures d.fields["final_answer"] == JStr(r.finalAnswer)
    ensures d.fields["actions"] == JArr(ActionsJson(r.actions, true))
    ensures d.fields["execution_time"] == JFloat(Duration(r.startTime, r.endTime))
  {
    JObj(map["agent_id" := JStr(r.agentId), "agent_name" := JStr(r.agentName), "subtask" := r.subtask,
             "actions" := JArr(ActionsJson(r.actions, true)), "final_answer" := JStr(r.finalAnswer),
             "start_time" := JFloat(r.startTime), "end_time" := JFloat(r.endTime),
             "execution_time" := JFloat(Duration(r.startTime, r.endTime))])
  }

  /** One agent's entry in the team form. */
  function AgentEntryJson(r: AgentExecutionResult): (j: Json)
    ensures j.JObj? && "final_answer" in j.fields && "actions" in j.fields
    ensures j.fields["final_answer"] == JStr(r.finalAnswer)
    ensures j.fields["actions"] == JArr(ActionsJson(r.actions, false))
  {
    JObj(map["agent_id" := JStr(r.agentId), "agent_name" := JStr(r.agentName), "subtask" := r.subtask,
             "final_answer" := JStr(r.finalAnswer), "execution_time" := JFloat(Duration(r.startTime, r.endTime)),
             "actions" := JArr(ActionsJson(r.actions, false))])
  }

  function AgentEntriesJson(rs: seq<AgentExecutionResult>): (r: seq<Json>)
    ensures |r| == |rs|
    ensures forall i :: 0 <= i < |rs| ==> r[i] == AgentEntryJson(rs[i])
  {
    if rs == [] then [] else [AgentEntryJson(rs[0])] + AgentEntriesJson(rs[1..])
  }

  /** `TeamResult.to_dict`. The `Task`'s status string comes from `statusValue`
      (the enum's values are defined in task.py). */
  function TeamToDict(t: TeamResult, statusValue: TaskStatus -> string): (d: Json)
    ensures d.JObj? && "agent_results" in d.fields && "final_output" in d.fields && "status" in d.fields
    ensures d.fields["agent_results"] == JArr(AgentEntriesJson(t.agentResults))
    ensures d.fields["final_output"] == JStr(t.finalOutput) && d.fields["status"] == JStr(t.status)
  {
    var task := JObj(map["id" := JStr(t.task.id), "content" := JStr(t.task.text), "type" := JStr(t.task.kind),
                         "status" := JStr(statusValue(t.task.status))]);
    JObj(map["id" := JStr(t.id), "team_name" := JStr(t.teamName), "task" := task,
             "agent_results" := JArr(AgentEntriesJson(t.agentResults)), "final_output" := JStr(t.finalOutput),
             "execution_time" := JFloat(Duration(t.startTime, t.endTime)), "start_time" := JFloat(t.startTime),
             "end_time" := JFloat(t.endTime), "status" := JStr(t.status)])
  }

  /** Reading the dictionary back: the `final_answer` of each agent entry
      and the `content` of each of its actions. */
  function AnswersOf(entries: seq<Json>): seq<Json> {
    if entries == [] then []
    else [if Has(entries[0], "final_answer") then entries[0].fields["final_answer"] else JNull]
         + AnswersOf(entries[1..])
  }

  function AnswerStrings(rs: seq<AgentExecutionResult>): seq<Json> {
    if rs == [] then [] else [JStr(rs[0].finalAnswer)] + AnswerStrings(rs[1..])
  }

  function ContentsOf(actions: seq<Json>): seq<Json> {
    if actions == [] then []
    else [if Has(actions[0], "content") then actions[0].fields["content"] else JNull] + ContentsOf(actions[1..])
  }

  function ContentStrings(actions: seq<AgentAction>): seq<Json> {
    if actions == [] then [] else [JStr(actions[0].content)] + ContentStrings(actions[1..])
  }

  /** The team dictionary lists the agents' final answers exactly, in the
      order the results were added. */
  lemma {:induction false} TeamDictKeepsAnswers(rs: seq<AgentExecutionResult>)
    ensures AnswersOf(AgentEntriesJson(rs)) == AnswerStrings(rs)
  {
    if rs != [] {
      TeamDictKeepsAnswers(rs[1..]);
      assert AgentEntriesJson(rs)[1..] == AgentEntriesJson(rs[1..]);
    }
  }

  /** Each action list in a dictionary keeps the actions' contents in order. */
  lemma {:induction false} DictKeepsActionOrder(actions: seq<AgentAction>, full: bool)
    ensures ContentsOf(ActionsJson(actions, full)) == ContentStrings(actions)
  {
    if actions != [] {
      DictKeepsActionOrder(actions[1..], full);
      assert ActionsJson(actions, full)[1..] == ActionsJson(actions[1..], full);
    }
  }
}

=== FILE: string_util.dfy ===
/** `json_loads` of plagentic/sdk/common/utils/stringUtil.py: strip a
    Markdown ```json fence, trim, and hand the text to the JSON decoder. */
module StringUtil {
  import opened Base
  import opened PyStr
  import Json

  const JsonFence := "```json"
  const Fence := "```"

  /** The text `json_loads` hands to the decoder. */
  function Unfenced(text: string): (r: string)
    ensures StartsWith(text, JsonFence) && EndsWith(text, Fence) ==> !Contains(r, Fence)
    ensures !(StartsWith(text, JsonFence) && EndsWith(text, Fence)) ==> r == Strip(text)
    ensures r == [] || (!IsSpace(r[0]) && !IsSpace(r[|r| - 1]))
  {
    if StartsWith(text, JsonFence) && EndsWith(text, Fence) then
      var once := ReplaceAll(text, JsonFence, "");
      var twice := ReplaceAll(once, Fence, "");
      NoTicksAfterRemoval(once);
      StripKeepsNoFence(twice);
      Strip(twice)
    else Strip(text)
  }

  /** Stripping white space cannot create a fence. */
  lemma StripKeepsNoFence(s: string)
    requires !Contains(s, Fence)
    ensures !Contains(Strip(s), Fence)
  {
    var t := RStrip(s);
    StripIsSlice(s);
    SliceKeepsNoFence(s, |t| - |Strip(s)|, |t|);
  }

  lemma StripIsSlice(s: string)
    ensures |Strip(s)| <= |RStrip(s)| <= |s|
    ensures Strip(s) == s[|RStrip(s)| - |Strip(s)|..|RStrip(s)|]
  {
  }

  /** A slice of a string without a fence has none either. */
  lemma SliceKeepsNoFence(s: string, i: int, j: int)
    requires 0 <= i <= j <= |s| && !Contains(s, Fence)
    ensures !Contains(s[i..j], Fence)
  {
    var r := s[i..j];
    forall k | 0 <= k <= |r| ensures !OccursAt(r, Fence, k) {
      if k + 3 <= |r| {
        assert r[k] == s[i + k] && r[k + 1] == s[i + k + 1] && r[k + 2] == s[i + k + 2];
        assert !OccursAt(s, Fence, i + k);
        NotFenceAt(s, r, i + k, k);
      }
    }
  }

  lemma NotFenceAt(s: string, r: string, i: int, k: int)
    requires 0 <= i && i + 3 <= |s| && 0 <= k && k + 3 <= |r|
    requires r[k] == s[i] && r[k + 1] == s[i + 1] && r[k + 2] == s[i + 2]
    requires !OccursAt(s, Fence, i)
    ensures !OccursAt(r, Fence, k)
  {
    var a := s[i..i + 3];
    var b := r[k..k + 3];
    assert a[0] == b[0] && a[1] == b[1] && a[2] == b[2];
    assert a == b;
  }

  /** A string without a back-tick holds no pattern that starts with one. */
  lemma TickFreeHasNo(s: string, pat: string)
    requires |pat| > 0 && pat[0] == '`' && !Contains(s, "`")
    ensures !Contains(s, pat)
  {
    forall k | 0 <= k <= |s| ensures !OccursAt(s, pat, k) {
      if k + |pat| <= |s| {
        assert !OccursAt(s, "`", k);
        assert s[k..k + 1] == [s[k]];
        assert s[k..k + |pat|][0] == s[k];
      }
    }
  }

  /** `stringUtil.json_loads(text)`: `None` stands for a `JSONDecodeError`. */
  function JsonLoads(text: string, decode: Json.Decoder): Option<Json.Json> {
    decode(Unfenced(text))
  }

  /** A fenced reply reaches the decoder as its inner text, trimmed. */
  lemma FencedReply(inner: string)
    requires !Contains(inner, Fence)
    requires !Contains(inner, "`")
    ensures Unfenced(JsonFence + inner + Fence) == Strip(inner)
  {
    var text := JsonFence + inner + Fence;
    assert StartsWith(text, JsonFence);
    assert EndsWith(text, Fence);
    RemoveLeading(inner);
    assert ReplaceAll(inner + Fence, Fence, "") == inner by {
      RemoveTrailingFence(inner);
    }
  }

  lemma RemoveLeading(inner: string)
    requires !Contains(inner, "`")
    ensures ReplaceAll(JsonFence + inner + Fence, JsonFence, "") == inner + Fence
  {
    var text := JsonFence + inner + Fence;
    assert text[..7] == JsonFence;
    assert text[7..] == inner + Fence;
    NoTickUnchanged(inner + Fence, JsonFence) by {
      TickFreePrefix(inner);
    }
  }

  lemma TickFreePrefix(inner: string)
    requires !Contains(inner, "`")
    ensures !Contains(inner + Fence, JsonFence)
  {
    var s := inner + Fence;
    forall k | 0 <= k <= |s| ensures !OccursAt(s, JsonFence, k) {
      if k + 7 <= |s| {
        assert s[k..k + 7][0] == s[k];
        assert !OccursAt(inner, "`", k);
        assert inner[k..k + 1] == [inner[k]];
        assert s[k] == inner[k];
      }
    }
  }

  /** `s.replace(pat, rep)` leaves a string without `pat` unchanged. */
  lemma {:induction false} NoTickUnchanged(s: string, pat: string)
    requires |pat| > 0 && !Contains(s, pat)
    ensures ReplaceAll(s, pat, "") == s
    decreases |s|
  {
    if |s| >= |pat| {
      assert !OccursAt(s, pat, 0);
      assert !Contains(s[1..], pat) by {
        forall k | 0 <= k <= |s[1..]| ensures !OccursAt(s[1..], pat, k) {
          if OccursAt(s[1..], pat, k) {
            assert s[1..][k..k + |pat|] == s[k + 1..k + 1 + |pat|];
            assert OccursAt(s, pat, k + 1);
          }
        }
      }
      NoTickUnchanged(s[1..], pat);
      assert [s[0]] + s[1..] == s;
    }
  }

  lemma {:induction false} RemoveTrailingFence(inner: string)
    requires !Contains(inner, "`")
    ensures ReplaceAll(inner + Fence, Fence, "") == inner
    decreases |inner|
  {
    var s := inner + Fence;
    if inner == [] {
      assert s == Fence;
      assert s[3..] == [];
    } else {
      assert s[0] == inner[0];
      assert inner[0] != '`' by {
        assert inner[0..1] == [inner[0]];
        assert !OccursAt(inner, "`", 0);
      }
      assert s[..3] != Fence by { assert s[..3][0] == s[0]; }
      assert !Contains(inner[1..], "`") by {
        forall k | 0 <= k <= |inner[1..]| ensures !OccursAt(inner[1..], "`", k) {
          if OccursAt(inner[1..], "`", k) {
            assert inner[1..][k..k + 1] == inner[k + 1..k + 2];
            assert OccursAt(inner, "`", k + 1);
          }
        }
      }
      RemoveTrailingFence(inner[1..]);
      assert s[1..] == inner[1..] + Fence;
      assert [inner[0]] + inner[1..] == inner;
    }
  }
}

=== FILE: team.dfy ===
/** `AgentTeam` of plagentic/sdk/core/team.py: a team picks the agent that
    starts on a task, runs it, and keeps asking the agent that just finished
    for a successor until the team's step total is spent or no successor is
    named. The model replies come from the same script the agents read. */
module Team {
  import opened Base
  import opened PyStr
  import opened Json
  import opened LlmBase
  import opened StringUtil
  import opened Results
  import opened Agents
  import XmlParser

  /** A team: its members in the order they were added and the context they
      share. The team's `max_steps` is the context's `maxSteps` (both are set
      from the same constructor argument). */
  datatype AgentTeam = AgentTeam(
    name: string,
    description: string,
    rule: string,
    hasModel: bool,
    agents: seq<Agent>,
    ctx: Ctx)

  /** The constructor: no members, a fresh step counter. */
  function NewTeam(name: string, description: string, rule: string, hasModel: bool, maxSteps: int): (t: AgentTeam)
    ensures t.agents == [] && t.ctx.currentSteps == 0 && t.ctx.outputs == [] && t.ctx.maxSteps == maxSteps
  {
    AgentTeam(name, description, rule, hasModel, [], Ctx(name, description, hasModel, 0, maxSteps, []))
  }

  /** `add`: the agent joins at the end, borrowing the team's model only when
      it has none of its own; nobody else changes. */
  function Add(t: AgentTeam, a: Agent): (t': AgentTeam)
    ensures |t'.agents| == |t.agents| + 1 && t'.agents[..|t.agents|] == t.agents
    ensures t'.agents[|t.agents|] == a.(hasModel := t'.agents[|t.agents|].hasModel)
    ensures t'.agents[|t.agents|].hasModel <==> a.hasModel || t.hasModel
    ensures t' == t.(agents := t'.agents)
  {
    var member := if !a.hasModel && t.hasModel then a.(hasModel := true) else a;
    t.(agents := t.agents + [member])
  }

  // ---------------------------------------------------------------------
  // Choosing the first agent.

  /** The agent the team starts with: the id as the reply held it (an `int`
      or a `bool`), the member it denotes, and the members with that one's
      subtask set. The first record carries `str()` of this id. */
  datatype Selection = Selection(id: Json, index: nat, agents: seq<Agent>)

  /** `agents[id]` in Python: an `int` (or `bool`) id in `[-n, n)` denotes a
      member, a negative one counting from the end; `None` is an
      `IndexError`. Ids of other types are left to the caller. */
  function ListIndex(id: int, n: nat): (r: Option<nat>)
    ensures r.Some? <==> -(n as int) <= id < n
    ensures r.Some? ==> r.value < n && (r.value == id || r.value == n + id)
    ensures r.Some? && id >= 0 ==> r.value == id
  {
    if 0 <= id < n then Some(id)
    else if -(n as int) <= id < 0 then Some(n + id)
    else None
  }

  /** The id as a list index: integers and booleans index, everything else
      is a `TypeError`. */
  function IndexValue(id: Json): (r: Option<int>)
    ensures r.Some? <==> id.JInt? || id.JBool?
  {
    match id
    case JInt(i) => Some(i)
    case JBool(b) => Some(if b then 1 else 0)
    case _ => None
  }

  /** `_select_initial_agent`, after the request: an error response selects
      nobody; a response without content raises (the lookup sits outside
      the `try`); inside the `try`, undecodable text and an id that is out
      of range select nobody, while the exceptions the `try` does not catch
      (content that is not text, a decoded value that is not an object, an
      id that is not an integer) escape. */
  function SelectInitial(t: AgentTeam, replies: seq<Reply>, decode: Decoder): (r: Outcome<(Option<Selection>, seq<Reply>)>)
    ensures !t.hasModel ==> r == Raise
    ensures r.Ok? ==> r.value.1 == Next(replies).1
    ensures r.Ok? && r.value.0.Some? ==>
              var sel := r.value.0.value;
              && (sel.id.JInt? || sel.id.JBool?)
              && ListIndex(IndexValue(sel.id).value, |t.agents|) == Some(sel.index)
              && |sel.agents| == |t.agents|
              && sel.agents == t.agents[sel.index := t.agents[sel.index].(subtask := sel.agents[sel.index].subtask)]
  {
    if !t.hasModel then Raise
    else
      var next := Next(replies);
      var resp := next.0.response;
      if IsError(resp) then Ok((None, next.1))
      else match ReplyContent(resp.data)
        case None => Raise
        case Some(text) =>
          if !text.JStr? then Raise
          else match JsonLoads(text.s, decode)
            case None => Ok((None, next.1))
            case Some(v) =>
              if !v.JObj? then Raise
              else
                var id := GetOr(v.fields, "id", JNull);
                match IndexValue(id)
                case None => Raise
                case Some(k) =>
                  match ListIndex(k, |t.agents|)
                  case None => Ok((None, next.1))
                  case Some(i) =>
                    var subtask := GetOr(v.fields, "subtask", JNull);
                    Ok((Some(Selection(id, i, t.agents[i := t.agents[i].(subtask := subtask)])), next.1))
  }

  /** The selection protocol: a reply decoding to `{"id": i, "subtask": s}`
      starts member `i` with subtask `s` when `-n <= i < n` (a negative id
      counting from the end) and starts nobody otherwise. */
  lemma SelectFollowsReply(t: AgentTeam, replies: seq<Reply>, decode: Decoder, text: string, i: int, subtask: Json)
    requires t.hasModel && replies != []
    requires !IsError(replies[0].response) && ReplyContent(replies[0].response.data) == Some(JStr(text))
    requires decode(Unfenced(text)) == Some(JObj(map["id" := JInt(i), "subtask" := subtask]))
    ensures var n := |t.agents|;
            var r := SelectInitial(t, replies, decode);
            && r.Ok?
            && (-n <= i < n ==>
                  var k := if i >= 0 then i else n + i;
                  r.value.0 == Some(Selection(JInt(i), k, t.agents[k := t.agents[k].(subtask := subtask)])))
            && (!(-n <= i < n) ==> r.value.0 == None)
  {
  }

  /** A boolean id indexes as `0` or `1` but is kept as the reply held it,
      so the first record's id reads `"True"` or `"False"`. */
  lemma SelectBoolId(t: AgentTeam, replies: seq<Reply>, decode: Decoder, text: string, b: bool, subtask: Json)
    requires t.hasModel && replies != []
    requires !IsError(replies[0].response) && ReplyContent(replies[0].response.data) == Some(JStr(text))
    requires decode(Unfenced(text)) == Some(JObj(map["id" := JBool(b), "subtask" := subtask]))
    ensures var k := if b then 1 else 0;
            var r := SelectInitial(t, replies, decode);
            && r.Ok?
            && (k < |t.agents| ==>
                  && r.value.0 == Some(Selection(JBool(b), k, t.agents[k := t.agents[k].(subtask := subtask)]))
                  && Show(r.value.0.value.id, (j: Json) => "") == if b then "True" else "False")
            && (k >= |t.agents| ==> r.value.0 == None)
  {
  }

  /** The id is a Python list index: `-1` starts the last member, not
      nobody. */
  lemma MinusOneStartsLast(t: AgentTeam, replies: seq<Reply>, decode: Decoder, text: string)
    requires t.hasModel && replies != [] && t.agents != []
    requires !IsError(replies[0].response) && ReplyContent(replies[0].response.data) == Some(JStr(text))
    requires decode(Unfenced(text)) == Some(JObj(map["id" := JInt(-1), "subtask" := JStr("")]))
    ensures SelectInitial(t, replies, decode).Ok?
    ensures SelectInitial(t, replies, decode).value.0.Some?
    ensures SelectInitial(t, replies, decode).value.0.value.index == |t.agents| - 1
  {
    SelectFollowsReply(t, replies, decode, text, -1, JStr(""));
  }

  /** A reply naming no id raises instead of selecting nobody: the missing
      id reads as `None`, and `agents[None]` is a `TypeError`, which the
      `try` does not catch. */
  lemma MissingIdRaises(t: AgentTeam, replies: seq<Reply>, decode: Decoder, text: string, fields: map<string, Json>)
    requires t.hasModel && replies != []
    requires !IsError(replies[0].response) && ReplyContent(replies[0].response.data) == Some(JStr(text))
    requires decode(Unfenced(text)) == Some(JObj(fields)) && "id" !in fields
    ensures SelectInitial(t, replies, decode) == Raise
  {
  }

  // ---------------------------------------------------------------------
  // The chain of agents.

  /** A member's turn: member `cur` of the members runs under the id it was
      chosen by, against the team's context and the reply script. */
  type Turner = (nat, string, seq<Agent>, Ctx, seq<Reply>) -> Outcome<Executed>

  /** A member's `should_invoke_next_agent`: the asking member's index, the
      members, whether the team has a model, and the reply script. */
  type Chooser = (nat, seq<Agent>, bool, seq<Reply>) -> Outcome<Choice>

  /** What stays fixed during a run: the team's step budget, how a member
      takes its turn, how it picks its successor, the JSON decoder, and the
      clock reading stamped on the result. */
  datatype Env = Env(budget: int, turn: Turner, choose: Chooser, decode: Decoder, repr: Repr, now: real)

  /** One agent's turn: its record and step result, and what it left behind. */
  datatype Executed = Executed(
    record: AgentExecutionResult,
    step: AgentResult,
    agents: seq<Agent>,
    ctx: Ctx,
    replies: seq<Reply>)

  /** The members of `after` are those of `before`, in order, with the
      same names; their captured actions were only added to. */
  predicate SameRoster(after: seq<Agent>, before: seq<Agent>) {
    && |after| == |before|
    && forall i | 0 <= i < |after| :: after[i].name == before[i].name && before[i].captured <= after[i].captured
  }

  /** Replacing a member by one with the same name and more captured
      actions keeps the roster. */
  lemma RosterKeeps(agents: seq<Agent>, i: nat, a: Agent)
    requires i < |agents| && a.name == agents[i].name && agents[i].captured <= a.captured
    ensures SameRoster(agents[i := a], agents)
  {
  }

  /** Keeping the roster is transitive. */
  lemma SameRosterTrans(a: seq<Agent>, b: seq<Agent>, c: seq<Agent>)
    requires SameRoster(a, b) && SameRoster(b, c)
    ensures SameRoster(a, c)
  {
  }

  /** The team's context after some agents ran: only the counter and the
      outputs moved, the counter forward but never past the budget it had
      left, and the outputs only by appending. */
  predicate CtxAdvanced(before: Ctx, after: Ctx) {
    && after == before.(currentSteps := after.currentSteps, outputs := after.outputs)
    && before.currentSteps <= after.currentSteps <= Max(before.currentSteps, before.maxSteps)
    && before.outputs <= after.outputs
  }

  /** Advancing twice is advancing. */
  lemma CtxAdvancedTrans(a: Ctx, b: Ctx, c: Ctx)
    requires CtxAdvanced(a, b) && CtxAdvanced(b, c)
    ensures CtxAdvanced(a, c)
  {
  }

  /** What a step must leave of the agent and the context for the chain:
      the agent's identity and subtask stay, its captured actions are only
      added to; the context only advances; no reply is put back. */
  predicate StepKeeps(a: Agent, ctx: Ctx, replies: seq<Reply>, run: Run) {
    && run.agent.name == a.name && a.captured <= run.agent.captured && run.agent.subtask == a.subtask
    && CtxAdvanced(ctx, run.ctx)
    && |run.replies| <= |replies|
  }

  /** What a successor choice must leave for the chain: the id is `-1` or
      a member's index; the members keep their names and captured actions
      are only added to; no reply is put back, and one is consumed whenever
      a member is chosen. */
  predicate ChoiceKeeps(agents: seq<Agent>, replies: seq<Reply>, c: Choice) {
    && -1 <= c.next < |agents| && SameRoster(c.agents, agents)
    && |c.replies| <= |replies|
    && (c.next != -1 ==> |c.replies| < |replies|)
  }

  /** The members' own `should_invoke_next_agent`, reading the decision
      with `decode`. */
  function AgentChooser(decode: Decoder): Chooser {
    (self: nat, agents: seq<Agent>, teamHasModel: bool, replies: seq<Reply>) =>
      if self < |agents| then ShouldInvokeNext(self, agents, teamHasModel, replies, DecisionReaderFor(decode))
      else Raise
  }

  /** The members' own successor choice keeps what the chain relies on. */
  lemma ChooserFacts(self: nat, agents: seq<Agent>, teamHasModel: bool, replies: seq<Reply>, decode: Decoder)
    requires self < |agents|
    ensures var r := AgentChooser(decode)(self, agents, teamHasModel, replies);
            r.Ok? ==> ChoiceKeeps(agents, replies, r.value)
  {
    var r := ShouldInvokeNext(self, agents, teamHasModel, replies, DecisionReaderFor(decode));
    if r.Ok? && r.value.next != -1 {
      assert !Alone(self, agents);
      RosterKeeps(agents, r.value.next, r.value.agents[r.value.next]);
    }
  }

  /** The loop of `step`, whatever its rounds, keeps what the chain relies
      on. */
  lemma LoopKeeps(a: Agent, ctx: Ctx, replies: seq<Reply>, round: Rounder)
    ensures var r := Loop(a, ctx, replies, 0, round);
            r.Ok? ==> StepKeeps(a, ctx, replies, r.value)
  {
    LoopBudget(a, ctx, replies, 0, round);
    LoopReplies(a, ctx, replies, 0, round);
    LoopAgent(a, ctx, replies, 0, round);
    LoopReport(a, ctx, replies, 0, round);
  }

  /** One agent's `step` keeps what the chain relies on. */
  lemma StepFacts(a: Agent, ctx: Ctx, replies: seq<Reply>, execute: Executor, decode: Decoder, repr: Repr)
    ensures var r := StepAgent(a, ctx, replies, execute, decode, repr);
            r.Ok? ==> StepKeeps(a, ctx, replies, r.value)
  {
    LoopKeeps(a, ctx, replies, RounderFor(a.mode, decode, repr, execute));
  }

  /** A record made for member `a` under the id `agentId`, listing the
      actions `a` had captured before its turn and possibly more, but none
      that `after` has not. */
  predicate Recorded(rec: AgentExecutionResult, agentId: string, a: Agent, after: Agent) {
    && rec.agentId == agentId && rec.agentName == a.name && rec.subtask == a.subtask
    && a.captured <= rec.actions <= after.captured
  }

  /** The record of one agent's turn: the step's answer unless the agent
      captured a final answer action, and the captured actions in order. */
  function Record(agentId: string, a: Agent, answer: string, now: real): (rec: AgentExecutionResult)
    ensures rec.agentId == agentId && rec.agentName == a.name && rec.subtask == a.subtask
    ensures rec.actions == a.captured
    ensures rec.finalAnswer == match LastFinalAnswer(a.captured) case Some(c) => c case None => answer
  {
    var started := NewExecution(agentId, a.name, a.subtask, now).(finalAnswer := answer);
    AddActionsLog(started, a.captured);
    CompleteExecution(AddActions(started, a.captured), now)
  }

  /** A final answer a tool captures during a tool round is the answer of
      the turn's record, whatever the step itself answers, unless a later
      capture replaces it. */
  lemma ToolCaptureRecorded(agentId: string, a: Agent, parsed: map<XmlParser.Field, Json>, action: string, execute: Executor,
                            answer: string, now: real, c: string)
    requires FindTool(a.tools, action).Some?
    requires LastFinalAnswer(execute(FindTool(a.tools, action).value, ParamsOf(parsed), a).captures) == Some(c)
    ensures Record(agentId, UseTool(a, parsed, action, execute), answer, now).finalAnswer == c
  {
    var out := execute(FindTool(a.tools, action).value, ParamsOf(parsed), a);
    LastFinalAnswerAppend(a.captured, out.captures);
  }

  /** A member's own turn: it takes the run's output mode and steps, and
      the turn is recorded. The record's actions are all the actions the
      member has captured once its step is over: those from before, and
      those its tools captured during the step. Its answer is the step's
      answer unless those include a final answer action. The member keeps
      its name and subtask, its captured actions are only added to, and no
      other member changes. */
  function Execute(cur: nat, agentId: string, agents: seq<Agent>, ctx: Ctx, replies: seq<Reply>, mode: Mode,
                   execute: Executor, decode: Decoder, repr: Repr, now: real): (r: Outcome<Executed>)
    requires cur < |agents|
    ensures r.Ok? ==>
              var x := r.value;
              && |x.agents| == |agents|
              && x.agents == agents[cur := x.agents[cur]]
              && x.agents[cur].name == agents[cur].name && agents[cur].captured <= x.agents[cur].captured
              && x.agents[cur].subtask == agents[cur].subtask
              && Recorded(x.record, agentId, agents[cur], x.agents[cur])
              && x.record.actions == x.agents[cur].captured
              && x.record.finalAnswer == (match LastFinalAnswer(x.agents[cur].captured)
                                          case Some(c) => c case None => x.step.finalAnswer)
              && CtxAdvanced(ctx, x.ctx)
              && |x.replies| <= |replies|
  {
    var a := agents[cur].(mode := mode);
    StepFacts(a, ctx, replies, execute, decode, repr);
    match StepAgent(a, ctx, replies, execute, decode, repr)
    case Raise => Raise
    case Ok(run) =>
      Ok(Executed(Record(agentId, run.agent, run.result.finalAnswer, now), run.result, agents[cur := run.agent],
                  run.ctx, run.replies))
  }

  /** The members' own turn in output mode `mode`. */
  function AgentTurner(mode: Mode, execute: Executor, decode: Decoder, repr: Repr, now: real): Turner {
    (cur: nat, agentId: string, agents: seq<Agent>, ctx: Ctx, replies: seq<Reply>) =>
      if cur < |agents| then Execute(cur, agentId, agents, ctx, replies, mode, execute, decode, repr, now)
      else Raise
  }

  /** What a turn must leave for the chain: the record is member `cur`'s
      under the id it was chosen by, listing what the member has captured
      after its turn; the members keep their names and their captured
      actions are only added to; the context only advances; no reply is put back. */
  predicate TurnKeeps(cur: nat, agentId: string, agents: seq<Agent>, ctx: Ctx, replies: seq<Reply>, x: Executed)
    requires cur < |agents|
  {
    && SameRoster(x.agents, agents)
    && Recorded(x.record, agentId, agents[cur], x.agents[cur])
    && CtxAdvanced(ctx, x.ctx)
    && |x.replies| <= |replies|
  }

  /** The members' own turn keeps what the chain relies on. */
  lemma TurnerFacts(cur: nat, agentId: string, agents: seq<Agent>, ctx: Ctx, replies: seq<Reply>, mode: Mode,
                    execute: Executor, decode: Decoder, repr: Repr, now: real)
    requires cur < |agents|
    ensures var r := AgentTurner(mode, execute, decode, repr, now)(cur, agentId, agents, ctx, replies);
            r.Ok? ==> TurnKeeps(cur, agentId, agents, ctx, replies, r.value)
  {
    var r := Execute(cur, agentId, agents, ctx, replies, mode, execute, decode, repr, now);
    if r.Ok? {
      RosterKeeps(agents, cur, r.value.agents[cur]);
    }
  }

  /** Why the chain stopped. */
  datatype Stop = Spent | NoSuccessor

  /** The agents a chain ran, in order: their records, their step counts and
      their indices, with the step total and what the chain left behind. */
  datatype Chain = Chain(
    results: seq<AgentExecutionResult>,
    counts: seq<int>,
    order: seq<nat>,
    total: int,
    agents: seq<Agent>,
    ctx: Ctx,
    replies: seq<Reply>,
    stop: Stop)

  /** One pass of the chain's loop: the chain ends with this member's
      record, or member `cur` ran as `x` below the budget and chose the
      member `c.next`. */
  datatype Turn = Ends(chain: Chain) | Continues(x: Executed, c: Choice)

  /** What the chain relies on from a turn of member `cur` with `total`
      steps already used under `budget`: a chain that ends holds this
      member's record alone, with the total and why it stopped; a chain that
      goes on ran the member below the budget and chose a member that
      exists, with a reply consumed. Either way the members keep their
      names, their captured actions are only added to, and the context only
      advances. */
  predicate TurnFits(cur: nat, agentId: string, agents: seq<Agent>, ctx: Ctx, replies: seq<Reply>,
                     total: int, budget: int, t: Turn)
    requires cur < |agents|
  {
    match t
    case Ends(ch) =>
      && |ch.results| == |ch.counts| == |ch.order| == 1
      && SameRoster(ch.agents, agents)
      && ch.order[0] == cur && Recorded(ch.results[0], agentId, agents[cur], ch.agents[cur])
      && ch.total == total + ch.counts[0]
      && (ch.stop == Spent <==> ch.total >= budget)
      && CtxAdvanced(ctx, ch.ctx)
      && |ch.replies| <= |replies|
    case Continues(x, c) =>
      && SameRoster(c.agents, agents)
      && Recorded(x.record, agentId, agents[cur], c.agents[cur])
      && total + x.step.stepCount < budget
      && 0 <= c.next < |c.agents|
      && CtxAdvanced(ctx, x.ctx)
      && |c.replies| < |replies|
  }

  /** Member `cur` runs; unless the total reached the budget it is asked
      for a successor, and an id of `-1` or past the end stops the chain. */
  function TurnFrom(cur: nat, agentId: string, agents: seq<Agent>, ctx: Ctx, replies: seq<Reply>,
                    total: int, env: Env): (t: Outcome<Turn>)
    requires cur < |agents|
    ensures t.Ok? ==> TurnFits(cur, agentId, agents, ctx, replies, total, env.budget, t.value)
  {
    match env.turn(cur, agentId, agents, ctx, replies)
    case Raise => Raise
    case Ok(x) =>
      if !TurnKeeps(cur, agentId, agents, ctx, replies, x) then Raise
      else
      var total1 := total + x.step.stepCount;
      var here := Chain([x.record], [x.step.stepCount], [cur], total1, x.agents, x.ctx, x.replies, Spent);
      if total1 >= env.budget then Ok(Ends(here))
      else match env.choose(cur, x.agents, x.ctx.teamHasModel, x.replies)
        case Raise => Raise
        case Ok(c) =>
          if !ChoiceKeeps(x.agents, x.replies, c) then Raise
          else if c.next == -1 || c.next >= |c.agents| then
            Ok(Ends(here.(agents := c.agents, replies := c.replies, stop := NoSuccessor)))
          else Ok(Continues(x, c))
  }

  /** One turn of the chain: member, id it was chosen by, members, context,
      replies and steps used so far. */
  type Stepper = (nat, string, seq<Agent>, Ctx, seq<Reply>, int) -> Outcome<Turn>

  /** The team's turns under `env`. */
  function TurnStep(env: Env): Stepper {
    (cur: nat, agentId: string, agents: seq<Agent>, ctx: Ctx, replies: seq<Reply>, total: int) =>
      if cur < |agents| then TurnFrom(cur, agentId, agents, ctx, replies, total, env) else Raise
  }

  /** The team's own turns fit the chain. */
  lemma TurnStepFits(env: Env, cur: nat, agentId: string, agents: seq<Agent>, ctx: Ctx, replies: seq<Reply>, total: int)
    requires cur < |agents|
    ensures var t := TurnStep(env)(cur, agentId, agents, ctx, replies, total);
            t.Ok? ==> TurnFits(cur, agentId, agents, ctx, replies, total, env.budget, t.value)
  {
  }

  /** With the team's counter spent, a member's turn counts no steps and
      reads no reply, so the chain's total stays where it was. While that
      total is below the budget the member is still asked for a successor:
      the chain goes on to any member the decision names, and only the
      decision's reply is consumed. The chain's total can stay below the
      budget after the counter is spent, because a step ending on a model
      error spends a step of the counter but reports none
      (`Agents.RefusedStepCountsNone`). */
  lemma SpentTurnGoesOn(cur: nat, agentId: string, agents: seq<Agent>, ctx: Ctx, replies: seq<Reply>, total: int,
                        budget: int, mode: Mode, execute: Executor, decode: Decoder, repr: Repr, now: real)
    requires cur < |agents| && (agents[cur].maxSteps.None? || agents[cur].maxSteps.value > 0)
    requires ctx.currentSteps >= ctx.maxSteps && total < budget
    ensures var env := Env(budget, AgentTurner(mode, execute, decode, repr, now), AgentChooser(decode), decode, repr, now);
            var c := AgentChooser(decode)(cur, agents[cur := agents[cur].(mode := mode)], ctx.teamHasModel, replies);
            var t := TurnFrom(cur, agentId, agents, ctx, replies, total, env);
            && (c.Raise? ==> t.Raise?)
            && (c.Ok? && c.value.next != -1 ==>
                  && t.Ok? && t.value.Continues? && t.value.c == c.value
                  && t.value.x.step.stepCount == 0 && t.value.x.ctx == ctx && t.value.x.replies == replies)
            && (c.Ok? && c.value.next == -1 ==>
                  t.Ok? && t.value.Ends? && t.value.chain.total == total && t.value.chain.stop == NoSuccessor)
  {
    var a := agents[cur].(mode := mode);
    SpentStepCountsNothing(a, ctx, replies, execute, decode, repr);
    TurnerFacts(cur, agentId, agents, ctx, replies, mode, execute, decode, repr, now);
    ChooserFacts(cur, agents[cur := a], ctx.teamHasModel, replies, decode);
    var r := AgentTurner(mode, execute, decode, repr, now)(cur, agentId, agents, ctx, replies);
    assert r == Execute(cur, agentId, agents, ctx, replies, mode, execute, decode, repr, now);
    assert r.Ok? && r.value.agents == agents[cur := a] && r.value.ctx == ctx && r.value.replies == replies;
    assert r.value.step.stepCount == 0;
    assert TurnKeeps(cur, agentId, agents, ctx, replies, r.value);
  }

  /** `_process_agent_chain` from member `cur`, with `total` of `budget`
      steps already used and `step` taking the turns. `Raise` stands for an
      exception escaping the chain.

      A chain that ends holds one record, one step count and one index per
      member run, in order, the first for member `cur` under the id it was
      chosen by. Each record carries its member's name and the actions it
      had captured by the end of its turn, which extend those it had
      captured at the start of the chain and are kept to its end; each
      later record carries that member's index as its id. The total is the
      starting total plus the counts; every successor was requested while
      the running total was below the budget, and the chain stopped for the
      budget exactly when the total reached it. The members keep their
      names, their captured actions are only added to, the team's context
      only advances, and no reply is put back. */
  function ChainFrom(cur: nat, agentId: string, agents: seq<Agent>, ctx: Ctx, replies: seq<Reply>,
                     total: int, budget: int, step: Stepper): (r: Outcome<Chain>)
    requires cur < |agents|
    ensures r.Ok? ==>
              && |r.value.results| == |r.value.counts| == |r.value.order| > 0
              && SameRoster(r.value.agents, agents)
              && r.value.order[0] == cur && Recorded(r.value.results[0], agentId, agents[cur], r.value.agents[cur])
    ensures r.Ok? ==> CtxAdvanced(ctx, r.value.ctx) && |r.value.replies| <= |replies|
    ensures r.Ok? ==>
              && r.value.total == total + Sum(r.value.counts)
              && (r.value.stop == Spent <==> r.value.total >= budget)
              && BelowUntilLast(total, r.value.counts, budget)
    ensures r.Ok? ==> RecordsFor(agents, r.value.agents, r.value.results, r.value.order)
    decreases |replies|
  {
    match step(cur, agentId, agents, ctx, replies, total)
    case Raise => Raise
    case Ok(t) =>
      if !TurnFits(cur, agentId, agents, ctx, replies, total, budget, t) then Raise
      else match t
      case Ends(chain) => Ok(chain)
      case Continues(x, c) =>
        match ChainFrom(c.next, IntToString(c.next), c.agents, x.ctx, c.replies, total + x.step.stepCount, budget, step)
        case Raise => Raise
        case Ok(rest) =>
          CtxAdvancedTrans(ctx, x.ctx, rest.ctx);
          var r := rest.(results := [x.record] + rest.results, counts := [x.step.stepCount] + rest.counts,
                         order := [cur] + rest.order);
          CountsPrepend(total, x.step.stepCount, rest.counts, budget);
          SameRosterTrans(rest.agents, c.agents, agents);
          RecordsPrepend(agents, c.agents, rest.agents, r.results, r.order, x.record, cur, rest.results, rest.order);
          Ok(r)
  }

  function Sum(s: seq<int>): int {
    if s == [] then 0 else s[0] + Sum(s[1..])
  }

  /** Starting from `total`, the running total stays below `budget` after
      every count but the last. */
  predicate BelowUntilLast(total: int, counts: seq<int>, budget: int)
    decreases |counts|
  {
    |counts| <= 1 || (total + counts[0] < budget && BelowUntilLast(total + counts[0], counts[1..], budget))
  }

  /** A count below the budget in front of counts that stay below it. */
  lemma CountsPrepend(total: int, count: int, counts: seq<int>, budget: int)
    requires total + count < budget && BelowUntilLast(total + count, counts, budget)
    ensures Sum([count] + counts) == count + Sum(counts)
    ensures BelowUntilLast(total, [count] + counts, budget)
  {
    assert ([count] + counts)[1..] == counts;
  }

  /** `BelowUntilLast` is the statement about every proper prefix sum. */
  lemma {:induction false} BelowUntilLastPrefixes(total: int, counts: seq<int>, budget: int)
    ensures BelowUntilLast(total, counts, budget) <==>
              forall j | 0 < j < |counts| :: total + Sum(counts[..j]) < budget
    decreases |counts|
  {
    if |counts| > 1 {
      var c0 := counts[0];
      BelowUntilLastPrefixes(total + c0, counts[1..], budget);
      forall j | 0 < j < |counts| ensures Sum(counts[..j]) == c0 + Sum(counts[1..][..j - 1]) {
        assert counts[..j][1..] == counts[1..][..j - 1];
      }
      if BelowUntilLast(total, counts, budget) {
        forall j | 0 < j < |counts| ensures total + Sum(counts[..j]) < budget {
          if j > 1 {
            assert 0 < j - 1 < |counts[1..]|;
          }
        }
      } else {
        if total + c0 < budget {
          var k :| 0 < k < |counts[1..]| && total + c0 + Sum(counts[1..][..k]) >= budget;
          assert total + Sum(counts[..k + 1]) >= budget;
        } else {
          assert total + Sum(counts[..1]) >= budget;
        }
      }
    }
  }

  /** Record `j` is for member `order[j]` of `agents`, the roster `final`
      ends as: it carries that member's name, lists at least the actions the
      member had captured in `agents` and no more than it has in `final`,
      and every record but the first carries the member's index as its id. */
  predicate RecordsFor(agents: seq<Agent>, final: seq<Agent>, results: seq<AgentExecutionResult>, order: seq<nat>)
    requires |results| == |order| && |final| == |agents|
  {
    forall j | 0 <= j < |order| ::
      && order[j] < |agents|
      && results[j].agentName == agents[order[j]].name
      && agents[order[j]].captured <= results[j].actions <= final[order[j]].captured
      && (j > 0 ==> results[j].agentId == IntToString(order[j]))
  }

  /** Prefixing the record of member `cur` to records that each name their
      member, in a roster that `agents` keeps, and carry its id. */
  lemma RecordsPrepend(agents: seq<Agent>, later: seq<Agent>, final: seq<Agent>,
                       results: seq<AgentExecutionResult>, order: seq<nat>,
                       rec: AgentExecutionResult, cur: nat, restResults: seq<AgentExecutionResult>, restOrder: seq<nat>)
    requires results == [rec] + restResults && order == [cur] + restOrder
    requires SameRoster(later, agents) && SameRoster(final, later)
    requires cur < |agents| && rec.agentName == agents[cur].name
    requires agents[cur].captured <= rec.actions <= later[cur].captured
    requires |restResults| == |restOrder| > 0 && restResults[0].agentId == IntToString(restOrder[0])
    requires RecordsFor(later, final, restResults, restOrder)
    ensures |results| == |order| && RecordsFor(agents, final, results, order)
  {
    forall j | 0 <= j < |order|
      ensures order[j] < |agents|
      ensures results[j].agentName == agents[order[j]].name
      ensures agents[order[j]].captured <= results[j].actions <= final[order[j]].captured
      ensures j > 0 ==> results[j].agentId == IntToString(order[j])
    {
      if j > 0 {
        assert results[j] == restResults[j - 1] && order[j] == restOrder[j - 1];
      }
    }
  }

  // ---------------------------------------------------------------------
  // Running a task.

  /** What `run` hands back, with the team it leaves behind when no
      exception escaped and the replies not yet consumed. */
  datatype Performance = Performance(result: TeamResult, team: Option<AgentTeam>, replies: seq<Reply>)

  /** The end of a successful `run`: the records are added in order, the
      task is completed, the last record's non-empty answer is made the
      final output, and the result is completed. */
  function Finish(started: TeamResult, results: seq<AgentExecutionResult>, now: real): (done: TeamResult)
    requires started.agentResults == [] && started.finalOutput == ""
    ensures done == started.(agentResults := results, finalOutput := done.finalOutput,
                             task := started.task.(status := Completed), status := "completed", endTime := now)
    ensures done.finalOutput == match LastNonEmptyAnswer(results) case Some(c) => c case None => ""
  {
    AddAgentResultsLog(started, results);
    var added := AddAgentResults(started, results);
    var rs := added.agentResults;
    var completed := added.(task := added.task.(status := Completed));
    var withOutput :=
      if rs != [] && rs[|rs| - 1].finalAnswer != "" then completed.(finalOutput := rs[|rs| - 1].finalAnswer)
      else completed;
    CompleteTeam(withOutput, "completed", now)
  }

  /** `run`: the `Task` is marked as processing, the first member chosen and
      the chain run, its records added in order and the result completed.
      No member chosen, or any exception, completes the result as failed
      without records. */
  function RunTeam(t: AgentTeam, task: Task, replies: seq<Reply>, env: Env): Performance {
    var started := NewTeamResult(t.name, task.(status := Processing), None, env.now);
    var t1 := t.(ctx := t.ctx.(teamHasModel := t.hasModel));
    match SelectInitial(t1, replies, env.decode)
    case Raise => Performance(CompleteTeam(started, "failed", env.now), None, replies)
    case Ok((None, rest)) => Performance(CompleteTeam(started, "failed", env.now), Some(t1), rest)
    case Ok((Some(sel), rest)) =>
      match ChainFrom(sel.index, Show(sel.id, env.repr), sel.agents, t1.ctx, rest, 0, env.budget, TurnStep(env))
      case Raise => Performance(CompleteTeam(started, "failed", env.now), None, replies)
      case Ok(chain) =>
        Performance(Finish(started, chain.results, env.now), Some(t1.(agents := chain.agents, ctx := chain.ctx)),
                    chain.replies)
  }

  /** How a run ends: completed, with the `Task` completed, the chain's
      records in execution order, the first for the chosen member, and the
      final output the last non-empty final answer among them (the explicit
      look at the last record never changes it); or failed, with the `Task`
      failed and no records. */
  lemma RunOutcome(t: AgentTeam, task: Task, replies: seq<Reply>, env: Env)
    ensures var p := RunTeam(t, task, replies, env);
            && p.result.id == task.id && p.result.teamName == t.name
            && p.result.task == task.(status := p.result.task.status)
            && (p.result.status == "completed" || p.result.status == "failed")
            && (p.result.status == "failed" ==> p.result.agentResults == [] && p.result.task.status == Failed
                                                && p.result.finalOutput == "")
            && (p.result.status == "completed" ==>
                  && p.result.task.status == Completed
                  && p.result.agentResults != []
                  && p.result.finalOutput == (match LastNonEmptyAnswer(p.result.agentResults)
                                              case Some(c) => c case None => ""))
  {
    var started := NewTeamResult(t.name, task.(status := Processing), None, env.now);
    var t1 := t.(ctx := t.ctx.(teamHasModel := t.hasModel));
    match SelectInitial(t1, replies, env.decode)
    case Raise =>
    case Ok((None, rest)) =>
    case Ok((Some(sel), rest)) =>
      match ChainFrom(sel.index, Show(sel.id, env.repr), sel.agents, t1.ctx, rest, 0, env.budget, TurnStep(env))
      case Raise =>
      case Ok(chain) =>
  }

  /** The records of a completed run: one per agent the chain ran, in that
      order, the first for the member the selection reply named. */
  lemma RunRecords(t: AgentTeam, task: Task, replies: seq<Reply>, env: Env)
    requires t.hasModel
    ensures var p := RunTeam(t, task, replies, env);
            var t1 := t.(ctx := t.ctx.(teamHasModel := true));
            p.result.status == "completed" ==>
              var sel := SelectInitial(t1, replies, env.decode).value;
              && sel.0.Some?
              && var c := ChainFrom(sel.0.value.index, Show(sel.0.value.id, env.repr), sel.0.value.agents, t1.ctx, sel.1, 0, env.budget, TurnStep(env));
                 && c.Ok?
                 && p.result.agentResults == c.value.results
                 && p.result.agentResults[0].agentId == Show(sel.0.value.id, env.repr)
                 && (sel.0.value.id.JInt? ==> p.result.agentResults[0].agentId == IntToString(sel.0.value.id.i))
                 && (sel.0.value.id.JBool? ==>
                       p.result.agentResults[0].agentId == if sel.0.value.id.b then "True" else "False")
                 && p.result.agentResults[0].agentName == t.agents[sel.0.value.index].name
  {
    var started := NewTeamResult(t.name, task.(status := Processing), None, env.now);
    var t1 := t.(ctx := t.ctx.(teamHasModel := t.hasModel));
    match SelectInitial(t1, replies, env.decode)
    case Raise =>
    case Ok((None, rest)) =>
    case Ok((Some(sel), rest)) =>
      match ChainFrom(sel.index, Show(sel.id, env.repr), sel.agents, t1.ctx, rest, 0, env.budget, TurnStep(env))
      case Raise =>
      case Ok(chain) =>
  }

  /** A failed selection fails the run: an error reply to the selection
      request leaves the result failed and empty. */
  lemma SelectionErrorFails(t: AgentTeam, task: Task, replies: seq<Reply>, env: Env)
    requires t.hasModel && IsError(Next(replies).0.response)
    ensures RunTeam(t, task, replies, env).result.status == "failed"
    ensures RunTeam(t, task, replies, env).result.agentResults == []
  {
  }

  /** `run` with the agents' own `step`, under the team's step budget. */
  function Run(t: AgentTeam, task: Task, mode: Mode, replies: seq<Reply>, execute: Executor, decode: Decoder,
               repr: Repr, now: real): Performance
  {
    RunTeam(t, task, replies, Env(t.ctx.maxSteps, AgentTurner(mode, execute, decode, repr, now), AgentChooser(decode), decode, repr, now))
  }
}

=== FILE: xml_chunking.dfy ===
/** Chunk-split invariance of the streaming parser: however the reply is cut
    into chunks, even inside a tag, the parsed fields and the echoed text
    are those of the whole reply fed as one chunk. */
module XmlChunking {
  import opened Base
  import opened PyStr
  import opened Json
  import opened XmlParser

  /** `final_answer` is open exactly when it is the current tag, and the
      recovery flag is set exactly then. */
  predicate Inv(p: Parser) {
    p.inFinalAnswer == (p.current == Some(FinalAnswer))
    && p.hasFinalAnswerStart == p.inFinalAnswer
  }

  /** What the end-of-chunk snapshot guarantees: an open `final_answer` is
      stored with its content so far. */
  predicate Snapped(p: Parser) {
    FinalAnswerOpen(p) ==> FinalAnswer in p.parsed && p.parsed[FinalAnswer] == p.content
  }

  /** The state with everything that depends on chunk boundaries erased:
      the raw text, the recorded start offset, and the snapshot of an open
      `final_answer`. */
  function Norm(p: Parser): Parser {
    p.(raw := "", finalAnswerStartPos := 0,
       parsed := if FinalAnswerOpen(p) then p.parsed - {FinalAnswer} else p.parsed)
  }

  // ----- the raw text is only ever extended by process_chunk -----

  lemma HandleInvalidKeepsRaw(p: Parser, t: string)
    ensures HandleInvalid(p, t).raw == p.raw
  {
  }

  lemma CloseTagKeepsRaw(p: Parser, f: Field)
    ensures CloseTag(p, f).raw == p.raw
  {
  }

  lemma OpenTagKeepsRaw(p: Parser, f: Field)
    ensures OpenTag(p, f).raw == p.raw
  {
    if FinalAnswerOpen(p) {
      HandleInvalidKeepsRaw(p, "<" + Name(f) + ">");
    } else {
      assert StartField(p, f).raw == p.raw;
    }
  }

  lemma CompleteTagKeepsRaw(p: Parser)
    ensures CompleteTag(p).raw == p.raw
  {
    match Recognize(p.tagBuffer)
    case None => HandleInvalidKeepsRaw(p, "<" + (if p.inEndTag then "/" else "") + p.tagBuffer + ">");
    case Some(Root) =>
    case Some(Content(f)) => if p.inEndTag { CloseTagKeepsRaw(p, f); } else { OpenTagKeepsRaw(p, f); }
  }

  lemma StepKeepsRaw(p: Parser, c: char)
    ensures Step(p, c).raw == p.raw
  {
    if p.lexer == InTagName && c == '>' {
      CompleteTagKeepsRaw(p.(lexer := InText));
    }
  }

  lemma {:induction false} FeedKeepsRaw(p: Parser, s: string)
    ensures Feed(p, s).raw == p.raw
    decreases |s|
  {
    if s != [] {
      StepKeepsRaw(p, s[0]);
      FeedKeepsRaw(Step(p, s[0]), s[1..]);
    }
  }

  lemma {:induction false} FeedAppend(p: Parser, a: string, b: string)
    ensures Feed(p, a + b) == Feed(Feed(p, a), b)
    decreases |a|
  {
    if a == [] {
      assert a + b == b;
    } else {
      assert (a + b)[0] == a[0];
      assert (a + b)[1..] == a[1..] + b;
      FeedAppend(Step(p, a[0]), a[1..], b);
    }
  }

  // ----- the invariant -----

  lemma CloseTagKeepsInv(p: Parser, f: Field)
    requires Inv(p)
    ensures Inv(CloseTag(p, f))
  {
  }

  lemma OpenTagKeepsInv(p: Parser, f: Field)
    requires Inv(p)
    ensures Inv(OpenTag(p, f))
  {
  }

  lemma CompleteTagKeepsInv(p: Parser)
    requires Inv(p)
    ensures Inv(CompleteTag(p))
  {
    match Recognize(p.tagBuffer)
    case None =>
    case Some(Root) =>
    case Some(Content(f)) => if p.inEndTag { CloseTagKeepsInv(p, f); } else { OpenTagKeepsInv(p, f); }
  }

  lemma StepKeepsInv(p: Parser, c: char)
    requires Inv(p)
    ensures Inv(Step(p, c))
  {
    if p.lexer == InTagName && c == '>' {
      CompleteTagKeepsInv(p.(lexer := InText));
    }
  }

  lemma {:induction false} FeedKeepsInv(p: Parser, s: string)
    requires Inv(p)
    ensures Inv(Feed(p, s))
    decreases |s|
  {
    if s != [] {
      StepKeepsInv(p, s[0]);
      FeedKeepsInv(Step(p, s[0]), s[1..]);
    }
  }

  /** After any chunk the truncated-`final_answer` recovery of
      `get_parsed_data` cannot fire: the flag it tests implies that the
      end-of-chunk snapshot already stored the field. */
  lemma ChunkSettles(p: Parser, chunk: string)
    requires Inv(p)
    ensures Inv(ProcessChunk(p, chunk)) && Snapped(ProcessChunk(p, chunk))
    ensures ProcessChunk(p, chunk).hasFinalAnswerStart ==> FinalAnswer in ProcessChunk(p, chunk).parsed
  {
    FeedKeepsInv(p.(raw := p.raw + chunk), chunk);
  }

  lemma {:induction false} ChunksSettle(p: Parser, chunks: seq<string>)
    requires Inv(p) && Snapped(p)
    ensures Inv(ProcessChunks(p, chunks)) && Snapped(ProcessChunks(p, chunks))
    decreases |chunks|
  {
    if chunks != [] {
      ChunkSettles(p, chunks[0]);
      ChunksSettle(ProcessChunk(p, chunks[0]), chunks[1..]);
    }
  }

  // ----- the erased parts never influence the rest of the state -----

  lemma NormIgnores(p: Parser, raw: string, pos: int)
    ensures Norm(p.(raw := raw, finalAnswerStartPos := pos)) == Norm(p)
  {
  }

  lemma NormIdempotent(p: Parser)
    ensures Norm(Norm(p)) == Norm(p)
  {
  }

  lemma NormLexer(p: Parser, l: Lexer)
    ensures Norm(p.(lexer := l)) == Norm(p).(lexer := l)
  {
  }

  lemma HandleInvalidNorm(p: Parser, t: string)
    ensures Norm(HandleInvalid(p, t)) == Norm(HandleInvalid(Norm(p), t))
  {
  }

  lemma ContentCharNorm(p: Parser, c: char)
    ensures Norm(ContentChar(p, c)) == Norm(ContentChar(Norm(p), c))
  {
    if p.current.None? {
      NormIdempotent(p);
    } else {
      var q := ContentChar(p, c);
      assert FinalAnswerOpen(q) == FinalAnswerOpen(p) && q.parsed == p.parsed;
      assert ContentChar(Norm(p), c) == Norm(q);
      NormIdempotent(q);
    }
  }

  lemma DropThenStore(m: map<Field, string>, v: string)
    ensures (m - {FinalAnswer})[FinalAnswer := v] == m[FinalAnswer := v]
  {
  }

  lemma StoreOpenField(p: Parser, f: Field)
    requires p.current == Some(f)
    ensures Norm(p).parsed[f := Strip(p.content)] == p.parsed[f := Strip(p.content)]
  {
    if FinalAnswerOpen(p) {
      DropThenStore(p.parsed, Strip(p.content));
    }
  }

  lemma ClosedNormSide(p: Parser, f: Field)
    requires p.current == Some(f)
    ensures CloseTag(Norm(p), f) == CloseTag(p, f).(raw := "", finalAnswerStartPos := 0)
  {
    StoreOpenField(p, f);
  }

  lemma ClosedRawSide(p: Parser, f: Field)
    requires p.current == Some(f)
    ensures Norm(CloseTag(p, f)) == CloseTag(p, f).(raw := "", finalAnswerStartPos := 0)
  {
  }

  lemma CloseTagNorm(p: Parser, f: Field)
    ensures Norm(CloseTag(p, f)) == Norm(CloseTag(Norm(p), f))
  {
    if p.current == Some(f) {
      ClosedNormSide(p, f);
      ClosedRawSide(p, f);
    } else {
      HandleInvalidNorm(p, "</" + Name(f) + ">");
    }
  }

  lemma PrintHeaderCommutes(p: Parser, f: Field, raw: string, pos: int)
    ensures PrintHeader(p.(raw := raw, finalAnswerStartPos := pos), f)
            == PrintHeader(p, f).(raw := raw, finalAnswerStartPos := pos)
  {
  }

  lemma OpenTagNorm(p: Parser, f: Field)
    ensures Norm(OpenTag(p, f)) == Norm(OpenTag(Norm(p), f))
  {
    if FinalAnswerOpen(p) {
      HandleInvalidNorm(p, "<" + Name(f) + ">");
    } else {
      var q := Norm(p);
      assert q == p.(raw := "", finalAnswerStartPos := 0);
      var a := StartField(p, f);
      var b := StartField(q, f);
      assert b == a.(raw := "", finalAnswerStartPos := b.finalAnswerStartPos);
      PrintHeaderCommutes(a, f, "", b.finalAnswerStartPos);
      NormIgnores(PrintHeader(a, f), "", b.finalAnswerStartPos);
    }
  }

  lemma RootNorm(p: Parser, b: bool)
    ensures Norm(p.(inRoot := b)) == Norm(Norm(p).(inRoot := b))
  {
    var q := p.(inRoot := b);
    assert FinalAnswerOpen(q) == FinalAnswerOpen(p) && q.parsed == p.parsed;
    assert Norm(p).(inRoot := b) == Norm(q);
    NormIdempotent(q);
  }

  lemma CompleteTagNorm(p: Parser)
    ensures Norm(CompleteTag(p)) == Norm(CompleteTag(Norm(p)))
  {
    var q := Norm(p);
    assert q.tagBuffer == p.tagBuffer && q.inEndTag == p.inEndTag;
    match Recognize(p.tagBuffer)
    case None => HandleInvalidNorm(p, "<" + (if p.inEndTag then "/" else "") + p.tagBuffer + ">");
    case Some(Root) => RootNorm(p, !p.inEndTag);
    case Some(Content(f)) =>
      if p.inEndTag {
        assert CompleteTag(q) == CloseTag(q, f);
        CloseTagNorm(p, f);
      } else {
        assert CompleteTag(q) == OpenTag(q, f);
        OpenTagNorm(p, f);
      }
  }

  lemma TagStartNorm(p: Parser, c: char)
    requires p.lexer == InTagStart
    ensures Norm(Step(p, c)) == Norm(Step(Norm(p), c))
  {
    if c != '/' && !IsNameStart(c) {
      var t := ['<', c];
      HandleInvalidNorm(p, t);
      NormLexer(HandleInvalid(p, t), InText);
      NormLexer(HandleInvalid(Norm(p), t), InText);
    }
  }

  lemma TagEndNorm(p: Parser)
    requires p.lexer == InTagName
    ensures Norm(Step(p, '>')) == Norm(Step(Norm(p), '>'))
  {
    var q := p.(lexer := InText);
    CompleteTagNorm(q);
    assert Norm(p).(lexer := InText) == Norm(q);
    CompleteTagNorm(Norm(q));
    NormIdempotent(q);
  }

  lemma TagNameNorm(p: Parser, c: char)
    requires p.lexer == InTagName && c != '>'
    ensures Norm(Step(p, c)) == Norm(Step(Norm(p), c))
  {
    var n := Norm(p);
    assert n.lexer == p.lexer && n.inEndTag == p.inEndTag && n.tagBuffer == p.tagBuffer;
    if IsNameChar(c) {
      var q := p.(tagBuffer := p.tagBuffer + [c]);
      assert FinalAnswerOpen(q) == FinalAnswerOpen(p) && q.parsed == p.parsed;
      assert Step(n, c) == Norm(q);
      NormIdempotent(q);
    } else {
      var t := "<" + (if p.inEndTag then "/" else "") + p.tagBuffer + [c];
      assert Step(p, c) == HandleInvalid(p, t).(lexer := InText);
      assert Step(n, c) == HandleInvalid(n, t).(lexer := InText);
      HandleInvalidNorm(p, t);
      NormLexer(HandleInvalid(p, t), InText);
      NormLexer(HandleInvalid(n, t), InText);
    }
  }

  lemma StepNorm(p: Parser, c: char)
    ensures Norm(Step(p, c)) == Norm(Step(Norm(p), c))
  {
    var n := Norm(p);
    assert n.lexer == p.lexer;
    match p.lexer
    case InText =>
      if c != '<' {
        assert Step(n, c) == ContentChar(n, c);
        ContentCharNorm(p, c);
      } else {
        var q := p.(lexer := InTagStart, tagBuffer := "", inEndTag := false);
        assert FinalAnswerOpen(q) == FinalAnswerOpen(p) && q.parsed == p.parsed;
        assert Step(n, c) == Norm(q);
        NormIdempotent(q);
      }
    case InTagStart => TagStartNorm(p, c);
    case InTagName => if c == '>' { TagEndNorm(p); } else { TagNameNorm(p, c); }
  }

  // ----- lifting to whole chunks -----

  lemma {:induction false} FeedNorm(p: Parser, s: string)
    ensures Norm(Feed(p, s)) == Norm(Feed(Norm(p), s))
    decreases |s|
  {
    if s == [] {
      NormIdempotent(p);
    } else {
      StepNorm(p, s[0]);
      FeedNorm(Step(p, s[0]), s[1..]);
      FeedNorm(Step(Norm(p), s[0]), s[1..]);
    }
  }

  lemma SnapshotNorm(p: Parser)
    ensures Norm(Snapshot(p)) == Norm(p)
  {
    if FinalAnswerOpen(p) {
      assert p.parsed[FinalAnswer := p.content] - {FinalAnswer} == p.parsed - {FinalAnswer};
    }
  }

  /** One chunk leaves the same erased state as feeding its characters. */
  lemma ChunkNorm(p: Parser, chunk: string)
    ensures Norm(ProcessChunk(p, chunk)) == Norm(Feed(p, chunk))
    ensures ProcessChunk(p, chunk).raw == p.raw + chunk
  {
    var p' := p.(raw := p.raw + chunk);
    SnapshotNorm(Feed(p', chunk));
    FeedNorm(p', chunk);
    NormIgnores(p, p.raw + chunk, p.finalAnswerStartPos);
    FeedNorm(p, chunk);
    FeedKeepsRaw(p', chunk);
  }

  lemma {:induction false} ChunksNorm(p: Parser, chunks: seq<string>)
    ensures Norm(ProcessChunks(p, chunks)) == Norm(Feed(p, Concat(chunks)))
    ensures ProcessChunks(p, chunks).raw == p.raw + Concat(chunks)
    decreases |chunks|
  {
    if chunks == [] {
      assert p.raw + "" == p.raw;
    } else {
      var c := chunks[0];
      var rest := Concat(chunks[1..]);
      var q := ProcessChunk(p, c);
      assert ProcessChunks(p, chunks) == ProcessChunks(q, chunks[1..]);
      assert Concat(chunks) == c + rest;
      calc {
        Norm(ProcessChunks(q, chunks[1..]));
        { ChunksNorm(q, chunks[1..]); }
        Norm(Feed(q, rest));
        { FeedNorm(q, rest); }
        Norm(Feed(Norm(q), rest));
        { ChunkNorm(p, c); }
        Norm(Feed(Norm(Feed(p, c)), rest));
        { FeedNorm(Feed(p, c), rest); }
        Norm(Feed(Feed(p, c), rest));
        { FeedAppend(p, c, rest); }
        Norm(Feed(p, c + rest));
      }
      ChunksNorm(q, chunks[1..]);
      ChunkNorm(p, c);
      assert p.raw + c + rest == p.raw + (c + rest);
    }
  }

  /** Two snapshotted states that agree once erased, with the same raw
      text, differ at most in the recorded start offset. */
  lemma SameUpToStart(x: Parser, y: Parser)
    requires Snapped(x) && Snapped(y)
    requires Norm(x) == Norm(y) && x.raw == y.raw
    ensures x.(finalAnswerStartPos := 0) == y.(finalAnswerStartPos := 0)
  {
    assert x.current == Norm(x).current && x.inFinalAnswer == Norm(x).inFinalAnswer;
    assert y.current == Norm(y).current && y.inFinalAnswer == Norm(y).inFinalAnswer;
    if FinalAnswerOpen(x) {
      assert x.parsed == (x.parsed - {FinalAnswer})[FinalAnswer := x.content];
      assert y.parsed == (y.parsed - {FinalAnswer})[FinalAnswer := y.content];
    }
  }

  lemma SnappedNeedsNoRecovery(p: Parser)
    requires Inv(p) && Snapped(p)
    ensures WithTruncatedFinalAnswer(p, Stored(p)) == Stored(p)
  {
  }

  lemma LaterStepsIgnoreStartPos(p: Parser, pos: int, r: map<Field, Json>, decode: Decoder)
    ensures WithDecodedParams(p.(finalAnswerStartPos := pos), WithRecoveredActionInput(p.(finalAnswerStartPos := pos), r), decode)
            == WithDecodedParams(p, WithRecoveredActionInput(p, r), decode)
  {
  }

  /** The recorded start offset matters only to the truncated-answer
      recovery, which a snapshotted state never reaches. */
  lemma StartPosUnobservable(p: Parser, decode: Decoder)
    requires Inv(p) && Snapped(p)
    ensures GetParsedData(p, decode) == GetParsedData(p.(finalAnswerStartPos := 0), decode)
  {
    var q := p.(finalAnswerStartPos := 0);
    assert Stored(q) == Stored(p);
    SnappedNeedsNoRecovery(p);
    SnappedNeedsNoRecovery(q);
    LaterStepsIgnoreStartPos(p, 0, Stored(p), decode);
  }

  /** Splitting a reply into chunks anywhere, even inside a tag, changes
      neither the parsed result nor the echoed text. */
  lemma ChunkInvariance(chunks: seq<string>, decode: Decoder)
    ensures GetParsedData(ProcessChunks(Init, chunks), decode)
            == GetParsedData(ProcessChunk(Init, Concat(chunks)), decode)
    ensures ProcessChunks(Init, chunks).emitted == ProcessChunk(Init, Concat(chunks)).emitted
  {
    var whole := Concat(chunks);
    var x := ProcessChunks(Init, chunks);
    var y := ProcessChunk(Init, whole);
    assert Concat([whole]) == whole;
    assert ProcessChunks(Init, [whole]) == y;
    ChunksNorm(Init, chunks);
    ChunksNorm(Init, [whole]);
    ChunksSettle(Init, chunks);
    ChunkSettles(Init, whole);
    SameUpToStart(x, y);
    StartPosUnobservable(x, decode);
    StartPosUnobservable(y, decode);
    assert x.emitted == Norm(x).emitted && y.emitted == Norm(y).emitted;
  }
}

=== FILE: xml_parser.dfy ===
/** The streaming tag parser `XmlResParser` of
    plagentic/sdk/common/utils/xmlUtil.py: a character-level machine that
    splits a model reply into the `thought`, `action`, `action_input` and
    `final_answer` fields while echoing the `thought` and `final_answer`
    text as it arrives. */
module XmlParser {
  import opened Base
  import opened PyStr
  import opened Json

  /** The content tags. */
  datatype Field = Thought | Action | ActionInput | FinalAnswer

  function Name(f: Field): string {
    match f
    case Thought => "thought"
    case Action => "action"
    case ActionInput => "action_input"
    case FinalAnswer => "final_answer"
  }

  /** A whitelisted tag: one of the content tags or the root tag `response`. */
  datatype Tag = Content(field: Field) | Root

  const RootName := "response"

  /** Looks a tag name up in the whitelist. */
  function Recognize(name: string): Option<Tag> {
    if name == "thought" then Some(Content(Thought))
    else if name == "action" then Some(Content(Action))
    else if name == "action_input" then Some(Content(ActionInput))
    else if name == "final_answer" then Some(Content(FinalAnswer))
    else if name == RootName then Some(Root)
    else None
  }

  /** The three lexer states: plain text, just after `<`, inside a tag name. */
  datatype Lexer = InText | InTagStart | InTagName

  /** The parser's state. `emitted` is the echo `process_chunk` has printed
      of the thought and final-answer text (the action line that
      `get_parsed_data` prints is not kept); `raw` is every chunk received
      so far. */
  datatype Parser = Parser(
    parsed: map<Field, string>,
    current: Option<Field>,
    content: string,
    lexer: Lexer,
    tagBuffer: string,
    inEndTag: bool,
    inRoot: bool,
    printed: set<Field>,
    nullContent: set<Field>,
    inFinalAnswer: bool,
    finalAnswerStarted: bool,
    hasFinalAnswerStart: bool,
    finalAnswerStartPos: int,
    raw: string,
    emitted: string)

  const Init: Parser :=
    Parser(map[], None, "", InText, "", false, false, {}, {},
           false, false, false, -1, "", "")

  const OpenFinalAnswerTag := "<final_answer>"

  /** `final_answer` is the open tag. */
  predicate FinalAnswerOpen(p: Parser) {
    p.current == Some(FinalAnswer) && p.inFinalAnswer
  }

  /** The text a close tag stores is null when it is empty, blank or
      (case-insensitively) `null`. */
  predicate IsNullText(t: string) {
    Lower(t) == "null" || t == "" || IsBlank(t)
  }

  /** The start of a tag name: an ASCII letter or `_`. */
  predicate IsNameStart(c: char) {
    IsAlpha(c) || c == '_'
  }

  /** The rest of a tag name: ASCII letters, digits or `_`. */
  predicate IsNameChar(c: char) {
    IsAlnum(c) || c == '_'
  }

  /** Text that did not form a whitelisted tag: it joins the open field's
      content; it is echoed for `thought`, for `final_answer` once its text
      has started, and outside any field once some header was printed. */
  function HandleInvalid(p: Parser, t: string): Parser {
    var echo :=
      match p.current
      case Some(f) => f == Thought || (f == FinalAnswer && p.finalAnswerStarted)
      case None => p.printed != {};
    p.(content := if p.current.Some? then p.content + t else p.content,
       emitted := if echo then p.emitted + t else p.emitted)
  }

  /** A plain character while in text: it joins the open field's content
      and is echoed for `thought`, and for `final_answer` from its first
      non-space character on. */
  function ContentChar(p: Parser, c: char): Parser {
    var starts := p.current == Some(FinalAnswer) && !p.finalAnswerStarted && !IsSpace(c);
    var echo := p.current == Some(Thought) || (p.current == Some(FinalAnswer) && p.finalAnswerStarted) || starts;
    if p.current.None? then p
    else p.(content := p.content + [c],
            finalAnswerStarted := p.finalAnswerStarted || starts,
            emitted := if echo then p.emitted + [c] else p.emitted)
  }

  /** A close tag of field `f`. */
  function CloseTag(p: Parser, f: Field): Parser {
    if p.current == Some(f) then
      var v := Strip(p.content);
      var closesAnswer := f == FinalAnswer;
      p.(parsed := p.parsed[f := v],
         nullContent := if IsNullText(v) then p.nullContent + {f} else p.nullContent - {f},
         current := None,
         content := "",
         inFinalAnswer := if closesAnswer then false else p.inFinalAnswer,
         finalAnswerStarted := if closesAnswer then false else p.finalAnswerStarted,
         hasFinalAnswerStart := if closesAnswer then false else p.hasFinalAnswerStart)
    else HandleInvalid(p, "</" + Name(f) + ">")
  }

  /** The header printed the first time a field opens. */
  function Header(f: Field): string {
    match f
    case Thought => "[THINK] "
    case FinalAnswer => "\n[RESPONSE] "
    case _ => ""
  }

  /** Switches to field `f`, discarding any unclosed content; opening
      `final_answer` also records where its tag began in the raw text. */
  function StartField(p: Parser, f: Field): Parser {
    if f == FinalAnswer then
      p.(current := Some(f), content := "", inFinalAnswer := true, finalAnswerStarted := false,
         hasFinalAnswerStart := true, finalAnswerStartPos := |p.raw| - |OpenFinalAnswerTag|)
    else p.(current := Some(f), content := "")
  }

  /** Prints the header of `f` the first time `f` opens. */
  function PrintHeader(p: Parser, f: Field): Parser {
    if f in p.printed then p
    else p.(emitted := p.emitted + Header(f), printed := p.printed + {f})
  }

  /** An open tag of field `f`. */
  function OpenTag(p: Parser, f: Field): Parser {
    if FinalAnswerOpen(p) then HandleInvalid(p, "<" + Name(f) + ">")
    else PrintHeader(StartField(p, f), f)
  }

  /** The `>` that completes a tag name. */
  function CompleteTag(p: Parser): Parser {
    match Recognize(p.tagBuffer)
    case None =>
      HandleInvalid(p, "<" + (if p.inEndTag then "/" else "") + p.tagBuffer + ">")
    case Some(Root) => p.(inRoot := !p.inEndTag)
    case Some(Content(f)) => if p.inEndTag then CloseTag(p, f) else OpenTag(p, f)
  }

  /** `_process_char`: one step of the machine. */
  function Step(p: Parser, c: char): (r: Parser)
  {
    match p.lexer
    case InText =>
      if c == '<' then p.(lexer := InTagStart, tagBuffer := "", inEndTag := false)
      else ContentChar(p, c)
    case InTagStart =>
      if c == '/' then p.(inEndTag := true, lexer := InTagName)
      else if IsNameStart(c) then p.(tagBuffer := p.tagBuffer + [c], lexer := InTagName)
      else HandleInvalid(p, ['<', c]).(lexer := InText)
    case InTagName =>
      if c == '>' then CompleteTag(p.(lexer := InText))
      else if IsNameChar(c) then p.(tagBuffer := p.tagBuffer + [c])
      else HandleInvalid(p, "<" + (if p.inEndTag then "/" else "") + p.tagBuffer + [c]).(lexer := InText)
  }

  /** The characters of `s` fed one at a time. */
  function Feed(p: Parser, s: string): Parser
    decreases |s|
  {
    if s == [] then p else Feed(Step(p, s[0]), s[1..])
  }

  /** The end-of-chunk snapshot of a still-open `final_answer`. */
  function Snapshot(p: Parser): (r: Parser)
    ensures FinalAnswerOpen(p) ==> r.parsed == p.parsed[FinalAnswer := p.content]
    ensures !FinalAnswerOpen(p) ==> r == p
  {
    if FinalAnswerOpen(p) then p.(parsed := p.parsed[FinalAnswer := p.content]) else p
  }

  /** `process_chunk`: record the chunk, feed it, snapshot. */
  function ProcessChunk(p: Parser, chunk: string): (r: Parser)
    ensures FinalAnswerOpen(r) ==> FinalAnswer in r.parsed && r.parsed[FinalAnswer] == r.content
  {
    Snapshot(Feed(p.(raw := p.raw + chunk), chunk))
  }

  /** Several chunks in arrival order. */
  function ProcessChunks(p: Parser, chunks: seq<string>): Parser
    decreases |chunks|
  {
    if chunks == [] then p else ProcessChunks(ProcessChunk(p, chunks[0]), chunks[1..])
  }

  function Concat(chunks: seq<string>): (r: string)
    ensures chunks != [] ==> r == chunks[0] + Concat(chunks[1..])
  {
    if chunks == [] then "" else chunks[0] + Concat(chunks[1..])
  }

  /** `s[i:]` with Python's clamping of an index past the end. */
  function Suffix(s: string, i: int): (r: string)
    requires i >= 0
    ensures i <= |s| ==> r == s[i..]
    ensures i > |s| ==> r == ""
  {
    if i <= |s| then s[i..] else ""
  }

  const OpenActionInputTag := "<action_input>"
  const CloseActionInputTag := "</action_input>"

  /** The `action_input` text recovered from the raw reply when its close
      tag was never processed: after the first `<action_input>`, up to the
      next `</action_input>`, else the next `<`, else the end; trimmed.
      `None` when the raw reply has no `<action_input>` at all. */
  function RecoverActionInput(raw: string): (r: Option<string>)
    ensures r.None? <==> !Contains(raw, OpenActionInputTag)
  {
    match Find(raw, OpenActionInputTag, 0)
    case None =>
      assert !Contains(raw, OpenActionInputTag);
      None
    case Some(i) => Some(Strip(TextFrom(raw, i + |OpenActionInputTag|)))
  }

  /** The text from `start` up to the next `</action_input>`, else the
      next `<`, else the end. */
  function TextFrom(raw: string, start: nat): string
    requires start <= |raw|
  {
    match Find(raw, CloseActionInputTag, start)
    case Some(e) => raw[start..e]
    case None =>
      match Find(raw, "<", start)
      case Some(n) => raw[start..n]
      case None => raw[start..]
  }

  /** The best-effort decoding of an `action_input` text `v`: a text that
      starts with `{` is decoded up to its last `}`, else whole; `null`,
      `none` and the empty text become `{}`; anything else stays a
      string. */
  function DecodeParams(v: string, decode: Decoder): Json {
    var t := Strip(v);
    if StartsWith(t, "{") then
      match RFind(t, '}')
      case None => JStr(v)
      case Some(k) =>
        match decode(t[..k + 1])
        case Some(j) => j
        case None =>
          match decode(t)
          case Some(j) => j
          case None => JStr(v)
    else if Lower(t) == "null" || Lower(t) == "none" || t == "" then EmptyObject
    else JStr(v)
  }

  /** The action names that request a tool call. */
  predicate NamesTool(action: string) {
    var a := Strip(action);
    !IsNoneWord(a) && a != ""
  }

  /** The stored fields, each as a string. */
  function Stored(p: Parser): (r: map<Field, Json>)
    ensures r.Keys == p.parsed.Keys
    ensures forall f | f in r :: r[f] == JStr(p.parsed[f])
  {
    map f | f in p.parsed :: JStr(p.parsed[f])
  }

  /** A `final_answer` that was opened but never stored is recovered from
      the raw reply, trimmed. */
  function WithTruncatedFinalAnswer(p: Parser, r: map<Field, Json>): map<Field, Json> {
    if p.hasFinalAnswerStart && FinalAnswer !in r && p.finalAnswerStartPos >= 0 then
      r[FinalAnswer := JStr(Strip(Suffix(p.raw, p.finalAnswerStartPos + |OpenFinalAnswerTag|)))]
    else r
  }

  /** A non-null `action` is present. */
  predicate ActionLive(p: Parser, r: map<Field, Json>) {
    Action in r && Action !in p.nullContent
  }

  /** An `action_input` whose close tag never came is recovered from the
      raw reply. */
  function WithRecoveredActionInput(p: Parser, r: map<Field, Json>): map<Field, Json> {
    if ActionLive(p, r) && ActionInput !in r then
      match RecoverActionInput(p.raw)
      case Some(v) => r[ActionInput := JStr(v)]
      case None => r
    else r
  }

  /** The parameters of a call of a named tool are decoded. */
  function WithDecodedParams(p: Parser, r: map<Field, Json>, decode: Decoder): map<Field, Json> {
    if ActionLive(p, r) && r[Action].JStr? && NamesTool(r[Action].s)
       && ActionInput in r && r[ActionInput].JStr?
    then r[ActionInput := DecodeParams(r[ActionInput].s, decode)]
    else r
  }

  /** A final answer reading `null` or `none` becomes Python's `None`. */
  function WithNullFinalAnswer(r: map<Field, Json>): map<Field, Json> {
    if FinalAnswer in r && r[FinalAnswer].JStr? && IsNoneWord(Strip(r[FinalAnswer].s)) then
      r[FinalAnswer := JNull]
    else r
  }

  /** `get_parsed_data`: the fields of the reply; a string field is a
      `JStr`, a decoded `action_input` any JSON value, a null final answer
      `JNull`. */
  function GetParsedData(p: Parser, decode: Decoder): map<Field, Json> {
    var r1 := WithTruncatedFinalAnswer(p, Stored(p));
    WithNullFinalAnswer(WithDecodedParams(p, WithRecoveredActionInput(p, r1), decode))
  }
}

=== FILE: xml_result.dfy ===
/** What `get_parsed_data` returns: recovery of unclosed fields, decoding
    of tool parameters and null final answers. */
module XmlResult {
  import opened Base
  import opened PyStr
  import opened Json
  import opened XmlParser
  import opened XmlChunking
  import opened XmlTags

  // ----- recovering an unclosed action_input from the raw reply -----

  /** The first `<action_input>` of `raw` starts at `i`. */
  predicate FirstOpenAt(raw: string, i: nat) {
    OccursAt(raw, OpenActionInputTag, i)
    && forall k :: 0 <= k < i ==> !OccursAt(raw, OpenActionInputTag, k)
  }

  lemma FindsFirstOpen(raw: string, i: nat)
    requires FirstOpenAt(raw, i)
    ensures Find(raw, OpenActionInputTag, 0) == Some(i)
  {
    FindFirst(raw, OpenActionInputTag, 0, i);
  }

  /** With a close tag: the text between the first `<action_input>` and
      the next `</action_input>`, trimmed. */
  lemma RecoverClosed(raw: string, i: nat, e: nat)
    requires FirstOpenAt(raw, i) && i + |OpenActionInputTag| <= e
    requires OccursAt(raw, CloseActionInputTag, e)
    requires forall k :: i + |OpenActionInputTag| <= k < e ==> !OccursAt(raw, CloseActionInputTag, k)
    ensures RecoverActionInput(raw) == Some(Strip(raw[i + |OpenActionInputTag|..e]))
  {
    FindsFirstOpen(raw, i);
    FindFirst(raw, CloseActionInputTag, i + |OpenActionInputTag|, e);
    TextToClose(raw, i + |OpenActionInputTag|, e);
    RecoverIsText(raw, i, raw[i + |OpenActionInputTag|..e]);
  }

  /** The recovered text is the text after the first `<action_input>`,
      trimmed. */
  lemma RecoverIsText(raw: string, i: nat, t: string)
    requires i + |OpenActionInputTag| <= |raw|
    requires Find(raw, OpenActionInputTag, 0) == Some(i)
    requires TextFrom(raw, i + |OpenActionInputTag|) == t
    ensures RecoverActionInput(raw) == Some(Strip(t))
  {
  }

  lemma TextToClose(raw: string, start: nat, e: nat)
    requires start <= e <= |raw|
    requires Find(raw, CloseActionInputTag, start) == Some(e)
    ensures TextFrom(raw, start) == raw[start..e]
  {
  }

  lemma TextToAngle(raw: string, start: nat, n: nat)
    requires start <= n <= |raw|
    requires Find(raw, CloseActionInputTag, start) == None
    requires Find(raw, "<", start) == Some(n)
    ensures TextFrom(raw, start) == raw[start..n]
  {
  }

  lemma TextToEnd(raw: string, start: nat)
    requires start <= |raw|
    requires Find(raw, CloseActionInputTag, start) == None
    requires Find(raw, "<", start) == None
    ensures TextFrom(raw, start) == raw[start..]
  {
  }

  /** A string holding no `<` from `start` on holds no tag there. */
  lemma NoAngleNoTag(raw: string, start: nat, tag: string)
    requires tag != [] && tag[0] == '<'
    requires forall k :: start <= k < |raw| ==> raw[k] != '<'
    ensures forall k :: start <= k ==> !OccursAt(raw, tag, k)
  {
    forall k | start <= k && k + |tag| <= |raw| ensures !OccursAt(raw, tag, k) {
      assert raw[k..k + |tag|][0] == raw[k];
    }
  }

  /** Without a close tag: up to the next `<`, trimmed. */
  lemma RecoverUpToNextTag(raw: string, i: nat, n: nat)
    requires FirstOpenAt(raw, i) && i + |OpenActionInputTag| <= n < |raw| && raw[n] == '<'
    requires forall k :: i + |OpenActionInputTag| <= k ==> !OccursAt(raw, CloseActionInputTag, k)
    requires forall k :: i + |OpenActionInputTag| <= k < n ==> raw[k] != '<'
    ensures RecoverActionInput(raw) == Some(Strip(raw[i + |OpenActionInputTag|..n]))
  {
    FindsFirstOpen(raw, i);
    var start := i + |OpenActionInputTag|;
    FindAbsent(raw, CloseActionInputTag, start);
    assert OccursAt(raw, "<", n) by { assert raw[n..n + 1] == [raw[n]]; }
    forall k | start <= k < n ensures !OccursAt(raw, "<", k) {
      assert raw[k..k + 1] == [raw[k]];
    }
    FindFirst(raw, "<", start, n);
    TextToAngle(raw, start, n);
    RecoverIsText(raw, i, raw[start..n]);
  }

  /** Without a close tag and without any later `<`: to the end, trimmed. */
  lemma RecoverToEnd(raw: string, i: nat)
    requires FirstOpenAt(raw, i)
    requires forall k :: i + |OpenActionInputTag| <= k < |raw| ==> raw[k] != '<'
    ensures RecoverActionInput(raw) == Some(Strip(raw[i + |OpenActionInputTag|..]))
  {
    FindsFirstOpen(raw, i);
    var start := i + |OpenActionInputTag|;
    NoAngleNoTag(raw, start, CloseActionInputTag);
    FindAbsent(raw, CloseActionInputTag, start);
    NoAngleNoTag(raw, start, "<");
    FindAbsent(raw, "<", start);
    TextToEnd(raw, start);
    RecoverIsText(raw, i, raw[start..]);
  }

  // ----- decoding tool parameters -----

  /** A parameter text starting with `{` is decoded up to its last `}`. */
  lemma DecodesObjectPrefix(v: string, obj: string, tail: string, decode: Decoder)
    requires Strip(v) == obj + tail
    requires obj != [] && obj[0] == '{' && obj[|obj| - 1] == '}'
    requires forall k :: 0 <= k < |tail| ==> tail[k] != '}'
    requires decode(obj).Some?
    ensures DecodeParams(v, decode) == decode(obj).value
  {
    var t := Strip(v);
    assert t[0] == '{';
    assert StartsWith(t, "{") by { assert t[..1] == [t[0]]; }
    assert t[|obj| - 1] == '}';
    forall j | |obj| - 1 < j < |t| ensures t[j] != '}' {
      assert t[j] == tail[j - |obj|];
    }
    RFindLast(t, '}', |obj| - 1);
    assert t[..|obj|] == obj;
  }

  /** When the prefix does not decode, the whole trimmed text is tried. */
  lemma DecodesWholeOnFailure(v: string, decode: Decoder)
    requires StartsWith(Strip(v), "{")
    requires RFind(Strip(v), '}').Some?
    requires decode(Strip(v)[..RFind(Strip(v), '}').value + 1]).None?
    ensures DecodeParams(v, decode) == if decode(Strip(v)).Some? then decode(Strip(v)).value else JStr(v)
  {
    var t := Strip(v);
    var k := RFind(t, '}').value;
    assert DecodeParams(v, decode) == match decode(t) case Some(j) => j case None => JStr(v);
  }

  /** A text starting with `{` without any `}` stays a string. */
  lemma NoBraceStaysText(v: string, decode: Decoder)
    requires StartsWith(Strip(v), "{")
    requires forall k :: 0 <= k < |Strip(v)| ==> Strip(v)[k] != '}'
    ensures DecodeParams(v, decode) == JStr(v)
  {
    RFindAbsent(Strip(v), '}');
  }

  /** `null`, `none` (any case) and the empty text become `{}`; any other
      text not starting with `{` stays a string. */
  lemma NonObjectParams(v: string, decode: Decoder)
    requires !StartsWith(Strip(v), "{")
    ensures IsNoneWord(Strip(v)) || Strip(v) == "" ==> DecodeParams(v, decode) == EmptyObject
    ensures !(IsNoneWord(Strip(v)) || Strip(v) == "") ==> DecodeParams(v, decode) == JStr(v)
  {
  }

  // ----- the assembled result -----

  /** A stored field other than `action_input` and `final_answer` is
      returned as it was stored; nothing but those two is ever added. */
  lemma OtherFieldsStored(p: Parser, decode: Decoder)
    ensures forall f | f != ActionInput && f != FinalAnswer ::
      (f in GetParsedData(p, decode) <==> f in p.parsed)
      && (f in p.parsed ==> GetParsedData(p, decode)[f] == JStr(p.parsed[f]))
  {
    var r1 := WithTruncatedFinalAnswer(p, Stored(p));
    var r2 := WithRecoveredActionInput(p, r1);
    var r3 := WithDecodedParams(p, r2, decode);
    forall f | f != ActionInput && f != FinalAnswer
      ensures (f in GetParsedData(p, decode) <==> f in p.parsed)
      ensures f in p.parsed ==> GetParsedData(p, decode)[f] == JStr(p.parsed[f])
    {
      TruncatedStage(p, Stored(p), f);
      RecoveredStage(p, r1, f);
      DecodedStage(p, r2, decode, f);
      NullStage(r3, f);
    }
  }

  /** A stored final answer is returned untrimmed, or as None when its
      trimmed text is `null` or `none` in any case. */
  lemma FinalAnswerReturned(p: Parser, decode: Decoder)
    requires FinalAnswer in p.parsed
    ensures FinalAnswer in GetParsedData(p, decode)
    ensures GetParsedData(p, decode)[FinalAnswer] ==
      if IsNoneWord(Strip(p.parsed[FinalAnswer])) then JNull else JStr(p.parsed[FinalAnswer])
  {
    var r2 := WithRecoveredActionInput(p, WithTruncatedFinalAnswer(p, Stored(p)));
    assert r2[FinalAnswer] == JStr(p.parsed[FinalAnswer]);
    assert WithDecodedParams(p, r2, decode)[FinalAnswer] == JStr(p.parsed[FinalAnswer]);
  }

  /** A reply that ends inside `final_answer` yields the text accumulated
      since its opening tag, not trimmed (or None for `null`/`none`). */
  lemma TruncatedFinalAnswer(p: Parser, chunk: string, decode: Decoder)
    requires p.lexer == InText && FinalAnswerOpen(p) && PlainText(chunk)
    ensures FinalAnswer in GetParsedData(ProcessChunk(p, chunk), decode)
    ensures GetParsedData(ProcessChunk(p, chunk), decode)[FinalAnswer] ==
      if IsNoneWord(Strip(p.content + chunk)) then JNull else JStr(p.content + chunk)
  {
    var p' := p.(raw := p.raw + chunk);
    FeedTextContent(p', chunk);
    var q := Feed(p', chunk);
    assert FinalAnswerOpen(q);
    assert ProcessChunk(p, chunk).parsed[FinalAnswer] == p.content + chunk;
    FinalAnswerReturned(ProcessChunk(p, chunk), decode);
  }

  // each stage of get_parsed_data touches one field only

  lemma TruncatedStage(p: Parser, r: map<Field, Json>, f: Field)
    requires f != FinalAnswer
    ensures f in WithTruncatedFinalAnswer(p, r) <==> f in r
    ensures f in r ==> WithTruncatedFinalAnswer(p, r)[f] == r[f]
  {
  }

  lemma RecoveredStage(p: Parser, r: map<Field, Json>, f: Field)
    requires f != ActionInput
    ensures f in WithRecoveredActionInput(p, r) <==> f in r
    ensures f in r ==> WithRecoveredActionInput(p, r)[f] == r[f]
  {
  }

  lemma DecodedStage(p: Parser, r: map<Field, Json>, decode: Decoder, f: Field)
    requires f != ActionInput
    ensures f in WithDecodedParams(p, r, decode) <==> f in r
    ensures f in r ==> WithDecodedParams(p, r, decode)[f] == r[f]
  {
  }

  lemma NullStage(r: map<Field, Json>, f: Field)
    requires f != FinalAnswer
    ensures f in WithNullFinalAnswer(r) <==> f in r
    ensures f in r ==> WithNullFinalAnswer(r)[f] == r[f]
  {
  }

  /** `action` and `action_input` as they stand after the truncated-answer
      stage: as stored. */
  lemma ActionFieldsStored(p: Parser)
    ensures var r1 := WithTruncatedFinalAnswer(p, Stored(p));
      (Action in r1 <==> Action in p.parsed)
      && (Action in p.parsed ==> r1[Action] == JStr(p.parsed[Action]))
      && (ActionInput in r1 <==> ActionInput in p.parsed)
      && (ActionInput in p.parsed ==> r1[ActionInput] == JStr(p.parsed[ActionInput]))
  {
    TruncatedStage(p, Stored(p), Action);
    TruncatedStage(p, Stored(p), ActionInput);
  }

  /** The parameters of a tool call whose `action_input` was closed are
      decoded from the stored text. */
  lemma ParamsDecoded(p: Parser, decode: Decoder)
    requires Action in p.parsed && Action !in p.nullContent && NamesTool(p.parsed[Action])
    requires ActionInput in p.parsed
    ensures ActionInput in GetParsedData(p, decode)
    ensures GetParsedData(p, decode)[ActionInput] == DecodeParams(p.parsed[ActionInput], decode)
  {
    var r1 := WithTruncatedFinalAnswer(p, Stored(p));
    ActionFieldsStored(p);
    var r2 := WithRecoveredActionInput(p, r1);
    assert r2 == r1;
    var r3 := WithDecodedParams(p, r2, decode);
    assert r3[ActionInput] == DecodeParams(p.parsed[ActionInput], decode);
    NullStage(r3, ActionInput);
  }

  /** The parameters of a tool call whose `action_input` never closed are
      recovered from the raw reply and then decoded. */
  lemma ParamsRecovered(p: Parser, decode: Decoder)
    requires Action in p.parsed && Action !in p.nullContent && NamesTool(p.parsed[Action])
    requires ActionInput !in p.parsed
    ensures RecoverActionInput(p.raw).Some? ==>
              && ActionInput in GetParsedData(p, decode)
              && GetParsedData(p, decode)[ActionInput] == DecodeParams(RecoverActionInput(p.raw).value, decode)
    ensures RecoverActionInput(p.raw).None? ==> ActionInput !in GetParsedData(p, decode)
  {
    var r1 := WithTruncatedFinalAnswer(p, Stored(p));
    ActionFieldsStored(p);
    var r2 := WithRecoveredActionInput(p, r1);
    RecoveredStage(p, r1, Action);
    var r3 := WithDecodedParams(p, r2, decode);
    match RecoverActionInput(p.raw)
    case Some(v) =>
      assert r2[ActionInput] == JStr(v);
      assert r3[ActionInput] == DecodeParams(v, decode);
      NullStage(r3, ActionInput);
    case None =>
      assert r3 == r2;
      NullStage(r3, ActionInput);
  }

  /** Without a live `action`, `action_input` is neither recovered nor
      decoded. */
  lemma ParamsUntouched(p: Parser, decode: Decoder)
    requires Action !in p.parsed || Action in p.nullContent
    ensures ActionInput in GetParsedData(p, decode) <==> ActionInput in p.parsed
    ensures ActionInput in p.parsed ==> GetParsedData(p, decode)[ActionInput] == JStr(p.parsed[ActionInput])
  {
    var r1 := WithTruncatedFinalAnswer(p, Stored(p));
    ActionFieldsStored(p);
    assert !ActionLive(p, r1);
    var r3 := WithDecodedParams(p, WithRecoveredActionInput(p, r1), decode);
    assert r3 == r1;
    NullStage(r3, ActionInput);
  }

  /** An `action` naming no tool (`null`, `none` or blank) leaves the
      parameters an undecoded string. */
  lemma ParamsOfNoTool(p: Parser, decode: Decoder)
    requires Action in p.parsed && !NamesTool(p.parsed[Action]) && ActionInput in p.parsed
    ensures ActionInput in GetParsedData(p, decode)
    ensures GetParsedData(p, decode)[ActionInput] == JStr(p.parsed[ActionInput])
  {
    var r1 := WithTruncatedFinalAnswer(p, Stored(p));
    ActionFieldsStored(p);
    var r2 := WithRecoveredActionInput(p, r1);
    assert r2 == r1;
    var r3 := WithDecodedParams(p, r2, decode);
    assert r3 == r1;
    NullStage(r3, ActionInput);
  }
}

=== FILE: xml_tags.dfy ===
/** What whole tags and runs of text do to the parser: lexing, the
    whitelist, close and open tags, and the echo of streamed text. */
module XmlTags {
  import opened Base
  import opened PyStr
  import opened XmlParser
  import opened XmlChunking

  /** A string the lexer reads as a tag name. */
  predicate IsTagName(name: string) {
    name != [] && IsNameStart(name[0]) && forall i :: 0 <= i < |name| ==> IsNameChar(name[i])
  }

  /** The text of an open or close tag. */
  function TagText(name: string, end: bool): string {
    "<" + (if end then "/" else "") + name + ">"
  }

  lemma FieldNamesAreTagNames(f: Field)
    ensures IsTagName(Name(f))
  {
  }

  lemma {:induction false} FeedNameChars(p: Parser, s: string)
    requires p.lexer == InTagName
    requires forall i :: 0 <= i < |s| ==> IsNameChar(s[i])
    ensures Feed(p, s) == p.(tagBuffer := p.tagBuffer + s)
    decreases |s|
  {
    if s == [] {
      assert p.tagBuffer + s == p.tagBuffer;
    } else {
      assert s[0] != '>';
      var q := Step(p, s[0]);
      assert q == p.(tagBuffer := p.tagBuffer + [s[0]]);
      FeedNameChars(q, s[1..]);
      assert p.tagBuffer + [s[0]] + s[1..] == p.tagBuffer + s;
    }
  }

  /** Reading `<name` or `</name` leaves the lexer inside the tag name. */
  lemma FeedTagOpening(p: Parser, name: string, end: bool)
    requires p.lexer == InText && IsTagName(name)
    ensures Feed(p, "<" + (if end then "/" else "") + name)
            == p.(lexer := InTagName, tagBuffer := name, inEndTag := end)
  {
    var lead := "<" + (if end then "/" else "");
    var q := Feed(p, lead);
    if end {
      assert Feed(p, "</") == Step(Step(p, '<'), '/') by {
        assert "</"[1..] == "/";
        assert "/"[1..] == "";
      }
      assert q == p.(lexer := InTagName, tagBuffer := "", inEndTag := true);
      FeedNameChars(q, name);
    } else {
      assert lead == "<";
      assert Feed(p, "<") == Step(p, '<') by { assert "<"[1..] == ""; }
      var r := Step(q, name[0]);
      assert r == p.(lexer := InTagName, tagBuffer := [name[0]], inEndTag := false);
      FeedNameChars(r, name[1..]);
      assert Feed(q, name) == Feed(r, name[1..]);
      assert [name[0]] + name[1..] == name;
    }
    FeedAppend(p, lead, name);
  }

  /** A complete tag is handled by `CompleteTag` once its `>` is read. */
  lemma FeedTag(p: Parser, name: string, end: bool)
    requires p.lexer == InText && IsTagName(name)
    ensures Feed(p, TagText(name, end))
            == CompleteTag(p.(lexer := InText, tagBuffer := name, inEndTag := end))
  {
    var opening := "<" + (if end then "/" else "") + name;
    FeedTagOpening(p, name, end);
    FeedAppend(p, opening, ">");
    assert TagText(name, end) == opening + ">";
    assert ">"[1..] == "";
  }

  /** A close tag matching the open field stores its trimmed content,
      flags it null exactly when that text is empty, blank or `null`, and
      leaves no field open. */
  lemma CloseMatching(p: Parser, f: Field)
    requires p.lexer == InText && p.current == Some(f)
    ensures Feed(p, TagText(Name(f), true)).parsed == p.parsed[f := Strip(p.content)]
    ensures f in Feed(p, TagText(Name(f), true)).nullContent <==> IsNullText(Strip(p.content))
    ensures Feed(p, TagText(Name(f), true)).current == None
    ensures Feed(p, TagText(Name(f), true)).content == ""
    ensures Feed(p, TagText(Name(f), true)).lexer == InText
  {
    FieldNamesAreTagNames(f);
    FeedTag(p, Name(f), true);
    assert Recognize(Name(f)) == Some(Content(f));
  }

  /** A close tag of another field is literal text of the open field. */
  lemma CloseMismatched(p: Parser, f: Field)
    requires p.lexer == InText && p.current != Some(f)
    ensures Feed(p, TagText(Name(f), true)).parsed == p.parsed
    ensures Feed(p, TagText(Name(f), true)).current == p.current
    ensures p.current.Some? ==> Feed(p, TagText(Name(f), true)).content == p.content + TagText(Name(f), true)
    ensures p.current.None? ==> Feed(p, TagText(Name(f), true)).content == p.content
  {
    FieldNamesAreTagNames(f);
    FeedTag(p, Name(f), true);
    var q := p.(lexer := InText, tagBuffer := Name(f), inEndTag := true);
    assert Recognize(Name(f)) == Some(Content(f));
    assert CompleteTag(q) == CloseTag(q, f);
    assert TagText(Name(f), true) == "</" + Name(f) + ">";
    assert CloseTag(q, f) == HandleInvalid(q, "</" + Name(f) + ">");
  }

  /** An open tag of a field reaches `OpenTag` once its `>` is read. */
  lemma FeedOpenTag(p: Parser, f: Field)
    requires p.lexer == InText
    ensures Feed(p, TagText(Name(f), false))
            == OpenTag(p.(tagBuffer := Name(f), inEndTag := false), f)
  {
    FieldNamesAreTagNames(f);
    FeedTag(p, Name(f), false);
    assert Recognize(Name(f)) == Some(Content(f));
  }

  /** Outside an open `final_answer`, an open tag switches to its field
      and discards whatever the previous field had accumulated. */
  lemma OpenSwitches(p: Parser, f: Field)
    requires p.lexer == InText && !FinalAnswerOpen(p)
    ensures Feed(p, TagText(Name(f), false)).current == Some(f)
    ensures Feed(p, TagText(Name(f), false)).content == ""
    ensures Feed(p, TagText(Name(f), false)).parsed == p.parsed
    ensures f == FinalAnswer ==> FinalAnswerOpen(Feed(p, TagText(Name(f), false)))
    ensures f == FinalAnswer ==> !Feed(p, TagText(Name(f), false)).finalAnswerStarted
  {
    FeedOpenTag(p, f);
    var q := p.(tagBuffer := Name(f), inEndTag := false);
    assert !FinalAnswerOpen(q);
    assert OpenTag(q, f) == PrintHeader(StartField(q, f), f);
  }

  /** While `final_answer` is open, an open tag is literal answer text. */
  lemma OpenInsideAnswer(p: Parser, f: Field)
    requires p.lexer == InText && FinalAnswerOpen(p)
    ensures Feed(p, TagText(Name(f), false)).content == p.content + TagText(Name(f), false)
    ensures Feed(p, TagText(Name(f), false)).current == Some(FinalAnswer)
    ensures Feed(p, TagText(Name(f), false)).parsed == p.parsed
    ensures FinalAnswerOpen(Feed(p, TagText(Name(f), false)))
  {
    FeedOpenTag(p, f);
    var q := p.(tagBuffer := Name(f), inEndTag := false);
    assert FinalAnswerOpen(q);
    assert TagText(Name(f), false) == "<" + Name(f) + ">";
    assert OpenTag(q, f) == HandleInvalid(q, "<" + Name(f) + ">");
  }

  /** A well-formed tag name outside the whitelist is literal text. */
  lemma UnknownTag(p: Parser, name: string, end: bool)
    requires p.lexer == InText && IsTagName(name) && Recognize(name).None?
    ensures Feed(p, TagText(name, end)).parsed == p.parsed
    ensures Feed(p, TagText(name, end)).current == p.current
    ensures p.current.Some? ==> Feed(p, TagText(name, end)).content == p.content + TagText(name, end)
    ensures p.current.None? ==> Feed(p, TagText(name, end)).content == p.content
  {
    FeedTag(p, name, end);
  }

  /** The root tag only toggles the in-root flag. */
  lemma RootTag(p: Parser, end: bool)
    requires p.lexer == InText
    ensures Feed(p, TagText(RootName, end)) == p.(inRoot := !end, tagBuffer := RootName, inEndTag := end)
  {
    FeedTag(p, RootName, end);
  }

  /** `<` followed by anything but `/`, a letter or `_` is literal text,
      and the character is consumed with it. */
  lemma InvalidTagStart(p: Parser, c: char)
    requires p.lexer == InText && c != '/' && !IsNameStart(c)
    ensures Feed(p, ['<', c]).parsed == p.parsed
    ensures Feed(p, ['<', c]).current == p.current
    ensures Feed(p, ['<', c]).lexer == InText
    ensures p.current.Some? ==> Feed(p, ['<', c]).content == p.content + ['<', c]
    ensures p.current.None? ==> Feed(p, ['<', c]).content == p.content
  {
    var q := Step(p, '<');
    assert Feed(p, ['<', c]) == Feed(q, [c]) by { assert ['<', c][1..] == [c]; }
    assert Feed(q, [c]) == Step(q, c) by { assert [c][1..] == []; }
    assert Step(q, c) == HandleInvalid(q, ['<', c]).(lexer := InText);
  }

  /** No `<` in `s`. */
  predicate PlainText(s: string) {
    forall i :: 0 <= i < |s| ==> s[i] != '<'
  }

  lemma PlainTail(s: string)
    requires s != [] && PlainText(s)
    ensures s[0] != '<' && PlainText(s[1..])
  {
    assert forall i :: 0 <= i < |s[1..]| ==> s[1..][i] == s[i + 1];
  }

  /** A run of text without `<` is appended to the open field's content
      and changes nothing else but the echo state. */
  lemma {:induction false} FeedTextContent(p: Parser, s: string)
    requires p.lexer == InText && PlainText(s)
    ensures Feed(p, s).lexer == InText
    ensures p.current.None? ==> Feed(p, s) == p
    ensures p.current.Some? ==> Feed(p, s) == p.(content := p.content + s,
      finalAnswerStarted := Feed(p, s).finalAnswerStarted, emitted := Feed(p, s).emitted)
    decreases |s|
  {
    if s == [] {
      assert p.content + s == p.content;
    } else {
      PlainTail(s);
      var q := Step(p, s[0]);
      assert q == ContentChar(p, s[0]);
      FeedTextContent(q, s[1..]);
      assert p.content + [s[0]] + s[1..] == p.content + s;
    }
  }

  /** The echo of a run of text without `<` in `thought`: all of it. */
  lemma {:induction false} EchoThought(p: Parser, s: string)
    requires p.lexer == InText && PlainText(s) && p.current == Some(Thought)
    ensures Feed(p, s).emitted == p.emitted + s
    decreases |s|
  {
    if s == [] {
      assert p.emitted + s == p.emitted;
    } else {
      PlainTail(s);
      var q := Step(p, s[0]);
      assert q == ContentChar(p, s[0]);
      EchoThought(q, s[1..]);
      assert p.emitted + [s[0]] + s[1..] == p.emitted + s;
    }
  }

  /** The echo in `action` and `action_input`: nothing. */
  lemma {:induction false} EchoSilent(p: Parser, s: string)
    requires p.lexer == InText && PlainText(s)
    requires p.current == Some(Action) || p.current == Some(ActionInput)
    ensures Feed(p, s).emitted == p.emitted
    decreases |s|
  {
    if s != [] {
      PlainTail(s);
      var q := Step(p, s[0]);
      assert q == ContentChar(p, s[0]);
      EchoSilent(q, s[1..]);
    }
  }

  /** The echo in `final_answer` once its text has started: everything. */
  lemma {:induction false} EchoAnswerStarted(p: Parser, s: string)
    requires p.lexer == InText && PlainText(s) && p.current == Some(FinalAnswer)
    requires p.finalAnswerStarted
    ensures Feed(p, s).emitted == p.emitted + s
    decreases |s|
  {
    if s == [] {
      assert p.emitted + s == p.emitted;
    } else {
      PlainTail(s);
      var q := Step(p, s[0]);
      assert q == ContentChar(p, s[0]);
      assert q.finalAnswerStarted && q.current == Some(FinalAnswer) && q.lexer == InText;
      EchoAnswerStarted(q, s[1..]);
      assert p.emitted + [s[0]] + s[1..] == p.emitted + s;
    }
  }

  /** The echo in `final_answer` before its text has started: nothing
      before the first non-space character, everything from it on. */
  lemma {:induction false} EchoAnswer(p: Parser, s: string)
    requires p.lexer == InText && PlainText(s) && p.current == Some(FinalAnswer)
    requires !p.finalAnswerStarted
    ensures Feed(p, s).emitted == p.emitted + LStrip(s)
    decreases |s|
  {
    if s == [] {
      assert p.emitted + s == p.emitted;
    } else {
      PlainTail(s);
      var q := Step(p, s[0]);
      assert q == ContentChar(p, s[0]);
      if IsSpace(s[0]) {
        assert q == p.(content := p.content + [s[0]]);
        EchoAnswer(q, s[1..]);
      } else {
        assert q.emitted == p.emitted + [s[0]] && q.finalAnswerStarted;
        EchoAnswerStarted(q, s[1..]);
        assert p.emitted + [s[0]] + s[1..] == p.emitted + s;
      }
    }
  }
}
